=== FILE: README.md ===
# OSPRay core, modelled in Dafny

This project models three layers of OSPRay 1.x and its bundled Embree 2.7.1.

**Acceleration-structure front end (Embree).**

- Primitive-reference generation (`primrefgen.cpp`). Triangles and curves are split into chunks. A prefix-sum engine runs in two passes and summarises the primitives with a `PrimInfo` record.
- Triangle pairing. Neighbouring triangles that share an edge are merged into one reference. A triangle left on its own gets bit 31 of its geometry id set.
- The `BVH4` factory. It maps a mesh's flags, or an `accel`/`builder`/`traverser` name, to a concrete acceleration structure.
- The Möller–Trumbore intersector for triangle pairs, both the one-ray and the ray-packet forms, with its two loops: closest hit and occlusion.
- The `BuildRef` record of the instancing builder.

**Object registries (OSPRay).** `Renderer`, `Camera`, `TransferFunction`, `Volume` and `PixelOp` are each created by name. A name is resolved through a `std::map` from type names to creator functions. The model covers the per-kind `ospray_create_<kind>__<type>` symbol lookup and each registry's caching policy. The commit-time parameter defaults are modelled too.

**Scene loading (applications).**

- The volume-file loader. It dispatches on the file extension to a registered importer.
- The scene-graph importer's extension dispatch.
- The triangle-mesh scene parser:
  - its command-line grammar, including `atoi` on option values;
  - material creation, which includes the OBJ `Ns` exponent remap and the per-material warnings;
  - the alpha-map lists;
  - scene finalisation: mesh/instance truncation and instancing.

Each entity of the source is a `datatype`. Each operation is a `function`, or a `method` where the source loops. The source's parallel loops are modelled as their sequential chunk-by-chunk meaning. A chunking is a partition `cuts` of the index range. Lemmas show that the result does not depend on how the range is cut.

Nothing external is modelled. Dynamic symbol lookup, file contents, transforms, `area`, and the floating-point rounding of the intersector are all parameters. The kernel's `float` arithmetic is modelled as exact `real` arithmetic. The Möller test's strict and inclusive edge comparisons are kept distinct, because that is where the ray-packet and one-ray code differ.

Source paths in the table are relative to the repository root.

## Model

| member | source | states |
|---|---|---|
| Geometry.Union | ospray/embree-v2.7.1/kernels/xeon/builders/primrefgen.cpp:270-271 | the bounds of a merged pair are the box extension of both triangles' bounds |
| Geometry.ExtendAssoc | ospray/embree-v2.7.1/kernels/xeon/builders/primrefgen.cpp:46 | box extension is associative, so the bounds a reduction computes do not depend on grouping |
| Geometry.ExtendComm | ospray/embree-v2.7.1/kernels/xeon/builders/primrefgen.cpp:46 | box extension is commutative |
| Geometry.ExtendContains | ospray/embree-v2.7.1/kernels/xeon/builders/primrefgen.cpp:42 | an extended box contains both of the boxes it was made from |
| Geometry.AddPrim | ospray/embree-v2.7.1/kernels/xeon/builders/primrefgen.cpp:42 | `pinfo.add(bounds, center2)` counts one more primitive; the geometry bounds grow to contain the primitive and everything seen before, and so do the centroid bounds with the doubled centre |
| Geometry.MergeAssoc | ospray/embree-v2.7.1/kernels/xeon/builders/primrefgen.cpp:46 | `PrimInfo::merge`, the prefix-sum reduction, is associative |
| Geometry.MergeComm | ospray/embree-v2.7.1/kernels/xeon/builders/primrefgen.cpp:46 | `PrimInfo::merge` is commutative |
| Geometry.MergeIdentity | ospray/embree-v2.7.1/kernels/xeon/builders/primrefgen.cpp:32 | `PrimInfo(empty)` is a two-sided identity of `merge`, as the reduction's start value must be |
| Geometry.InfoOfAppend | ospray/embree-v2.7.1/kernels/xeon/builders/primrefgen.cpp:32-46 | the summary of two consecutive runs of references is the merge of their summaries, which is what lets per-chunk summaries be combined |
| Geometry.InfoOfCount | ospray/embree-v2.7.1/kernels/xeon/builders/primrefgen.cpp:49 | the summary's `size()` is the number of references summarised |
| Geometry.InfoOfContains | ospray/embree-v2.7.1/kernels/xeon/builders/primrefgen.cpp:42 | the summary's geometry bounds contain the bounds of every summarised reference |
| PrimRefGen.CompactMembers | ospray/embree-v2.7.1/kernels/xeon/builders/primrefgen.cpp:36-43 | a value is among the written references exactly when some primitive index produced it, that is, when the primitive is valid |
| PrimRefGen.CompactLength | ospray/embree-v2.7.1/kernels/xeon/builders/primrefgen.cpp:49 | at most one reference is written per index, and exactly one per index when no primitive is invalid |
| PrimRefGen.Compact | ospray/embree-v2.7.1/kernels/xeon/builders/primrefgen.cpp:49-63 | compaction never lengthens the list, and every kept item was a valid candidate |
| PrimRefGen.CompactAllValid | ospray/embree-v2.7.1/kernels/xeon/builders/primrefgen.cpp:34-43 | with no invalid primitive, index j's reference lands in slot j |
| PrimRefGen.NoneShrinks | ospray/embree-v2.7.1/kernels/xeon/builders/primrefgen.cpp:39-49 | one invalid primitive leaves fewer references than indices, which is the condition that triggers the second pass |
| PrimRefGen.CompactAppend | ospray/embree-v2.7.1/kernels/xeon/builders/primrefgen.cpp:32-46 | the references of two consecutive index ranges are those of the first range followed by those of the second, so chunks are independent |
| PrimRefGen.Write | ospray/embree-v2.7.1/kernels/xeon/builders/primrefgen.cpp:43 | `prims[k++] = prim` over a run puts the run at k and leaves every other slot unchanged |
| PrimRefGen.ScanChunk | ospray/embree-v2.7.1/kernels/xeon/builders/primrefgen.cpp:32-46 | one chunk task writes exactly the chunk's valid references contiguously from k and nothing else, and returns their summary |
| PrimRefGen.FoldChunksIndependent | ospray/embree-v2.7.1/kernels/xeon/builders/primrefgen.cpp:32-46 | merging the chunk summaries gives the summary of all references up to the last cut, however the range is cut |
| PrimRefGen.PartitionFold | ospray/embree-v2.7.1/kernels/xeon/builders/primrefgen.cpp:32-46 | over a partition of the whole range, the merged chunk summaries are the summary of every valid reference |
| PrimRefGen.EmptySourceEmptySummary | ospray/embree-v2.7.1/kernels/xeon/builders/primrefgen.cpp:32-49 | with no primitives the summary is `PrimInfo(empty)` with size 0 |
| PrimRefGen.FirstPass | ospray/embree-v2.7.1/kernels/xeon/builders/primrefgen.cpp:32-46 | the first pass returns the summary of all valid references and keeps the array's size; when every primitive is valid, it has already stored all references in index order |
| PrimRefGen.SecondPass | ospray/embree-v2.7.1/kernels/xeon/builders/primrefgen.cpp:52-65 | the second pass starts every chunk at `base.size()`, so the array's prefix is exactly the valid references in index order, and it returns their summary |
| PrimRefGen.CreateRefArray | ospray/embree-v2.7.1/kernels/xeon/builders/primrefgen.cpp:27-68 | the generator returns the summary of the valid references; its size is at most the number of indices; the prefix of that size holds the references in index order; the second pass runs exactly when some primitive was dropped |
| PrimRefGen.MeshCandidates | ospray/embree-v2.7.1/kernels/xeon/builders/primrefgen.cpp:38-41 | triangle j yields `PrimRef(bounds, mesh->id, j)` exactly when its bounds are valid, and nothing otherwise |
| PrimRefGen.MeshRefsExact | ospray/embree-v2.7.1/kernels/xeon/builders/primrefgen.cpp:36-43 | a mesh's references name valid triangles with strictly increasing primitive ids, and every valid triangle is named |
| PrimRefGen.CreatePrimRefArray | ospray/embree-v2.7.1/kernels/xeon/builders/primrefgen.cpp:27-68 | for one mesh, the leading `size()` slots hold exactly the valid triangles' references in order; when all are valid, triangle j's reference is in slot j |
| PrimRefGen.FirstPassAllValid | ospray/embree-v2.7.1/kernels/xeon/builders/primrefgen.cpp:32-49 | for a mesh with no invalid triangle the first pass alone fills the array with slot j holding triangle j |
| PrimRefGen.SceneRefsCompact | ospray/embree-v2.7.1/kernels/xeon/builders/primrefgen.cpp:79-91 | the scene's references are those of each mesh in turn, concatenated in mesh order |
| PrimRefGen.CreateScenePrimRefArray | ospray/embree-v2.7.1/kernels/xeon/builders/primrefgen.cpp:70-113 | for a scene, the leading `size()` slots hold every mesh's valid references, mesh after mesh, and the result summarises them |
| PrimRefGen.PushRef | ospray/embree-v2.7.1/kernels/xeon/builders/primrefgen.cpp:130-132 | inserting into the current block, or into a fresh block when it is full, appends the reference to the flattened list and keeps every block within capacity |
| PrimRefGen.AppendCandidate | ospray/embree-v2.7.1/kernels/xeon/builders/primrefgen.cpp:126-132 | one loop step appends the primitive's reference when it is valid, leaves the list unchanged when it is not, and keeps the summary in step with the list |
| PrimRefGen.OpenBlock | ospray/embree-v2.7.1/kernels/xeon/builders/primrefgen.cpp:123 | each task starts with a new empty block, so the flattened list does not change |
| PrimRefGen.AppendChunk | ospray/embree-v2.7.1/kernels/xeon/builders/primrefgen.cpp:120-135 | one task appends the chunk's valid references to the list and returns their summary |
| PrimRefGen.CreatePrimRefList | ospray/embree-v2.7.1/kernels/xeon/builders/primrefgen.cpp:115-138 | the block list flattens to the scene's valid references and the result summarises them; every block is within capacity |
| BezierRefs.Mid | ospray/embree-v2.7.1/kernels/xeon/builders/primrefgen.cpp:199-202 | the two-step average of a lane is finite exactly when both operands are |
| BezierRefs.MidPoint | ospray/embree-v2.7.1/kernels/xeon/builders/primrefgen.cpp:198-204 | an averaged control point passes `isvalid` exactly when both time steps' points do |
| BezierRefs.CurveCandidate | ospray/embree-v2.7.1/kernels/xeon/builders/primrefgen.cpp:190-207 | one loop iteration on curve j: it reads out of range exactly when the `int` offset is -3 to -1 and `ofs+3` is below the vertex count, reporting curve j and its offset; a kept curve yields a `BezierPrim` with the curve set's id and primitive id j |
| BezierRefs.SizeTestCases | ospray/embree-v2.7.1/kernels/xeon/builders/primrefgen.cpp:190-192 | the `int` sum `ofs+3` compared as a `size_t` passes exactly when the offset lies in [-3, INT_MAX-3] and `ofs+3` is below the vertex count |
| BezierRefs.CurveOffsetCases | ospray/embree-v2.7.1/kernels/xeon/builders/primrefgen.cpp:190-199 | offsets of -4 or less, above INT_MAX-3, or with `ofs+3` at or past the vertex count are skipped; offsets -3 to -1 below the count read before the vertex buffer |
| BezierRefs.CurveKeptIff | ospray/embree-v2.7.1/kernels/xeon/builders/primrefgen.cpp:190-205 | curve j is kept exactly when its offset is in [0, INT_MAX-3], `ofs+3` is below the vertex count and all four control vertices are finite in every time step used |
| BezierRefs.StaticCurveUnchanged | ospray/embree-v2.7.1/kernels/xeon/builders/primrefgen.cpp:190-207 | when both time steps hold the same vertices, the two-step loop skips, fails or stores exactly as the one-step loop does |
| BezierRefs.CurvesCandidates | ospray/embree-v2.7.1/kernels/xeon/builders/primrefgen.cpp:188-211 | for a curve set read in range, there is one candidate per curve index, and candidate j is what curve j yields |
| BezierRefs.BadCurveFrom | ospray/embree-v2.7.1/kernels/xeon/builders/primrefgen.cpp:188-199 | no error exactly when every curve from j on is read in range; an error returned is some such curve's out-of-range read |
| BezierRefs.BadReadFrom | ospray/embree-v2.7.1/kernels/xeon/builders/primrefgen.cpp:145-150 | no error exactly when every curve set from m on is read in range; an error returned is some curve's out-of-range read |
| BezierRefs.SceneCurveCandidatesLength | ospray/embree-v2.7.1/kernels/xeon/builders/primrefgen.cpp:145-150 | the scene's curve index space has as many indices as the scene has curves |
| BezierRefs.KeptCurvesValid | ospray/embree-v2.7.1/kernels/xeon/builders/primrefgen.cpp:204-210 | every stored curve has four finite control points |
| BezierRefs.CandidateValid | ospray/embree-v2.7.1/kernels/xeon/builders/primrefgen.cpp:204-210 | any kept candidate of the scene has four finite control points |
| BezierRefs.CreateBezierRefArray | ospray/embree-v2.7.1/kernels/xeon/builders/primrefgen.cpp:141-216 | an error exactly when some curve's negative offset passes the size test, with `prims` untouched; otherwise the summary of the kept curves, with the leading `size()` slots holding them in scene order, each with four finite control points, and the second pass run exactly when a curve was dropped |
| TrianglePairs.CountMatchesEmit | ospray/embree-v2.7.1/kernels/xeon/builders/primrefgen.cpp:284 | for any range, the count pass counts exactly as many references as the emit pass writes, which is the closing `assert(numPrimitives == prims.size())` |
| TrianglePairs.SlotsShape | ospray/embree-v2.7.1/kernels/xeon/builders/primrefgen.cpp:262-276 | every reference of a range stands for valid triangles inside the range; a pair only where the next triangle is valid and shares an edge; references come in strictly increasing position order without overlap |
| TrianglePairs.ValidCovered | ospray/embree-v2.7.1/kernels/xeon/builders/primrefgen.cpp:249-278 | every valid triangle of a range is covered by some reference |
| TrianglePairs.SlotsCover | ospray/embree-v2.7.1/kernels/xeon/builders/primrefgen.cpp:249-278 | a triangle of the range is covered by a reference exactly when it is valid |
| TrianglePairs.CoveredOnce | ospray/embree-v2.7.1/kernels/xeon/builders/primrefgen.cpp:262-276 | no triangle is covered by two different references |
| TrianglePairs.PairsAreSlotRefs | ospray/embree-v2.7.1/kernels/xeon/builders/primrefgen.cpp:258-278 | the emitted references are one per covering slot, in order; a merged reference has the union bounds and a clear flag bit, and a single one has bit 31 set |
| TrianglePairs.DecodeSlotRef | ospray/embree-v2.7.1/kernels/xeon/builders/primrefgen.cpp:261-278 | for geometry ids below 2^31, masking bit 31 off the stored id gives back the geometry id, and the bit is clear exactly for merged pairs; the primitive id is that of the first triangle |
| TrianglePairs.CountChunk | ospray/embree-v2.7.1/kernels/xeon/builders/primrefgen.cpp:228-243 | one count task returns the number of references the chunk produces |
| TrianglePairs.EmitOne | ospray/embree-v2.7.1/kernels/xeon/builders/primrefgen.cpp:258-279 | one emit step at a valid triangle produces the range's next reference and resumes one or two triangles later |
| TrianglePairs.SkipInvalid | ospray/embree-v2.7.1/kernels/xeon/builders/primrefgen.cpp:255-256 | an invalid triangle contributes no reference |
| TrianglePairs.EmitChunk | ospray/embree-v2.7.1/kernels/xeon/builders/primrefgen.cpp:249-281 | one emit task writes the chunk's references contiguously from k, changes no other slot, and returns their summary |
| TrianglePairs.ChunkedCountMatches | ospray/embree-v2.7.1/kernels/xeon/builders/primrefgen.cpp:244-284 | summed over all chunks, the counts equal the number of references emitted |
| TrianglePairs.ChunkedPrefix | ospray/embree-v2.7.1/kernels/xeon/builders/primrefgen.cpp:251-253 | the references of the earlier chunks are a prefix of the whole output, which is why `base.size()` is each chunk's start |
| TrianglePairs.NoPairAcrossCut | ospray/embree-v2.7.1/kernels/xeon/builders/primrefgen.cpp:262-266 | a merged reference's two triangles always lie inside one chunk |
| TrianglePairs.CountPass | ospray/embree-v2.7.1/kernels/xeon/builders/primrefgen.cpp:225-244 | the count pass returns the total number of references of all chunks, which is the size `prims` is resized to |
| TrianglePairs.EmitPass | ospray/embree-v2.7.1/kernels/xeon/builders/primrefgen.cpp:249-282 | the emit pass fills the resized array with every chunk's references in chunk order and returns their summary |
| TrianglePairs.CreatePairRefArray | ospray/embree-v2.7.1/kernels/xeon/builders/primrefgen.cpp:218-286 | counted size, array size and summary size agree; the array holds every chunk's references in chunk order; the result summarises them |
| TrianglePairs.MeshItems | ospray/embree-v2.7.1/kernels/xeon/builders/primrefgen.cpp:258-269 | a mesh's triangle j carries the mesh id, primitive id j and its own bounds; it may pair with its successor only when that successor exists and shares an edge |
| TrianglePairs.SceneItemsLastAlone | ospray/embree-v2.7.1/kernels/xeon/builders/primrefgen.cpp:300-314 | the last triangle of the scene's index space never pairs forward |
| TrianglePairs.SceneSharingStaysInMesh | ospray/embree-v2.7.1/kernels/xeon/builders/primrefgen.cpp:300-314 | in the scene's index space a triangle only pairs with the next triangle of its own mesh |
| TrianglePairs.ScenePairsInOneMesh | ospray/embree-v2.7.1/kernels/xeon/builders/primrefgen.cpp:321-354 | a merged scene reference stands for triangles j and j+1 of one mesh |
| TrianglePairs.CreateMeshPairRefArray | ospray/embree-v2.7.1/kernels/xeon/builders/primrefgen.cpp:218-286 | for one mesh the array holds the mesh's pair references in chunk order, and the summary's size is the array's size |
| TrianglePairs.CreateScenePairRefArray | ospray/embree-v2.7.1/kernels/xeon/builders/primrefgen.cpp:289-357 | for a scene the array holds the pair references of the scene's index space in chunk order, and the summary's size is the array's size |
| BuildRefs.MakeRef | ospray/embree-v2.7.1/kernels/xeon/bvh4/bvh4_builder_instancing.h:36-46 | the constructor stores every argument; depth defaults to 0; the `lower.w` lane caches the world-bounds area for an inner node and 0 otherwise |
| BuildRefs.ClearArea | ospray/embree-v2.7.1/kernels/xeon/bvh4/bvh4_builder_instancing.h:48-50 | `clearArea()` zeroes the cached area and changes no other field |
| BuildRefs.CachedAreaIsWorldArea | ospray/embree-v2.7.1/kernels/xeon/bvh4/bvh4_builder_instancing.h:36-54 | for an inner node the cached area equals the area of what `worldBounds()` recomputes |
| BuildRefs.NonInnerRefsTie | ospray/embree-v2.7.1/kernels/xeon/bvh4/bvh4_builder_instancing.h:43-45 | two freshly built refs of non-inner nodes are incomparable under `operator<` |
| BuildRefs.ClearAreaEffects | ospray/embree-v2.7.1/kernels/xeon/bvh4/bvh4_builder_instancing.h:48-57 | clearing keeps the world bounds; the cleared ref still satisfies the cache invariant only if it is not an inner node or its area is 0; it sorts before any ref with a positive area; clearing is idempotent |
| BuildRefs.LessIsStrictWeakOrder | ospray/embree-v2.7.1/kernels/xeon/bvh4/bvh4_builder_instancing.h:56-58 | `operator<` is a strict weak order whose incomparability classes are the refs with equal cached area, as `std::sort` requires |
| BuildRefs.LessOnlySeesArea | ospray/embree-v2.7.1/kernels/xeon/bvh4/bvh4_builder_instancing.h:56-58 | `operator<` depends on nothing but the cached area |
| Bvh4Factory.ChunkHybridShareSingleRay | ospray/embree-v2.7.1/kernels/xeon/bvh/bvh4_factory.cpp:383-490 | for each triangle encoding, the chunk and hybrid tables hold the same single-ray kernel (Moeller for Triangle4/8, Pluecker for 4v/4i) and differ in their packet kernels |
| Bvh4Factory.MBChunkHybridShareSingleRay | ospray/embree-v2.7.1/kernels/xeon/bvh/bvh4_factory.cpp:492-512 | the motion-blur chunk and hybrid tables share the single-ray kernel and differ in the 4-wide packet kernel |
| Bvh4Factory.ParseTraverser | ospray/embree-v2.7.1/kernels/xeon/bvh/bvh4_factory.cpp:576-579 | `tri_traverser` "default" and "hybrid" select the hybrid table, "chunk" the chunk table, and any other name is rejected |
| Bvh4Factory.ParseBuilder | ospray/embree-v2.7.1/kernels/xeon/bvh/bvh4_factory.cpp:582-587 | `tri_builder` is accepted exactly for "default", "sah", "sah_spatial", "sah_presplit" and "morton"; each selects a scene builder, and only "sah_presplit" uses `MODE_HIGH_QUALITY` |
| Bvh4Factory.TriangleAccelDecision | ospray/embree-v2.7.1/kernels/xeon/bvh/bvh4_factory.cpp:571-656 | a scene-level triangle accel is built exactly when both names are known; an unknown traverser raises `RTC_INVALID_ARGUMENT` with an "unknown traverser " message whatever the builder name is; a built accel has the encoding's leaf type, the table the traverser names and the builder the builder name names |
| Bvh4Factory.TriangleAccel | ospray/embree-v2.7.1/kernels/xeon/bvh/bvh4_factory.cpp:571-656 | a failure is an `RTC_INVALID_ARGUMENT` whose message starts "unknown "; a built accel has the encoding's leaf type, and its builder emits that same type |
| Bvh4Factory.TriangleAccelSceneFlags | ospray/embree-v2.7.1/kernels/xeon/bvh/bvh4_factory.cpp:636-656 | of the four scene-level triangle accels, only Triangle4i changes the scene, by setting `needTriangleVertices` |
| Bvh4Factory.Triangle4vMBAccel | ospray/embree-v2.7.1/kernels/xeon/bvh/bvh4_factory.cpp:658-673 | the motion-blur accel is built exactly when the traverser is known and `tri_builder_mb` is "default" or "sah"; it then uses the SAH scene builder and leaves the scene flags alone; every failure is `RTC_INVALID_ARGUMENT` |
| Bvh4Factory.MBBuilderNames | ospray/embree-v2.7.1/kernels/xeon/bvh/bvh4_factory.cpp:658-671 | the motion-blur accel checks the traverser before the builder name, and rejects the builder names the static accels accept beyond "default" and "sah" |
| Bvh4Factory.MeshFlagTable | ospray/embree-v2.7.1/kernels/xeon/bvh/bvh4_factory.cpp:675-736 | for every per-mesh encoding: a static mesh gets the SAH builder, a deformable one the refit builder, a dynamic one the Morton builder (SAH for triangle pairs), and any other flag raises `RTC_UNKNOWN_ERROR` |
| Bvh4Factory.CreateTriangleMesh | ospray/embree-v2.7.1/kernels/xeon/bvh/bvh4_factory.cpp:675-736 | the per-mesh constructor fails exactly on an unrecognised geometry flag, with `RTC_UNKNOWN_ERROR` "invalid geometry flag"; otherwise the BVH's leaf type is the encoding's primitive and the builder emits it |
| Bvh4Factory.FixedAccelsConsistent | ospray/embree-v2.7.1/kernels/xeon/bvh/bvh4_factory.cpp:528-922 | every fixed-configuration accel, corrected pairs accel included, has a builder and intersector kernels for its own leaf type |
| Bvh4Factory.PairsTwoLevelLeafMismatch | ospray/embree-v2.7.1/kernels/xeon/bvh/bvh4_factory.cpp:763-769 | as written, the two-level pairs accel declares Triangle8 leaves while its kernels and per-mesh accels are TrianglePairs4; the corrected accel differs only in the leaf type and is consistent |
| Bvh4Factory.FixedAccelSceneFlags | ospray/embree-v2.7.1/kernels/xeon/bvh/bvh4_factory.cpp:528-870 | the fixed-configuration accels change exactly the named scene flags: the Bezier1i variants set `needBezierVertices`, Triangle4i object split sets `needTriangleVertices`, the cached subdivision accel clears `needSubdivIndices` and sets `needSubdivVertices`, and the others change nothing |
| MoellerPairs.RunStages | ospray/embree-v2.7.1/kernels/xeon/geometry/trianglepairs_intersector_moeller.h:200-238 | the kernels' "AND a test into the mask, return false as soon as none is left" control flow hands the epilog exactly the lanes that were active and pass every test; with at least one test it reaches the epilog exactly when some such lane exists |
| MoellerPairs.MaskOnlyShrinks | ospray/embree-v2.7.1/kernels/xeon/geometry/trianglepairs_intersector_moeller.h:200-238 | the mask the epilog receives is a sub-mask of the incoming `valid0` |
| MoellerPairs.EmptyMaskNoHit | ospray/embree-v2.7.1/kernels/xeon/geometry/trianglepairs_intersector_moeller.h:209-210 | a call with no active lane reports no hit |
| MoellerPairs.FromVerticesRecovers | ospray/embree-v2.7.1/kernels/xeon/geometry/trianglepairs_intersector_moeller.h:138-141 | the edge form `e1 = v0-v1`, `e2 = v2-v0` loses no vertex: `v1 = v0-e1` and `v2 = v0+e2` |
| MoellerPairs.NormalOrthogonal | ospray/embree-v2.7.1/kernels/xeon/geometry/trianglepairs_intersector_moeller.h:138-140 | the derived normal `Ng = e1 x e2` is perpendicular to both edges |
| MoellerPairs.DistanceOnPlane | ospray/embree-v2.7.1/kernels/xeon/geometry/trianglepairs_intersector_moeller.h:102-121 | for a non-parallel ray, the sign-folded `T/|den|` equals the plane distance `(Ng.C)/(Ng.D)`, and the point at that distance lies on the triangle's plane |
| MoellerPairs.Intersect1Lanes | ospray/embree-v2.7.1/kernels/xeon/geometry/trianglepairs_intersector_moeller.h:90-128 | the single-ray kernel reaches the epilog exactly when some triangle lane passes the edge and depth tests, and the epilog's mask is exactly those lanes |
| MoellerPairs.Intersect1 | ospray/embree-v2.7.1/kernels/xeon/geometry/trianglepairs_intersector_moeller.h:90-128 | a hit mask has one lane per triangle, and every lane in it passed the edge tests (non-zero or, when culling, positive denominator; u, v and u+v within range) |
| MoellerPairs.IntersectKLanes | ospray/embree-v2.7.1/kernels/xeon/geometry/trianglepairs_intersector_moeller.h:186-239 | the packet kernel reaches the epilog exactly when some active ray passes all five tests, and the epilog's mask is exactly the active rays that do |
| MoellerPairs.IntersectK | ospray/embree-v2.7.1/kernels/xeon/geometry/trianglepairs_intersector_moeller.h:186-239 | a hit mask has one lane per ray and is a sub-mask of the active lanes; a hit needs at least one active ray |
| MoellerPairs.AcceptKFacts | ospray/embree-v2.7.1/kernels/xeon/geometry/trianglepairs_intersector_moeller.h:207-234 | a packet lane passes exactly when `U >= 0`, `V >= 0`, `|den|-U-V >= 0`, `|den|*tnear <= T <= |den|*tfar`, and `den` is positive (culling) or non-zero |
| MoellerPairs.EdgeTestsAgree | ospray/embree-v2.7.1/kernels/xeon/geometry/trianglepairs_intersector_moeller.h:114-116 | the packet kernel's separate edge, `W` and facing tests accept exactly the lanes the single-ray kernel's combined edge mask accepts |
| MoellerPairs.StrictImpliesInclusive | ospray/embree-v2.7.1/kernels/xeon/geometry/trianglepairs_intersector_moeller.h:122 | every lane the single-ray kernel accepts, the packet kernel accepts too |
| MoellerPairs.BoundaryHitDiffers | ospray/embree-v2.7.1/kernels/xeon/geometry/trianglepairs_intersector_moeller.h:122 | the converse fails: a ray that meets the triangle at exactly `tnear` is a hit for the packet kernel (line 224) and a miss for the single-ray kernel |
| MoellerPairs.HitDistanceInRange | ospray/embree-v2.7.1/kernels/xeon/geometry/trianglepairs_intersector_moeller.h:122 | an accepted single-ray lane has `|den| > 0` and a hit distance strictly inside `(tnear, tfar)`; an accepted packet lane (line 224) one inside `[tnear, tfar]` |
| MoellerPairs.ReversedNormal | ospray/embree-v2.7.1/kernels/xeon/geometry/trianglepairs_intersector_moeller.h:397 | swapping the first two vertices negates the derived normal |
| MoellerPairs.WindingReversesFacing | ospray/embree-v2.7.1/kernels/xeon/geometry/trianglepairs_intersector_moeller.h:397 | swapping the first two vertices negates `den`, so under back-face culling at most one of the two windings of a triangle can be hit by a ray |
| MoellerPairs.RotationRoundTrip | ospray/embree-v2.7.1/kernels/xeon/geometry/trianglepairs_intersector_moeller.h:155-156 | decoding the rotation word's low byte and third byte gives back the two indices the word was encoded from |
| MoellerPairs.Uwv | ospray/embree-v2.7.1/kernels/xeon/geometry/trianglepairs_intersector_moeller.h:157-161 | the triple `{u, w, v}` the hit reports from sums to 1 |
| MoellerPairs.HitK | ospray/embree-v2.7.1/kernels/xeon/geometry/trianglepairs_intersector_moeller.h:152-166 | the reported distance times `|den|` is `T`; the normal is `Ng` scaled by `flipNg`; `(u, v)` are the triple entries the rotation selects |
| MoellerPairs.HitBarycentric | ospray/embree-v2.7.1/kernels/xeon/geometry/trianglepairs_intersector_moeller.h:152-166 | for a lane past the edge tests, every triple entry and both reported coordinates lie in [0, 1], whatever the rotation; rotation `0 | 2<<16` reports `(U/|den|, V/|den|)` |
| MoellerPairs.TripleInUnitRange | ospray/embree-v2.7.1/kernels/xeon/geometry/trianglepairs_intersector_moeller.h:157-161 | after the edge tests `u`, `w = 1-u-v` and `v` each lie in [0, 1] |
| PairLoops.ValidPrefix | ospray/embree-v2.7.1/kernels/xeon/geometry/trianglepairs_intersector_moeller.h:389-391 | the slot loops visit the slots before the first invalid one, and every visited slot is valid |
| PairLoops.TestOf | ospray/embree-v2.7.1/kernels/xeon/geometry/trianglepairs_intersector_moeller.h:393-400 | the intersect loop tests triangle `(p1,p0,p2)` with flag `flags[i]`, normal sign -1 and id `primIDs`, then `(p3,p0,p2)` with `flags[4+i]`, sign +1 and id `primIDs+1`; every flag it reads selects valid triple entries |
| PairLoops.TestsUpTo | ospray/embree-v2.7.1/kernels/xeon/geometry/trianglepairs_intersector_moeller.h:389-401 | the first j visited slots contribute 2j triangle tests |
| PairLoops.Record | ospray/embree-v2.7.1/kernels/xeon/geometry/trianglepairs_intersector_moeller.h:397-400 | the unfiltered epilog on an accepted lane records the finalised hit with the test's ids and flipped normal, at a distance inside the ray's interval, and shrinks `tfar` to that distance and nothing else |
| PairLoops.PacketStep | ospray/embree-v2.7.1/kernels/xeon/geometry/trianglepairs_intersector_moeller.h:397 | one `intersectK` call with its epilog changes each lane as that lane's own step would: an active lane that accepts the triangle records it, every other lane is untouched |
| PairLoops.IntersectBatch | ospray/embree-v2.7.1/kernels/xeon/geometry/trianglepairs_intersector_moeller.h:387-402 | `intersect` leaves each lane as the lane-wise run of the visited slots' tests in loop order, all of them under the original activity mask `valid_i` |
| PairLoops.IntersectSlot | ospray/embree-v2.7.1/kernels/xeon/geometry/trianglepairs_intersector_moeller.h:393-400 | one slot iteration extends each lane's run by the slot's two tests |
| PairLoops.ShrunkRay | ospray/embree-v2.7.1/kernels/xeon/geometry/trianglepairs_intersector_moeller.h:224 | shrinking `tfar` only removes hits: a triangle the shrunk ray accepts is accepted by the original ray, and one only the original accepts lies beyond the new `tfar` |
| PairLoops.StepFacts | ospray/embree-v2.7.1/kernels/xeon/geometry/trianglepairs_intersector_moeller.h:397-400 | one test step keeps the ray but for a `tfar` that never grows; it records the test exactly when the lane is active and its current ray accepts it; afterwards no accepted hit of that test is nearer than `tfar` |
| PairLoops.LaneRunClosest | ospray/embree-v2.7.1/kernels/xeon/geometry/trianglepairs_intersector_moeller.h:387-402 | the closest-hit property of the intersect loop, per lane: only `tfar` and the hit change and `tfar` never grows; an inactive lane, or one that accepts no test, is untouched; otherwise the lane ends with a hit from an accepted test, at distance `tfar`, and no accepted test is nearer |
| PairLoops.OccStep | ospray/embree-v2.7.1/kernels/xeon/geometry/trianglepairs_intersector_moeller.h:417 | one `intersectK` call with the occlusion epilog clears exactly the active lanes that accept the triangle |
| PairLoops.OccludersSnoc | ospray/embree-v2.7.1/kernels/xeon/geometry/trianglepairs_intersector_moeller.h:417-421 | a ray is occluded by the triangles tried so far plus one more exactly when it was occluded already or the new triangle occludes it |
| PairLoops.OccStepLanes | ospray/embree-v2.7.1/kernels/xeon/geometry/trianglepairs_intersector_moeller.h:417-421 | each occlusion step keeps the loop invariant: a lane is still active exactly when it was valid and no triangle tried so far occludes it |
| PairLoops.OccSlot | ospray/embree-v2.7.1/kernels/xeon/geometry/trianglepairs_intersector_moeller.h:413-422 | one slot of the occlusion loop tests its two triangles in turn and stops as soon as no lane is left active |
| PairLoops.OcclusionLoopExit | ospray/embree-v2.7.1/kernels/xeon/geometry/trianglepairs_intersector_moeller.h:418-424 | when the loop ends, either by running out of slots or because no lane is left, the lanes still active are exactly the valid lanes that no triangle of the batch occludes |
| PairLoops.OccLoop | ospray/embree-v2.7.1/kernels/xeon/geometry/trianglepairs_intersector_moeller.h:407-423 | the slot loop of `occluded` leaves a lane active exactly when it was valid and no triangle it tried occludes it |
| PairLoops.OccludedBatch | ospray/embree-v2.7.1/kernels/xeon/geometry/trianglepairs_intersector_moeller.h:405-425 | `occluded` returns `!valid0`, which marks exactly the lanes that were inactive or are occluded by a triangle it tried, whether or not the loop exits early |
| PairLoops.OccTrisMatchTests | ospray/embree-v2.7.1/kernels/xeon/geometry/trianglepairs_intersector_moeller.h:393-421 | with the intersect loop's winding, the occlusion loop tests the same triangles in the same order as the intersect loop |
| PairLoops.OcclusionAgreesWithIntersection | ospray/embree-v2.7.1/kernels/xeon/geometry/trianglepairs_intersector_moeller.h:387-425 | with the corrected winding, an active lane without a hit is reported occluded exactly when the intersect loop records a hit for it, with or without back-face culling |
| PairLoops.FirstTriangleOppositeFacing | ospray/embree-v2.7.1/kernels/xeon/geometry/trianglepairs_intersector_moeller.h:417 | as written, under back-face culling, no ray is accepted by both the occlusion loop's first triangle `(p0,p1,p2)` and the intersect loop's `(p1,p0,p2)` |
| PairLoops.ZeroNormalRejected | ospray/embree-v2.7.1/kernels/xeon/geometry/trianglepairs_intersector_moeller.h:229-233 | a triangle with a zero normal fails the facing test, so no ray accepts it |
| PairLoops.RepeatedVertexDegenerate | ospray/embree-v2.7.1/kernels/xeon/geometry/trianglepairs_intersector_moeller.h:421 | when a pair's last vertex repeats its first, the occlusion loop's second triangle has a zero normal |
| PairLoops.OcclusionMissesFront | ospray/embree-v2.7.1/kernels/xeon/geometry/trianglepairs_intersector_moeller.h:405-425 | as written, under culling: in a batch of one pair whose last vertex repeats its first, a lane that the intersect loop's first triangle accepts gets a hit, yet the occlusion loop reports it unoccluded |
| PairLoops.WitnessAccepted | ospray/embree-v2.7.1/kernels/xeon/geometry/trianglepairs_intersector_moeller.h:397 | the concrete witness ray meets the front of the intersect loop's first triangle |
| PairLoops.OcclusionMissesCulledHit | ospray/embree-v2.7.1/kernels/xeon/geometry/trianglepairs_intersector_moeller.h:397-421 | a concrete batch and ray for which, under culling, the intersect loop finds a hit and the occlusion loop as written reports no occlusion |
| StdMap.StrLessIrreflexive | ospray/render/Renderer.cpp:36 | the key order of `std::map<std::string, ...>` is irreflexive |
| StdMap.StrLessTransitive | ospray/render/Renderer.cpp:36 | the key order is transitive |
| StdMap.StrLessTotal | ospray/render/Renderer.cpp:36 | any two distinct keys are ordered one way or the other |
| StdMap.Empty | ospray/render/Renderer.cpp:36 | a registry starts as a sorted map with no keys |
| StdMap.Keys | ospray/render/Renderer.cpp:81-84 | iteration visits the stored keys one per entry, in entry order |
| StdMap.Find | ospray/render/Renderer.cpp:103-105 | `find(k)` succeeds exactly when `k` is a key, and then returns the value stored under it |
| StdMap.Count | ospray/transferFunction/TransferFunction.cpp:43 | `count(k)` is 1 when `k` is a key and 0 otherwise |
| StdMap.AssignSpec | ospray/render/Renderer.cpp:90 | `m[k] = v` keeps the map sorted, makes `find(k)` return `v`, and leaves every other key's entry unchanged |
| StdMap.Assign | ospray/render/Renderer.cpp:90 | `m[k] = v` leaves a non-empty map, grows it by at most one entry, and by exactly one when `k` was absent |
| StdMap.KeysSorted | ospray/render/Renderer.cpp:81-84 | iterating a registry yields strictly ascending keys |
| Registry.Invoke | ospray/render/Renderer.cpp:106-108 | `it->second ? (it->second)() : NULL` yields an object exactly when the creator is non-null and returns one, and tags that object with the registry's kind |
| Registry.CreateCachingNull | ospray/render/Renderer.cpp:103-140 | the find-or-look-up path: a key that is present, even with a null creator, is used as stored with no lookup and the registry is unchanged; an absent key is looked up once under the creator symbol and the answer, null included, is stored; no other key changes; the result is the stored entry's object, tagged with the registry's kind, and null exactly when that entry is null or its creator returns null |
| Registry.CreateRetryingNull | ospray/transferFunction/TransferFunction.cpp:43-70 | the retrying path: only a present non-null creator is used directly, with the registry unchanged; an absent or null entry is looked up again and replaced by the answer; no other key changes; the result is the stored entry's object, tagged, and null exactly when that entry is null or its creator returns null |
| Registry.Register | ospray/render/Renderer.cpp:88-91 | registering a creator overwrites that key's entry and leaves every other key unchanged |
| Registry.CachedNullSticks | ospray/render/Renderer.cpp:117-125 | under the caching path, once a lookup comes back null, every later call for that key returns null without looking up, whatever the loader would answer by then |
| Registry.RetriedNullRecovers | ospray/transferFunction/TransferFunction.cpp:43-63 | under the retrying path, a key whose lookup came back null is looked up again on the next call, and it succeeds once the loader finds a creator |
| Registry.RegisteredKeyPoliciesAgree | ospray/render/Renderer.cpp:103-110 | for a key with a registered creator, both paths agree, look nothing up, and invoke that creator |
| RendererFactory.CreateRenderer | ospray/render/Renderer.cpp:93-141 | `createRenderer` splits the type at its first `@`; the part after it names the library `ospray_module_<name>` to load, and the part before it, which holds no `@`, is the key: it is looked up as `ospray_create_renderer__<key>` exactly when absent, the answer is stored even when null, no other key changes, and the result is the stored creator's object tagged `OSP_RENDERER`, or null |
| RendererFactory.RegisterRenderer | ospray/render/Renderer.cpp:88-91 | `registerRenderer` stores the creator under the identifier and leaves every other entry unchanged |
| RendererFactory.RegisteredRenderers | ospray/render/Renderer.cpp:78-86 | `registeredRenderers` lists exactly the registry's keys, null entries included, in strictly ascending order |
| RendererFactory.FailedTypeStaysRegistered | ospray/render/Renderer.cpp:117-125 | a renderer type whose lookup fails is still listed afterwards, and creating it again yields null without a second lookup |
| RendererFactory.ModuleSuffixSharesEntry | ospray/render/Renderer.cpp:95-104 | `t@m` and `t` reach the same registry entry with the same lookups and result; only `t@m` loads a library |
| RendererFactory.FirstAtOfJoin | ospray/render/Renderer.cpp:96-99 | for a type without `@`, splitting `t@m` at the first `@` gives back `t` and `m` |
| RendererFactory.CommitFrame | ospray/render/Renderer.cpp:38-57 | setting one parameter before `commit` changes only the field read from that name, to its value or, for a wrong type, to the default; an unread name changes nothing; `world` matters only while `model` is not an object |
| RendererFactory.Commit | ospray/render/Renderer.cpp:38-57 | for every parameter set, each field is the parameter of its name when set with the right type and otherwise its default (epsilon 1e-6, spp 1, variance threshold 0, background on, no depth texture, white background); the model is `model`, else `world`, else null |
| CameraFactory.CreateCamera | ospray/camera/Camera.cpp:37-64 | `createCamera` uses the whole type as the key and loads no library; the key is looked up as `ospray_create_camera__<type>` exactly when absent, the answer is stored even when null, no other key changes, and the result is the stored creator's object tagged `OSP_CAMERA`, or null |
| CameraFactory.RegisterCamera | ospray/camera/Camera.cpp:32-35 | `registerCamera` stores the creator under the identifier and leaves every other entry unchanged |
| CameraFactory.CameraKeepsAtSign | ospray/camera/Camera.cpp:52-53 | unlike the renderer factory, a camera type containing `@` is looked up whole, while the renderer factory looks up only the part before the `@` |
| CameraFactory.CommitFrame | ospray/camera/Camera.cpp:66-73 | setting one parameter before `commit` changes only the field read from that name, to its value or the default; `nearClip` matters only while `near_clip` is not a float |
| CameraFactory.Commit | ospray/camera/Camera.cpp:66-73 | for every parameter set, `pos`, `dir` and `up` are the 3-vector parameters when set and otherwise the origin, +z and +y; the near clip is `near_clip`, else `nearClip`, else 1e-6 |
| TransferFunctionFactory.CreateTransferFunction | ospray/transferFunction/TransferFunction.cpp:40-71 | `createTransferFunction` uses a present non-null creator directly; otherwise it looks up `ospray_create_transfer_function__<type>` on every call and stores the answer; no other key changes, and the result is the stored creator's object tagged `OSP_TRANSFER_FUNCTION`, or null |
| TransferFunctionFactory.RegisterTransferFunction | ospray/transferFunction/TransferFunction.cpp:35-38 | `registerTransferFunction` stores the creator under the type and leaves every other entry unchanged |
| TransferFunctionFactory.NullEntryRetriedUnlikeCamera | ospray/transferFunction/TransferFunction.cpp:43-54 | after a failed first lookup, a transfer function type recovers as soon as the loader finds its creator, while a camera type stays null |
| VolumeFactory.CreateVolume | ospray/volume/Volume.cpp:56-83 | `createVolume` looks up `ospray_create_volume__<type>` exactly when the key is absent (`count == 0`) and stores the answer, else leaves the registry unchanged; no other key changes, and the result is what the registry then holds invoked and tagged `OSP_VOLUME`, or null |
| VolumeFactory.CreateVolumeCachesNull | ospray/volume/Volume.cpp:59-77 | written as a `count` test, the volume factory behaves as the caching path on every input |
| VolumeFactory.FailedVolumeTypeStaysNull | ospray/volume/Volume.cpp:59-77 | a volume type whose lookup failed keeps yielding null, with no further lookup |
| VolumeFactory.RegisterVolume | ospray/volume/Volume.cpp:51-54 | `registerVolume` stores the creator under the type and leaves every other entry unchanged |
| PixelOpFactory.CreatePixelOp | ospray/fb/PixelOp.cpp:35-79 | `createPixelOp` cuts the name at the first `@` (`strstr`); the rest names the library `ospray_module_<name>` to load, and the cut name is the key: it is looked up as `ospray_create_pixel_op__<key>` exactly when absent, the answer is stored even when null, no other key changes, and the result is the stored creator's object tagged `OSP_PIXEL_OP`, or null |
| PixelOpFactory.RegisterPixelOp | ospray/fb/PixelOp.cpp:30-33 | `registerPixelOp` stores the creator under the identifier and leaves every other entry unchanged |
| PixelOpFactory.ModuleSuffixSharesEntry | ospray/fb/PixelOp.cpp:39-50 | `t@m` and `t` reach the same pixel-op entry with the same lookups and result; only `t@m` loads a library |
| Names.FirstIndexOf | ospray/render/Renderer.cpp:96-97 | `find_first_of(c)` is `npos` exactly when `c` does not occur, and otherwise the position of a `c` with none before it |
| Names.LastIndexOf | modules/loaders/VolumeFile.cpp:38 | `find_last_of(c)` is `npos` exactly when `c` does not occur, and otherwise the position of a `c` with none after it |
| Names.FirstIndexOfJoin | ospray/render/Renderer.cpp:96-99 | in `a` + `c` + `b` where `a` has no `c`, the first `c` sits right after `a` |
| Names.SplitAtFirstRoundTrip | ospray/render/Renderer.cpp:96-101 | cutting a type at its first `@` loses nothing: key, `@` and rest give the type back, the key has no `@`, and there is a rest exactly when the type has an `@` |
| Names.SplitAtFirst | ospray/render/Renderer.cpp:96-101 | the key has no `c`; there is a rest exactly when the string has a `c`, otherwise the key is the whole string; key, `c` and rest together are as long as the string |
| Names.FileExt | apps/qtViewer/sg/importer/Importer.cpp:39 | the extension has no dot; a name without a dot has the empty extension, and otherwise the extension is everything after the last dot |
| VolumeFileLoader.FindLastOf | modules/loaders/VolumeFile.cpp:38 | `find_last_of(".")` on a `size_t`-indexed string: `npos` exactly when there is no dot, else the last dot's position |
| VolumeFileLoader.TypeOf | modules/loaders/VolumeFile.cpp:38 | `substr(find_last_of(".") + 1)`: the `npos + 1` wrap makes a name without a dot its own type; with a dot the type is the text after the last dot, and it never contains a dot |
| VolumeFileLoader.TypeOfRoundTrip | modules/loaders/VolumeFile.cpp:38 | a name with a dot is the text before the last dot, the dot and the type |
| VolumeFileLoader.RegisterVolume | modules/loaders/VolumeFile.cpp:27-30 | `registerVolume` stores the importer under the type and leaves every other entry unchanged |
| VolumeFileLoader.ImportVolume | modules/loaders/VolumeFile.cpp:32-55 | a present non-null importer is called on the resolved path with no lookup; otherwise `ospray_import_volume_file_<type>` is looked up once, stored, and called if found; the warning is printed exactly when the stored entry is null; no other type changes |
| VolumeFileLoader.ImportVolumeRetriesNull | modules/loaders/VolumeFile.cpp:41-48 | the loader's registry behaves as the retrying path keyed by the file's type |
| VolumeFileLoader.UnknownTypeRecovers | modules/loaders/VolumeFile.cpp:41-54 | a type that fails once, with a warning, is looked up again on the next call and imports once the loader finds its importer |
| SgImporter.ExtVersusVolumeType | apps/qtViewer/sg/importer/Importer.cpp:39 | with a dot, the scene graph's extension and the volume loader's type agree; without one, the scene graph uses the empty extension and the volume loader the whole name |
| SgImporter.DeclareImporter | apps/qtViewer/sg/importer/Importer.cpp:29-33 | declaring an importer overwrites that extension's entry and leaves every other one unchanged |
| SgImporter.ImportFile | apps/qtViewer/sg/importer/Importer.cpp:37-45 | `importerForExtension[ext]` inserts a null entry for an unknown extension and changes nothing else; the file is imported exactly when a non-null importer is stored, with that importer, and otherwise the unknown-format error naming the file is thrown |
| SgImporter.UnknownExtensionUntilDeclared | apps/qtViewer/sg/importer/Importer.cpp:29-45 | an unknown extension keeps throwing, with the table unchanged after the first call, until an importer is declared for it, after which the same call imports with it |
| SceneArgs.KindOf | apps/common/commandline/SceneParser/trianglemesh/TriangleMeshSceneParser.cpp:75-99 | an extension selects an importer only when it is that importer's extension |
| SceneArgs.KindOfExtension | apps/common/commandline/SceneParser/trianglemesh/TriangleMeshSceneParser.cpp:75-99 | each of the eight importers is selected by its own extension |
| SceneArgs.ToU32 | apps/common/commandline/SceneParser/trianglemesh/TriangleMeshSceneParser.cpp:64 | assigning an `int` to the 32-bit unsigned limit keeps values below 2^32 and otherwise reduces them modulo 2^32 |
| SceneArgs.DecimalValue | apps/common/commandline/SceneParser/trianglemesh/TriangleMeshSceneParser.cpp:64 | the digits of a decimal rendering of `n` have the value `n` |
| SceneArgs.AtoiDecimal | apps/common/commandline/SceneParser/trianglemesh/TriangleMeshSceneParser.cpp:64 | `atoi` reads back a decimal number, and its negation with a leading minus |
| SceneArgs.Atoi | apps/common/commandline/SceneParser/trianglemesh/TriangleMeshSceneParser.cpp:64 | after leading white space, text that starts with no sign and no digit reads as 0, and a negative value needs a leading minus |
| SceneArgs.Initial | apps/common/commandline/SceneParser/trianglemesh/TriangleMeshSceneParser.cpp:45-55 | the constructor starts with no alpha, a default material, the limit `(uint32_t)-1` and no forced instancing |
| SceneArgs.Classify | apps/common/commandline/SceneParser/trianglemesh/TriangleMeshSceneParser.cpp:63-73 | each of the five options is recognised exactly by its own spelling, and every other argument is a file name |
| SceneArgs.Item | apps/common/commandline/SceneParser/trianglemesh/TriangleMeshSceneParser.cpp:73-99 | a file name contributes one import, with the importer its extension selects, exactly when that extension is known, and nothing otherwise |
| SceneArgs.Parse | apps/common/commandline/SceneParser/trianglemesh/TriangleMeshSceneParser.cpp:57-109 | `parse` reports a loaded scene exactly when some file was handed to an importer, and every imported file is one of the arguments paired with the importer its extension selects |
| SceneArgs.ImportsAreRecognisedFiles | apps/common/commandline/SceneParser/trianglemesh/TriangleMeshSceneParser.cpp:61-101 | the scan only appends to the import list, and only arguments with a known extension |
| SceneArgs.PlainNamesAreFiltered | apps/common/commandline/SceneParser/trianglemesh/TriangleMeshSceneParser.cpp:73-100 | a command line of plain names keeps the configuration and imports exactly the recognised names, in order |
| SceneArgs.ParseAppend | apps/common/commandline/SceneParser/trianglemesh/TriangleMeshSceneParser.cpp:61-101 | the scan of a command line that scans cleanly to its end can be resumed at whatever follows |
| SceneArgs.AppendOption | apps/common/commandline/SceneParser/trianglemesh/TriangleMeshSceneParser.cpp:63-72 | a trailing switch sets its own flag and nothing else; a trailing valued option with no value is an error; with its value it sets its own field and nothing else |
| SceneArgs.MaxObjectsValue | apps/common/commandline/SceneParser/trianglemesh/TriangleMeshSceneParser.cpp:63-64 | `--max-objects n` stores `n` for every `n` below 2^32 and loads no scene |
| SceneArgs.MaxObjectsMinusOne | apps/common/commandline/SceneParser/trianglemesh/TriangleMeshSceneParser.cpp:51-64 | `--max-objects -1` wraps round to the default limit of the constructor |
| SceneFinalize.DoesInstancing | apps/common/commandline/SceneParser/trianglemesh/TriangleMeshSceneParser.cpp:211-219 | `finalize` instances exactly when instancing is forced or there are more instances than meshes |
| SceneFinalize.TruncateShrinks | apps/common/commandline/SceneParser/trianglemesh/TriangleMeshSceneParser.cpp:221-227 | the object limit keeps the first `min(instances, maxObjects)` instances, never grows the mesh list, leaves it alone when instancing, and otherwise keeps at least as many meshes as instances |
| SceneFinalize.FinalizeInRange | apps/common/commandline/SceneParser/trianglemesh/TriangleMeshSceneParser.cpp:221-375 | `finalize` stays inside its lists exactly when, without instancing, the limit cut the instances or there are as many instances as meshes, and, with instancing, every kept instance names a built mesh |
| SceneFinalize.Finalize | apps/common/commandline/SceneParser/trianglemesh/TriangleMeshSceneParser.cpp:207-375 | when `finalize` stays in range the scene model receives `min(instances, maxObjects)` geometries, all instances when instancing and all meshes otherwise |
| SceneFinalize.MeshesInOrder | apps/common/commandline/SceneParser/trianglemesh/TriangleMeshSceneParser.cpp:231-245 | without instancing the scene gets the first `min(instances, maxObjects)` meshes in order, and mesh `i` is transformed exactly when its instance is not the identity instance of mesh `i` |
| SceneFinalize.InstancesInOrder | apps/common/commandline/SceneParser/trianglemesh/TriangleMeshSceneParser.cpp:358-375 | with instancing the scene gets one instance per kept instance, in order, of the model built for its mesh and with its transform |
| SceneFinalize.IdentityInstancesNotTransformed | apps/common/commandline/SceneParser/trianglemesh/TriangleMeshSceneParser.cpp:213-245 | one identity instance per mesh, unforced, is not instanced and puts the first `min(n, maxObjects)` meshes in the scene untransformed |
| SceneMaterials.NsRemapRange | apps/common/commandline/SceneParser/trianglemesh/TriangleMeshSceneParser.cpp:174-178 | the `Ns` remap is `f/(1-f)` below 1, maps [0,1) into [0,∞) and negative exponents into (-1,0), and keeps exponents of 1 or more |
| SceneMaterials.NsRemap | apps/common/commandline/SceneParser/trianglemesh/TriangleMeshSceneParser.cpp:174-178 | an exponent f below 1 becomes the value r with `r*(1-f) = f`; an exponent of 1 or more is kept |
| SceneMaterials.NsRemapOnto | apps/common/commandline/SceneParser/trianglemesh/TriangleMeshSceneParser.cpp:174-178 | every exponent in [0,∞) is the remap of one in [0,1) |
| SceneMaterials.NsRemapMonotone | apps/common/commandline/SceneParser/trianglemesh/TriangleMeshSceneParser.cpp:174-178 | the remap keeps the order of exponents below 1 |
| SceneMaterials.OnlyNsIsRemapped | apps/common/commandline/SceneParser/trianglemesh/TriangleMeshSceneParser.cpp:159-200 | for parameters other than `Ns`/`ns`, an OBJ material receives the same `set` calls as any other type |
| SceneMaterials.CallsFor | apps/common/commandline/SceneParser/trianglemesh/TriangleMeshSceneParser.cpp:165-200 | a parameter is sent under its name with its value: the int, the float (for an OBJ material's `Ns`/`ns` below 1, `f/(1-f)`), the three floats, the string or the texture; a null texture sends nothing |
| SceneMaterials.SetCalls | apps/common/commandline/SceneParser/trianglemesh/TriangleMeshSceneParser.cpp:161-201 | a parameter map produces at most one `set` call per parameter, each under one of its names, and every parameter's call is among them |
| SceneMaterials.SetCallsAppend | apps/common/commandline/SceneParser/trianglemesh/TriangleMeshSceneParser.cpp:161-201 | the calls for consecutive runs of parameters are each run's calls in turn, so the calls follow map order |
| SceneMaterials.SetCallsInOrder | apps/common/commandline/SceneParser/trianglemesh/TriangleMeshSceneParser.cpp:161-201 | the map's first parameter is set first, then the remaining parameters in map order |
| SceneMaterials.MaterialType | apps/common/commandline/SceneParser/trianglemesh/TriangleMeshSceneParser.cpp:148 | the material type is the stored string parameter `type` whenever there is one, and `OBJMaterial` otherwise |
| SceneMaterials.MaterialCalls | apps/common/commandline/SceneParser/trianglemesh/TriangleMeshSceneParser.cpp:148-205 | `createMaterial` sends every parameter's call, with the OBJ remap decided by the material type, and nothing that is not named after a parameter |
| SceneMaterials.MaterialCallsSend | apps/common/commandline/SceneParser/trianglemesh/TriangleMeshSceneParser.cpp:165-195 | each parameter of a material reaches it with its own value, the `Ns`/`ns` remap applying exactly to OBJ materials with an exponent below 1 |
| SceneMaterials.ObjExponentsNonNegative | apps/common/commandline/SceneParser/trianglemesh/TriangleMeshSceneParser.cpp:169-180 | an OBJ material whose stored float parameters are non-negative receives only non-negative floats |
| SceneMaterials.WarnMaterial | apps/common/commandline/SceneParser/trianglemesh/TriangleMeshSceneParser.cpp:32-41 | `warnMaterial` prints exactly when the type's count is 0, adds one to that count, and leaves every other type's count unchanged |
| SceneMaterials.WarnedOnce | apps/common/commandline/SceneParser/trianglemesh/TriangleMeshSceneParser.cpp:32-41 | over any run of calls from a fresh table, each type is printed exactly once, at its first occurrence, and every type's count is how often it occurred |
| SceneMaterials.WarnAll | apps/common/commandline/SceneParser/trianglemesh/TriangleMeshSceneParser.cpp:32-41 | a run of `warnMaterial` calls keeps the count table sorted and prints at most once per call, only types it was given |
| SceneMaterials.AlphaMapsOf | apps/common/commandline/SceneParser/trianglemesh/TriangleMeshSceneParser.cpp:317-323 | the alpha maps pushed for a material are exactly its `map_kd`/`map_Kd` textures: each one pushed is one of them, and each of them is pushed |
| SceneMaterials.AlphasOf | apps/common/commandline/SceneParser/trianglemesh/TriangleMeshSceneParser.cpp:324-326 | the alphas pushed for a material are exactly its `d` values: each one pushed is one of them, and each of them is pushed |
| SceneMaterials.AlphaPushesAppend | apps/common/commandline/SceneParser/trianglemesh/TriangleMeshSceneParser.cpp:317-326 | both pushes follow parameter order: consecutive runs of parameters push their entries one after the other |
| SceneMaterials.Pad | apps/common/commandline/SceneParser/trianglemesh/TriangleMeshSceneParser.cpp:329-334 | the padding loop only appends, appends the filler, and stops at the number of materials so far |
| SceneMaterials.AlphaListsAsWritten | apps/common/commandline/SceneParser/trianglemesh/TriangleMeshSceneParser.cpp:307-335 | as written, both lists have at least one entry per material |
| SceneMaterials.AlphaListsAligned | apps/common/commandline/SceneParser/trianglemesh/TriangleMeshSceneParser.cpp:304-335 | the intended lists have one entry per material; its map is one of its diffuse-map textures and is non-null whenever it has a non-null one; its alpha is its stored `d` value, or 0 without one |
| SceneMaterials.AlphaLists | apps/common/commandline/SceneParser/trianglemesh/TriangleMeshSceneParser.cpp:304-335 | the corrected lists have one entry per material, and a material without `d` gets alpha 0 |
| SceneMaterials.NonNullDiffuseMapKept | apps/common/commandline/SceneParser/trianglemesh/TriangleMeshSceneParser.cpp:317-323 | a material with a non-null diffuse-map texture gets a non-null alpha map |
| SceneMaterials.StoredAlphaKept | apps/common/commandline/SceneParser/trianglemesh/TriangleMeshSceneParser.cpp:324-326 | a material storing a float `d` gets exactly that value as its alpha |
| SceneMaterials.AsWrittenAlignedWhenSingle | apps/common/commandline/SceneParser/trianglemesh/TriangleMeshSceneParser.cpp:307-335 | while each material has at most one diffuse map and one `d`, the lists as written are the intended ones |
| SceneMaterials.AlphasOfValidMap | apps/common/commandline/SceneParser/trianglemesh/TriangleMeshSceneParser.cpp:312-326 | a parameter map has at most one `d` entry, so the alpha list never runs ahead |
| SceneMaterials.DoubleDiffuseMapShiftsAlphaMaps | apps/common/commandline/SceneParser/trianglemesh/TriangleMeshSceneParser.cpp:318-331 | a material with both `map_Kd` and `map_kd` pushes two maps, so the next material's map lands one slot late |

## Left out

- Parallel scheduling: `parallel_prefix_sum`, `parallel_for_for` and the thread pool are modelled as a sequential fold over a given chunk partition; thread interleavings are not modelled.
- PrimRefGen.CreatePrimRefList: blocks are filled and handed to the list in chunk order, whereas the concurrent `insert` leaves the block order unspecified; the contract fixes one order instead of stating the result up to block order.
- `progressMonitor` and the logging and `STAT3` counters: they report progress and statistics and do not change a result.
- The box, centre, `area`, `xfmBounds`, `sharedEdge` and `valid` helpers of the geometry headers are parameters or plain box arithmetic over `real`; their headers are not part of this model.
- Floating-point arithmetic, `rcp`, SIMD lane widths and the `M = 4` batch width: the kernel is modelled over exact `real`s with one lane per ray, so rounding and `NaN` behaviour are not modelled.
- BezierRefs.Mid: the average is taken over exact reals, so two finite lanes always give a finite result; in `float`, `0.5f*(a+b)` of two lanes near the float maximum overflows to infinity and the source then drops the curve, which the model keeps. `isvalid` is read as "finite"; its vector header is not part of this model, and a bound-based `isvalid` would also drop very large finite lanes.
- BezierRefs.MidPoint: inherits the exact-real average of `BezierRefs.Mid`, so "valid exactly when both time steps are" holds only without float overflow.
- BezierRefs.CurveCandidate: an offset above INT_MAX-3 makes `ofs+3` overflow, which is undefined behaviour in C; the model reads it as two's-complement wrap-around, so the negative sum becomes a huge `size_t` and the curve is skipped. A vertex buffer is taken to hold at most 2^60 vertices (16 bytes each in a 64-bit address space).
- BezierRefs.CreateBezierRefArray: the out-of-range read at an offset of -3 to -1 is undefined behaviour in the source, which goes on reading; the model reports the first such curve and writes nothing.
- BezierRefs.CurveKeptIff: inherits the exact-real average of `BezierRefs.Mid`; with two time steps, a curve whose averaged lane overflows in `float` is dropped by the source but kept here.
- MoellerPairs.HitK: the normal reported by the M-wide hit (`MoellerTrumborePairsHitM::finalize`) reads a field the constructor never sets, so only the `(u, v, t)` part of that hit is modelled.
- The intersection and occlusion epilogs: their header is not part of this model, so they are modelled without intersection filters or ray masks. An accepted lane records its hit and shrinks `tfar`; an occluded lane is cleared. The occlusion loop passes the same `primIDs` for both triangles of a pair, which only a filter would observe.
- Hardware ISA selection in the `BVH4Factory` constructor, the `#if` target switches and the `DECLARE_SYMBOL`/`DECLARE_BUILDER` tables: intersectors and builders are opaque tags.
- The instancing builder's `open` and `collapse`: only their declarations exist in the source.
- Dynamic loading: `getSymbol` and `loadLibrary` are an oracle of the environment, and the objects the creators construct are opaque numbers.
- PixelOpFactory.CreatePixelOp: the debug `PRINT(pixelOp->toString())` dereferences the result before the null check, which is undefined behaviour when the creator returns null; the model leaves the prints out and returns null there.
- `Volume::isDataDistributed` and `Volume::toString` are modelled as the constants `false` and `"ospray::Volume"` and carry no contract of their own; `computeSamples`, `finish` and `updateEditableParameters` call into ISPC code and are left out.
- `Renderer::renderTile`, `beginFrame`, `endFrame`, `renderFrame`, `pick`, and the scaling of `epsilon` by the scene diameter in `commit`: they call into ISPC code.
- `getParam1f`, `getParam1i`, `getParam3f` and `getParamObject` are modelled as "the value of a parameter of that type, else the default"; `ManagedObject` is not part of this model.
- `FileName::ext()` is modelled as the text after the last dot, or empty; the `FileName` class is not part of this model.
- SceneArgs.Atoi: values outside the range of `int`, which are undefined behaviour in C, are kept exact before the 32-bit conversion.
- SceneArgs.Parse: a valued option given as the last argument makes `av[++i]` read past the argument list; the model reports this as an error instead of undefined behaviour.
- The miniSG importers (`importSTL`, `importOBJ` and the others), the vertex transform, the `OSPData` arrays and texture creation: the parser's model records which importer receives which file and which meshes are transformed, not the data.
- SceneMaterials.MaterialCalls: the `alreadyCreatedMaterials` cache, the static default material and the `newMaterial` failure path that falls back to it are not modelled; the closed parameter datatype rules out the "unknown material parameter type" throw.
- SceneMaterials.AlphaLists: for a material with both spellings of the diffuse map, the corrected list takes the first non-null texture in map order; the source does not say which of the two it meant.
- The alpha and alpha-map lists are handed to OSPRay as `OSP_OBJECT` arrays; only their contents are modelled, not that element type.
- The qtViewer, GLUT and volume-viewer front ends, the MPI device, and files that only declare types: they hold no logic of the core.

## Findings

| source | as written | input that shows it | evidently intended | confidence | as-written member | corrected member |
|---|---|---|---|---|---|---|
| ospray/embree-v2.7.1/kernels/xeon/bvh/bvh4_factory.cpp:763-769 | the two-level pairs accel builds its `BVH4` with `Triangle8::type` while its intersectors and builder are the `TrianglePairs4` ones | any scene that selects `bvh4.bvh4.trianglepairs4` | a `BVH4` with `TrianglePairs4::type`, like every other constructor whose leaf type matches its intersectors | not executed | Bvh4Factory.PairsTwoLevelLeafMismatch | Bvh4Factory.FixedAccelsConsistent |
| ospray/embree-v2.7.1/kernels/xeon/geometry/trianglepairs_intersector_moeller.h:417-421 | the packet occlusion loop tests `(p0, p1, p2)` and `(p0, p2, p3)`, while the intersection loop at lines 397-400 tests `(p1, p0, p2)` and `(p3, p0, p2)` | with back-face culling, a ray that hits the front face of a pair's first triangle: the intersection loop reports the hit and the occlusion loop does not | the two loops test the same windings, so a ray is occluded exactly when it would be hit; the `-1.0f` flip at line 397 shows the reported normal is that of `(p0, p1, p2)` | not executed | PairLoops.OcclusionMissesCulledHit | PairLoops.OcclusionAgreesWithIntersection |
| apps/common/commandline/SceneParser/trianglemesh/TriangleMeshSceneParser.cpp:312-334 | every `map_kd` and every `map_Kd` texture is pushed onto the alpha-map list before the padding | a material with both a `map_Kd` and a `map_kd` texture, followed by a material with one `map_Kd`: the second material's map lands at index 2 | one alpha map per material, at that material's index | not executed | SceneMaterials.DoubleDiffuseMapShiftsAlphaMaps | SceneMaterials.AlphaListsAligned |

=== FILE: bezier_refs.dfy ===
/**
 * `createBezierRefArray<timeSteps>`: the curve variant of the reference
 * generator.  Each curve names the index of its first control vertex; a
 * curve is kept only when its four control vertices exist and are all
 * finite.  With two time steps the control points are the average of the
 * two steps.  Storage uses the same two-pass prefix-sum engine as the
 * triangle variant.
 */
module BezierRefs {
  import opened Wrappers
  import opened Geometry
  import opened PrimRefGen

  /** One lane of a `vfloat4`: a finite value or an infinity/NaN. */
  datatype Float = Finite(val: real) | NonFinite

  /** A control vertex: position and radius, the four lanes `isvalid` inspects (read here as "finite"). */
  datatype Point = Point(x: Float, y: Float, z: Float, w: Float)

  predicate PointValid(p: Point) {
    p.x.Finite? && p.y.Finite? && p.z.Finite? && p.w.Finite?
  }

  /**
   * `0.5f*(a+b)` on one lane, averaged over the reals: a non-finite operand
   * poisons the result, but two finite lanes always give a finite average
   * (the float sum of two lanes near the float maximum would overflow).
   */
  function Mid(a: Float, b: Float): (r: Float)
    ensures r.Finite? <==> a.Finite? && b.Finite?
  {
    if a.Finite? && b.Finite? then Finite(0.5 * (a.val + b.val)) else NonFinite
  }

  function MidPoint(a: Point, b: Point): (r: Point)
    ensures PointValid(r) <==> PointValid(a) && PointValid(b)
  {
    Point(Mid(a.x, b.x), Mid(a.y, b.y), Mid(a.z, b.z), Mid(a.w, b.w))
  }

  /** The range of the C `int` a curve offset is stored in. */
  const IntMin: int := -0x8000_0000
  const IntMax: int := 0x7fff_ffff

  predicate IsInt(x: int) { IntMin <= x <= IntMax }

  /**
   * The most vertices a buffer can hold: each vertex takes 16 bytes, so a
   * 64-bit address space holds fewer than 2^60 of them.
   */
  const MaxVertices: nat := 0x1000_0000_0000_0000

  /** `int` addition wrapped to 32 bits (signed overflow read as two's complement). */
  function IntWrap(x: int): (r: int)
    ensures IsInt(r) && (r - x) % 0x1_0000_0000 == 0
  {
    (x - IntMin) % 0x1_0000_0000 + IntMin
  }

  /** The usual arithmetic conversion of an `int` to `size_t`: modulo 2^64. */
  function ToSize(x: int): (r: nat)
    ensures r < 0x1_0000_0000_0000_0000 && (r - x) % 0x1_0000_0000_0000_0000 == 0
  {
    x % 0x1_0000_0000_0000_0000
  }

  /** The loop's `ofs+3 >= mesh->numVertices()`: an `int` sum compared as a `size_t`. */
  predicate SkippedBySizeTest(ofs: int, numVertices: nat) {
    ToSize(IntWrap(ofs + 3)) >= numVertices
  }

  /**
   * The size test lets a curve through exactly when `ofs+3` neither wraps nor
   * is negative and is below the vertex count: offsets of -4 or less become
   * huge `size_t` values and offsets above `INT_MAX-3` wrap negative, so both
   * are skipped, while offsets -3 to -1 can pass.
   */
  lemma SizeTestCases(ofs: int, numVertices: nat)
    requires IsInt(ofs) && numVertices <= MaxVertices
    ensures !SkippedBySizeTest(ofs, numVertices) <==> -3 <= ofs <= IntMax - 3 && ofs + 3 < numVertices
  {
    if ofs < -3 {
      assert IntWrap(ofs + 3) == ofs + 3;
      assert ToSize(ofs + 3) == ofs + 3 + 0x1_0000_0000_0000_0000;
    } else if ofs <= IntMax - 3 {
      assert IntWrap(ofs + 3) == ofs + 3;
      assert ToSize(ofs + 3) == ofs + 3;
    } else {
      assert IntWrap(ofs + 3) == ofs + 3 - 0x1_0000_0000;
      assert ToSize(ofs + 3 - 0x1_0000_0000) == ofs + 3 - 0x1_0000_0000 + 0x1_0000_0000_0000_0000;
    }
  }

  /**
   * A curve set: `curves[j]` is the `int` index of curve j's first control
   * vertex; `steps[t]` is the vertex buffer of time step t.
   */
  datatype Curves = Curves(id: bv32, curves: seq<int>, steps: seq<seq<Point>>)

  /**
   * The curve set as the iterator sees it for `timeSteps` (1 or 2): enough
   * vertex buffers, all of one length, and offsets that fit an `int`.
   */
  predicate WellFormed(c: Curves, timeSteps: nat) {
    (timeSteps == 1 || timeSteps == 2) && |c.steps| >= timeSteps &&
    (forall t :: 0 <= t < timeSteps ==> |c.steps[t]| == |c.steps[0]|) &&
    |c.steps[0]| <= MaxVertices &&
    forall j :: 0 <= j < |c.curves| ==> IsInt(c.curves[j])
  }

  function NumVertices(c: Curves): nat
    requires |c.steps| > 0
  {
    |c.steps[0]|
  }

  /** The curve primitive stored for a kept curve: four control points, its geometry and curve index. */
  datatype BezierPrim = BezierPrim(p0: Point, p1: Point, p2: Point, p3: Point, geomID: bv32, primID: nat)

  /**
   * A curve whose negative offset passes the size test: `mesh->vertex(ofs+0,0)`
   * then reads before the start of the vertex buffer.
   */
  datatype CurveError = OutOfRangeRead(primID: nat, ofs: int)

  /** Control point `i` of the curve starting at `ofs`, averaged over the two steps when there are two. */
  function ControlPoint(c: Curves, timeSteps: nat, ofs: nat, i: nat): Point
    requires WellFormed(c, timeSteps) && i < 4 && ofs + 3 < NumVertices(c)
  {
    var p := c.steps[0][ofs + i];
    if timeSteps == 2 then MidPoint(p, c.steps[1][ofs + i]) else p
  }

  /**
   * What one iteration of the curve loop does for curve `j`: skip it
   * (`Success(None)`), store its primitive, or read out of range.
   */
  function CurveCandidate(c: Curves, timeSteps: nat, j: nat): (r: Result<Option<BezierPrim>, CurveError>)
    requires WellFormed(c, timeSteps) && j < |c.curves|
    ensures r.Failure? <==> -3 <= c.curves[j] < 0 && c.curves[j] + 3 < NumVertices(c)
    ensures r.Failure? ==> r.error == OutOfRangeRead(j, c.curves[j])
    ensures r.Success? && r.value.Some? ==> r.value.value.geomID == c.id && r.value.value.primID == j
  {
    var ofs := c.curves[j];
    SizeTestCases(ofs, NumVertices(c));
    if SkippedBySizeTest(ofs, NumVertices(c)) then Success(None)
    else if ofs < 0 then Failure(OutOfRangeRead(j, ofs))
    else
      var p0 := ControlPoint(c, timeSteps, ofs, 0);
      var p1 := ControlPoint(c, timeSteps, ofs, 1);
      var p2 := ControlPoint(c, timeSteps, ofs, 2);
      var p3 := ControlPoint(c, timeSteps, ofs, 3);
      if !PointValid(p0) || !PointValid(p1) || !PointValid(p2) || !PointValid(p3) then Success(None)
      else Success(Some(BezierPrim(p0, p1, p2, p3, c.id, j)))
  }

  /** How the loop treats each range of offsets, whatever the control points hold. */
  lemma CurveOffsetCases(c: Curves, timeSteps: nat, j: nat)
    requires WellFormed(c, timeSteps) && j < |c.curves|
    ensures c.curves[j] <= -4 ==> CurveCandidate(c, timeSteps, j) == Success(None)
    ensures c.curves[j] > IntMax - 3 ==> CurveCandidate(c, timeSteps, j) == Success(None)
    ensures c.curves[j] + 3 >= NumVertices(c) ==> CurveCandidate(c, timeSteps, j) == Success(None)
    ensures -3 <= c.curves[j] < 0 && c.curves[j] + 3 < NumVertices(c) ==>
      CurveCandidate(c, timeSteps, j) == Failure(OutOfRangeRead(j, c.curves[j]))
  {
    SizeTestCases(c.curves[j], NumVertices(c));
  }

  /** Control vertex `ofs + i` of time step `t` exists and is finite. */
  predicate StepVertexValid(c: Curves, t: nat, ofs: nat, i: nat) {
    t < |c.steps| && ofs + i < |c.steps[t]| && PointValid(c.steps[t][ofs + i])
  }

  /**
   * The curve is kept exactly when `ofs+3` is an in-range, non-negative index
   * below the vertex count and its four control vertices are finite in every
   * time step used.
   */
  lemma CurveKeptIff(c: Curves, timeSteps: nat, j: nat)
    requires WellFormed(c, timeSteps) && j < |c.curves|
    ensures CurveCandidate(c, timeSteps, j).Success? && CurveCandidate(c, timeSteps, j).value.Some? <==>
      0 <= c.curves[j] <= IntMax - 3 && c.curves[j] + 3 < NumVertices(c) &&
      forall t, i :: 0 <= t < timeSteps && 0 <= i < 4 ==> StepVertexValid(c, t, c.curves[j], i)
  {
    var ofs := c.curves[j];
    SizeTestCases(ofs, NumVertices(c));
    if 0 <= ofs <= IntMax - 3 && ofs + 3 < NumVertices(c) {
      if CurveCandidate(c, timeSteps, j).value.None? {
        var i :| 0 <= i < 4 && !PointValid(ControlPoint(c, timeSteps, ofs, i));
        if timeSteps == 2 {
          assert !StepVertexValid(c, 0, ofs, i) || !StepVertexValid(c, 1, ofs, i);
        } else {
          assert !StepVertexValid(c, 0, ofs, i);
        }
      } else {
        forall t, i | 0 <= t < timeSteps && 0 <= i < 4
          ensures StepVertexValid(c, t, ofs, i)
        {
          assert PointValid(ControlPoint(c, timeSteps, ofs, i));
        }
      }
    }
  }

  /** A static curve (both steps equal) is treated alike under the two-step average: same skip, error or primitive. */
  lemma StaticCurveUnchanged(c: Curves, j: nat)
    requires WellFormed(c, 2) && j < |c.curves| && c.steps[1] == c.steps[0]
    ensures CurveCandidate(c, 2, j) == CurveCandidate(c, 1, j)
  {
  }

  /** Every curve of the set is read in range: no offset of -3 to -1 passes the size test. */
  predicate ReadsInRange(c: Curves, timeSteps: nat)
    requires WellFormed(c, timeSteps)
  {
    forall j :: 0 <= j < |c.curves| ==> CurveCandidate(c, timeSteps, j).Success?
  }

  /** The first out-of-range read among curves `j..`, if any. */
  function BadCurveFrom(c: Curves, timeSteps: nat, j: nat): (r: Option<CurveError>)
    requires WellFormed(c, timeSteps) && j <= |c.curves|
    ensures r.None? <==> forall k :: j <= k < |c.curves| ==> CurveCandidate(c, timeSteps, k).Success?
    ensures r.Some? ==> exists k :: j <= k < |c.curves| && CurveCandidate(c, timeSteps, k) == Failure(r.value)
    decreases |c.curves| - j
  {
    if j == |c.curves| then None
    else match CurveCandidate(c, timeSteps, j)
      case Failure(e) => Some(e)
      case Success(_) => BadCurveFrom(c, timeSteps, j + 1)
  }

  function CurvesCandidates(c: Curves, timeSteps: nat): (r: seq<Option<BezierPrim>>)
    requires WellFormed(c, timeSteps) && ReadsInRange(c, timeSteps)
    ensures |r| == |c.curves|
    ensures forall j :: 0 <= j < |r| ==> Success(r[j]) == CurveCandidate(c, timeSteps, j)
  {
    seq(|c.curves|, j requires 0 <= j < |c.curves| => CurveCandidate(c, timeSteps, j).value)
  }

  predicate AllWellFormed(scene: seq<Curves>, timeSteps: nat) {
    forall m :: 0 <= m < |scene| ==> WellFormed(scene[m], timeSteps)
  }

  predicate AllReadsInRange(scene: seq<Curves>, timeSteps: nat)
    requires AllWellFormed(scene, timeSteps)
  {
    forall m :: 0 <= m < |scene| ==> ReadsInRange(scene[m], timeSteps)
  }

  /** Some curve of the curve sets `m..` reads out of range with error `e`. */
  predicate ErrorFrom(scene: seq<Curves>, timeSteps: nat, m: nat, e: CurveError)
    requires AllWellFormed(scene, timeSteps)
  {
    exists k, j :: m <= k < |scene| && 0 <= j < |scene[k].curves| && CurveCandidate(scene[k], timeSteps, j) == Failure(e)
  }

  /** The first out-of-range read among curve sets `m..`, if any. */
  function BadReadFrom(scene: seq<Curves>, timeSteps: nat, m: nat): (r: Option<CurveError>)
    requires AllWellFormed(scene, timeSteps) && m <= |scene|
    ensures r.None? <==> forall k :: m <= k < |scene| ==> ReadsInRange(scene[k], timeSteps)
    ensures r.Some? ==> ErrorFrom(scene, timeSteps, m, r.value)
    decreases |scene| - m
  {
    if m == |scene| then None
    else match BadCurveFrom(scene[m], timeSteps, 0)
      case Some(e) => Some(e)
      case None => BadReadFrom(scene, timeSteps, m + 1)
  }

  /** The scene's curve candidates, curve set after curve set (the iterator's global index space). */
  function SceneCurveCandidates(scene: seq<Curves>, timeSteps: nat): seq<Option<BezierPrim>>
    requires AllWellFormed(scene, timeSteps) && AllReadsInRange(scene, timeSteps)
  {
    if |scene| == 0 then []
    else SceneCurveCandidates(scene[..|scene| - 1], timeSteps) + CurvesCandidates(scene[|scene| - 1], timeSteps)
  }

  /** The number of curves in the scene: the size the caller allocates `prims` with. */
  function NumCurves(scene: seq<Curves>): nat {
    if |scene| == 0 then 0 else NumCurves(scene[..|scene| - 1]) + |scene[|scene| - 1].curves|
  }

  lemma {:induction false} SceneCurveCandidatesLength(scene: seq<Curves>, timeSteps: nat)
    requires AllWellFormed(scene, timeSteps) && AllReadsInRange(scene, timeSteps)
    ensures |SceneCurveCandidates(scene, timeSteps)| == NumCurves(scene)
  {
    if |scene| > 0 {
      SceneCurveCandidatesLength(scene[..|scene| - 1], timeSteps);
    }
  }

  /** Every kept primitive of the scene comes from a curve whose control points exist and are finite. */
  lemma KeptCurvesValid(scene: seq<Curves>, timeSteps: nat)
    requires AllWellFormed(scene, timeSteps) && AllReadsInRange(scene, timeSteps)
    ensures forall b: BezierPrim :: b in Compact(SceneCurveCandidates(scene, timeSteps)) ==>
      PointValid(b.p0) && PointValid(b.p1) && PointValid(b.p2) && PointValid(b.p3)
  {
    var src := SceneCurveCandidates(scene, timeSteps);
    CompactMembers(src);
    forall b: BezierPrim | b in Compact(src)
      ensures PointValid(b.p0) && PointValid(b.p1) && PointValid(b.p2) && PointValid(b.p3)
    {
      assert Some(b) in src;
      CandidateValid(scene, timeSteps, Some(b));
    }
  }

  lemma {:induction false} CandidateValid(scene: seq<Curves>, timeSteps: nat, o: Option<BezierPrim>)
    requires AllWellFormed(scene, timeSteps) && AllReadsInRange(scene, timeSteps)
    requires o in SceneCurveCandidates(scene, timeSteps) && o.Some?
    ensures PointValid(o.value.p0) && PointValid(o.value.p1) && PointValid(o.value.p2) && PointValid(o.value.p3)
  {
    var last := |scene| - 1;
    if o in SceneCurveCandidates(scene[..last], timeSteps) {
      CandidateValid(scene[..last], timeSteps, o);
    } else {
      var cs := CurvesCandidates(scene[last], timeSteps);
      var j :| 0 <= j < |cs| && cs[j] == o;
      assert Success(o) == CurveCandidate(scene[last], timeSteps, j);
    }
  }

  /**
   * `createBezierRefArray<timeSteps>(scene, prims, ...)` with `prims` sized to
   * the scene's curve count and `bounds` standing for `BezierPrim::bounds()`.
   * When some curve's negative offset passes the size test the loop reads
   * outside the vertex buffer; the model reports that read and writes nothing.
   * Otherwise the kept curves, in curve order, are at the front of `prims`,
   * with their summary; the second pass runs exactly when some curve was dropped.
   */
  method CreateBezierRefArray(scene: seq<Curves>, timeSteps: nat, cuts: seq<nat>, prims: seq<BezierPrim>,
                              bounds: BezierPrim -> Bounds)
    returns (err: Option<CurveError>, info: PrimInfo, out: seq<BezierPrim>, reran: bool)
    requires AllWellFormed(scene, timeSteps)
    requires IsPartition(cuts, NumCurves(scene)) && |prims| == NumCurves(scene)
    ensures err.None? <==> AllReadsInRange(scene, timeSteps)
    ensures err.Some? ==> out == prims && ErrorFrom(scene, timeSteps, 0, err.value)
    ensures err.None? ==> info == InfoOf(Compact(SceneCurveCandidates(scene, timeSteps)), bounds)
    ensures err.None? ==> info.count <= NumCurves(scene) && |out| == |prims|
    ensures err.None? ==> out[..info.count] == Compact(SceneCurveCandidates(scene, timeSteps))
    ensures err.None? ==> (reran <==> info.count != NumCurves(scene))
    ensures err.None? ==> forall i :: 0 <= i < info.count ==>
      PointValid(out[i].p0) && PointValid(out[i].p1) && PointValid(out[i].p2) && PointValid(out[i].p3)
  {
    err := BadReadFrom(scene, timeSteps, 0);
    if err.Some? {
      return err, EmptyInfo, prims, false;
    }
    var src := SceneCurveCandidates(scene, timeSteps);
    SceneCurveCandidatesLength(scene, timeSteps);
    info, out, reran := CreateRefArray(src, cuts, prims, bounds);
    KeptCurvesValid(scene, timeSteps);
    forall i | 0 <= i < info.count
      ensures PointValid(out[i].p0) && PointValid(out[i].p1) && PointValid(out[i].p2) && PointValid(out[i].p3)
    {
      assert out[i] == Compact(src)[i];
    }
  }
}

=== FILE: build_ref.dfy ===
/**
 * The `BuildRef` record of the instancing builder: a subtree of an object
 * BVH placed in the world by an affine transform.  An inner-node ref caches
 * the surface area of its world-space bounds in the fourth lane of its local
 * lower bound, and refs are ordered by that cached area alone.
 *
 * The transform type, `xfmBounds` and `area` live in headers that are not
 * part of this model; they are a type parameter and two function parameters.
 */
module BuildRefs {
  import opened Geometry

  /** A BVH node reference, seen only through `isNode()`: inner nodes and everything else (leaves, empty). */
  datatype NodeRef = Inner(ref: nat) | NotInner(ref: nat)

  /**
   * A build ref; `lowerW` is the `localBounds.lower.w` lane that holds the
   * cached area.  `mask` is unsigned 32-bit; the four `int` fields are only
   * stored, so their width does not matter here.
   */
  datatype BuildRef<X> = BuildRef(local2world: X, localBounds: Bounds, lowerW: real, node: NodeRef,
                                  mask: bv32, instID: int, xfmID: int, kind: int, depth: int)

  /** `worldBounds()`: recomputed from the transform and the local bounds on every call. */
  function WorldBounds<X>(r: BuildRef<X>, xfmBounds: (X, Bounds) -> Bounds): Bounds {
    xfmBounds(r.local2world, r.localBounds)
  }

  /** The cache invariant the constructor establishes: inner nodes hold their world area, others 0. */
  predicate AreaCached<X>(r: BuildRef<X>, xfmBounds: (X, Bounds) -> Bounds, area: Bounds -> real) {
    r.lowerW == (if r.node.Inner? then area(WorldBounds(r, xfmBounds)) else 0.0)
  }

  /**
   * The constructor: every argument is stored unchanged, `depth` defaults to
   * 0, and the cached area is the world-space area for an inner node and 0
   * otherwise.
   */
  function MakeRef<X>(local2world: X, localBounds: Bounds, node: NodeRef, mask: bv32, instID: int, xfmID: int,
                      kind: int, xfmBounds: (X, Bounds) -> Bounds, area: Bounds -> real, depth: int := 0): (r: BuildRef<X>)
    ensures r.local2world == local2world && r.localBounds == localBounds && r.node == node
    ensures r.mask == mask && r.instID == instID && r.xfmID == xfmID && r.kind == kind && r.depth == depth
    ensures AreaCached(r, xfmBounds, area)
  {
    var w := if node.Inner? then area(xfmBounds(local2world, localBounds)) else 0.0;
    BuildRef(local2world, localBounds, w, node, mask, instID, xfmID, kind, depth)
  }

  /** `clearArea()`: the cached area becomes 0 and nothing else changes. */
  function ClearArea<X>(r: BuildRef<X>): (c: BuildRef<X>)
    ensures c.lowerW == 0.0 && c == r.(lowerW := 0.0)
  {
    r.(lowerW := 0.0)
  }

  /** `operator<`: compares the cached areas only. */
  predicate Less<X>(a: BuildRef<X>, b: BuildRef<X>) {
    a.lowerW < b.lowerW
  }

  /** Two refs neither of which is less than the other. */
  predicate Incomparable<X>(a: BuildRef<X>, b: BuildRef<X>) {
    !Less(a, b) && !Less(b, a)
  }

  /** The cache holds what `worldBounds` recomputes: a ref built for an inner node sorts by its world area. */
  lemma CachedAreaIsWorldArea<X>(local2world: X, localBounds: Bounds, node: NodeRef, mask: bv32, instID: int,
                                 xfmID: int, kind: int, xfmBounds: (X, Bounds) -> Bounds, area: Bounds -> real)
    requires node.Inner?
    ensures var r := MakeRef(local2world, localBounds, node, mask, instID, xfmID, kind, xfmBounds, area);
      r.lowerW == area(WorldBounds(r, xfmBounds)) && r.depth == 0
  {
  }

  /** A ref for anything but an inner node ties with every other such ref. */
  lemma NonInnerRefsTie<X>(a: BuildRef<X>, b: BuildRef<X>, xfmBounds: (X, Bounds) -> Bounds, area: Bounds -> real)
    requires AreaCached(a, xfmBounds, area) && AreaCached(b, xfmBounds, area)
    requires a.node.NotInner? && b.node.NotInner?
    ensures Incomparable(a, b)
  {
  }

  /**
   * Clearing the area keeps the world bounds (they are not cached); the
   * cleared ref satisfies the cache invariant exactly when it is not an inner
   * node or its world area is 0; it sorts before every ref with a positive
   * area; clearing twice is clearing once.
   */
  lemma ClearAreaEffects<X>(r: BuildRef<X>, other: BuildRef<X>, xfmBounds: (X, Bounds) -> Bounds, area: Bounds -> real)
    ensures WorldBounds(ClearArea(r), xfmBounds) == WorldBounds(r, xfmBounds)
    ensures AreaCached(ClearArea(r), xfmBounds, area) <==> r.node.NotInner? || area(WorldBounds(r, xfmBounds)) == 0.0
    ensures other.lowerW > 0.0 ==> Less(ClearArea(r), other)
    ensures ClearArea(ClearArea(r)) == ClearArea(r)
  {
  }

  /**
   * `operator<` is a strict weak order: irreflexive, transitive, and
   * incomparability (equal cached areas) is an equivalence.
   */
  lemma LessIsStrictWeakOrder<X>(a: BuildRef<X>, b: BuildRef<X>, c: BuildRef<X>)
    ensures !Less(a, a)
    ensures Less(a, b) ==> !Less(b, a)
    ensures Less(a, b) && Less(b, c) ==> Less(a, c)
    ensures Incomparable(a, b) <==> a.lowerW == b.lowerW
    ensures Incomparable(a, b) && Incomparable(b, c) ==> Incomparable(a, c)
    ensures Less(a, b) || Less(b, a) || Incomparable(a, b)
  {
  }

  /** Refs that differ in everything but the cached area are interchangeable for the order. */
  lemma LessOnlySeesArea<X>(a: BuildRef<X>, b: BuildRef<X>, a2: BuildRef<X>, b2: BuildRef<X>)
    requires a2.lowerW == a.lowerW && b2.lowerW == b.lowerW
    ensures Less(a, b) <==> Less(a2, b2)
  {
  }
}

=== FILE: bvh4_factory.dfy ===
/**
 * The BVH4 accel factory (bvh4_factory.cpp): decision tables from the
 * device's traverser and builder names, and from a mesh's update flag, to
 * the leaf type, intersector table and builder of a new accel, plus the
 * scene "need..." flags some constructors set.  Intersectors and builders
 * are identified by tags naming their primitive encoding and variant.
 */
module Bvh4Factory {
  import opened Wrappers

  /** The primitive encodings a BVH4 stores in its leaves (the `::type` objects). */
  datatype Prim =
    | Bezier1v | Bezier1i
    | Triangle4 | Triangle8 | Triangle4v | Triangle4i | Triangle4vMB | TrianglePairs4
    | SubdivPatch1Cached | SubdivPatch1Eager | Object

  /** How an intersector kernel tests its primitives. */
  datatype Variant = Plain | OBB | MBOBB | Moeller | Pluecker | XfmMoeller

  /** How a packet kernel traverses: one ray of the packet at a time, the whole packet, or switching. */
  datatype Style = NoStyle | Single | Chunk | Hybrid

  /** An intersector kernel, e.g. `BVH4Triangle4Intersector8HybridMoellerNoFilter`. */
  datatype Kernel = Kernel(prim: Prim, variant: Variant, lanes: nat, style: Style, noFilter: bool)

  /** `Accel::Intersectors`: every slot starts out null. */
  datatype Intersectors = Intersectors(
    intersector1: Option<Kernel>,
    intersector4: Option<Kernel>, intersector4_filter: Option<Kernel>, intersector4_nofilter: Option<Kernel>,
    intersector8: Option<Kernel>, intersector8_filter: Option<Kernel>, intersector8_nofilter: Option<Kernel>,
    intersector16: Option<Kernel>, intersector16_filter: Option<Kernel>, intersector16_nofilter: Option<Kernel>)

  const NoIntersectors := Intersectors(None, None, None, None, None, None, None, None, None, None)

  /** A slot is empty or holds a kernel for leaf type `p`. */
  predicate SlotFor(o: Option<Kernel>, p: Prim) {
    o.None? || o.value.prim == p
  }

  /** Every kernel of the table works on leaf type `p`. */
  predicate TableFor(t: Intersectors, p: Prim) {
    && SlotFor(t.intersector1, p)
    && SlotFor(t.intersector4, p) && SlotFor(t.intersector4_filter, p) && SlotFor(t.intersector4_nofilter, p)
    && SlotFor(t.intersector8, p) && SlotFor(t.intersector8_filter, p) && SlotFor(t.intersector8_nofilter, p)
    && SlotFor(t.intersector16, p) && SlotFor(t.intersector16_filter, p) && SlotFor(t.intersector16_nofilter, p)
  }

  // The table builders (`BVH4*Intersectors*`).

  /** A plain table: one kernel per width, all of one primitive, variant and packet style. */
  function Uniform(p: Prim, v: Variant, style: Style): Intersectors {
    NoIntersectors.(intersector1 := Some(Kernel(p, v, 1, NoStyle, false)),
                    intersector4 := Some(Kernel(p, v, 4, style, false)),
                    intersector8 := Some(Kernel(p, v, 8, style, false)),
                    intersector16 := Some(Kernel(p, v, 16, style, false)))
  }

  /** A Moeller triangle table with separate filter and no-filter packet kernels. */
  function Filtered(p: Prim, style: Style): Intersectors {
    NoIntersectors.(intersector1 := Some(Kernel(p, Moeller, 1, NoStyle, false)),
                    intersector4_filter := Some(Kernel(p, Moeller, 4, style, false)),
                    intersector4_nofilter := Some(Kernel(p, Moeller, 4, style, true)),
                    intersector8_filter := Some(Kernel(p, Moeller, 8, style, false)),
                    intersector8_nofilter := Some(Kernel(p, Moeller, 8, style, true)),
                    intersector16_filter := Some(Kernel(p, Moeller, 16, style, false)),
                    intersector16_nofilter := Some(Kernel(p, Moeller, 16, style, true)))
  }

  function Bezier1vIntersectors(): Intersectors { Uniform(Bezier1v, Plain, Chunk) }
  function Bezier1iIntersectors(): Intersectors { Uniform(Bezier1i, Plain, Chunk) }
  function Bezier1vIntersectorsOBB(): Intersectors { Uniform(Bezier1v, OBB, Single) }
  function Bezier1iIntersectorsOBB(): Intersectors { Uniform(Bezier1i, OBB, Single) }
  function Bezier1iMBIntersectorsOBB(): Intersectors { Uniform(Bezier1i, MBOBB, Single) }

  function Triangle4IntersectorsChunk(): Intersectors { Filtered(Triangle4, Chunk) }
  function Triangle4IntersectorsHybrid(): Intersectors { Filtered(Triangle4, Hybrid) }

  /** Instancing only fills the single-ray slot, with the transforming kernel. */
  function Triangle4IntersectorsInstancing(): Intersectors {
    NoIntersectors.(intersector1 := Some(Kernel(Triangle4, XfmMoeller, 1, NoStyle, false)))
  }

  /** The Triangle8 chunk table also fills the plain 8-wide slot with the filtering kernel. */
  function Triangle8IntersectorsChunk(): Intersectors {
    Filtered(Triangle8, Chunk).(intersector8 := Some(Kernel(Triangle8, Moeller, 8, Chunk, false)))
  }

  function Triangle8IntersectorsHybrid(): Intersectors { Filtered(Triangle8, Hybrid) }
  function Triangle4vIntersectorsChunk(): Intersectors { Uniform(Triangle4v, Pluecker, Chunk) }
  function Triangle4vIntersectorsHybrid(): Intersectors { Uniform(Triangle4v, Pluecker, Hybrid) }
  function Triangle4iIntersectorsChunk(): Intersectors { Uniform(Triangle4i, Pluecker, Chunk) }
  function Triangle4iIntersectorsHybrid(): Intersectors { Uniform(Triangle4i, Pluecker, Hybrid) }
  function Triangle4vMBIntersectorsChunk(): Intersectors { Uniform(Triangle4vMB, Moeller, Chunk) }
  function Triangle4vMBIntersectorsHybrid(): Intersectors { Uniform(Triangle4vMB, Moeller, Hybrid) }

  /** The pairs table fills the plain packet slots with the filtering kernels, plus the no-filter slots. */
  function TrianglePairs4Intersectors(): Intersectors {
    var k := (lanes: nat, nf: bool) => Some(Kernel(TrianglePairs4, Moeller, lanes, Hybrid, nf));
    NoIntersectors.(intersector1 := Some(Kernel(TrianglePairs4, Moeller, 1, NoStyle, false)),
                    intersector4 := k(4, false), intersector4_nofilter := k(4, true),
                    intersector8 := k(8, false), intersector8_nofilter := k(8, true),
                    intersector16 := k(16, false), intersector16_nofilter := k(16, true))
  }

  /** The triangle encodings whose accels choose their table and builder from the device's names. */
  datatype TriEncoding = Tri4 | Tri8 | Tri4v | Tri4i

  function EncodingPrim(e: TriEncoding): Prim {
    match e
    case Tri4 => Triangle4
    case Tri8 => Triangle8
    case Tri4v => Triangle4v
    case Tri4i => Triangle4i
  }

  function ChunkTable(e: TriEncoding): Intersectors {
    match e
    case Tri4 => Triangle4IntersectorsChunk()
    case Tri8 => Triangle8IntersectorsChunk()
    case Tri4v => Triangle4vIntersectorsChunk()
    case Tri4i => Triangle4iIntersectorsChunk()
  }

  function HybridTable(e: TriEncoding): Intersectors {
    match e
    case Tri4 => Triangle4IntersectorsHybrid()
    case Tri8 => Triangle8IntersectorsHybrid()
    case Tri4v => Triangle4vIntersectorsHybrid()
    case Tri4i => Triangle4iIntersectorsHybrid()
  }

  /** The chunk and hybrid tables of one encoding share their single-ray kernel and differ in the packet kernels. */
  lemma ChunkHybridShareSingleRay(e: TriEncoding)
    ensures ChunkTable(e).intersector1 == HybridTable(e).intersector1
    ensures ChunkTable(e).intersector1 == Some(Kernel(EncodingPrim(e), if e == Tri4 || e == Tri8 then Moeller else Pluecker, 1, NoStyle, false))
    ensures ChunkTable(e) != HybridTable(e)
  {
    assert ChunkTable(e).intersector4_filter != HybridTable(e).intersector4_filter
        || ChunkTable(e).intersector4 != HybridTable(e).intersector4;
  }

  /** The motion-blur tables share their single-ray kernel too. */
  lemma MBChunkHybridShareSingleRay()
    ensures Triangle4vMBIntersectorsChunk().intersector1 == Triangle4vMBIntersectorsHybrid().intersector1
    ensures Triangle4vMBIntersectorsChunk().intersector4 != Triangle4vMBIntersectorsHybrid().intersector4
  {
  }

  // Builders.

  datatype BuilderKind =
    | SceneSAH | SceneSpatialSAH | SceneMortonGeneral
    | MeshSAH | MeshRefitSAH | MeshMortonGeneral
    | BuilderOBB | BinnedSAH | TwoLevelSAH | InstancingSAH

  /** The mode argument: 0, or `MODE_HIGH_QUALITY` (pre-splitting). */
  datatype BuildMode = ModeDefault | ModeHighQuality

  /**
   * A builder: its kind, the primitive encoding it emits (for the two-level and
   * instancing builders, that of the per-mesh accels they create), and its mode.
   */
  datatype Builder = Builder(kind: BuilderKind, prim: Prim, mode: BuildMode)

  datatype Traversal = HybridTraversal | ChunkTraversal

  /** `tri_traverser`: "default" and "hybrid" pick the hybrid table, "chunk" the chunk table. */
  function ParseTraverser(name: string): (r: Option<Traversal>)
    ensures r == Some(HybridTraversal) <==> name == "default" || name == "hybrid"
    ensures r == Some(ChunkTraversal) <==> name == "chunk"
  {
    if name == "default" then Some(HybridTraversal)
    else if name == "chunk" then Some(ChunkTraversal)
    else if name == "hybrid" then Some(HybridTraversal)
    else None
  }

  /** `tri_builder`: the scene builder kind and mode, or nothing for an unknown name. */
  function ParseBuilder(name: string): (r: Option<(BuilderKind, BuildMode)>)
    ensures r.Some? <==> name in {"default", "sah", "sah_spatial", "sah_presplit", "morton"}
    ensures r.Some? ==> r.value.0 in {SceneSAH, SceneSpatialSAH, SceneMortonGeneral}
    ensures r.Some? && r.value.1 == ModeHighQuality <==> name == "sah_presplit"
  {
    if name == "default" then Some((SceneSAH, ModeDefault))
    else if name == "sah" then Some((SceneSAH, ModeDefault))
    else if name == "sah_spatial" then Some((SceneSpatialSAH, ModeDefault))
    else if name == "sah_presplit" then Some((SceneSAH, ModeHighQuality))
    else if name == "morton" then Some((SceneMortonGeneral, ModeDefault))
    else None
  }

  // Accels, errors and the scene flags they touch.

  /** The leaf type of the BVH, its intersector table and its builder (`AccelInstance`). */
  datatype Accel = Accel(leaf: Prim, intersectors: Intersectors, builder: Builder)

  datatype ErrorCode = InvalidArgument | UnknownError

  /** `throw_RTCError(code, message)`. */
  datatype RTCError = RTCError(code: ErrorCode, message: string)

  /** The device settings the scene-level constructors consult. */
  datatype Device = Device(triTraverser: string, triBuilder: string, triBuilderMB: string)

  /** The scene's flags that accel constructors set. */
  datatype SceneFlags = SceneFlags(needTriangleVertices: bool, needBezierVertices: bool,
                                   needSubdivIndices: bool, needSubdivVertices: bool)

  /** A constructed accel together with the scene flags after construction. */
  datatype Built = Built(accel: Accel, scene: SceneFlags)

  /** Every kernel and the builder of an accel emit or read the accel's own leaf type. */
  predicate Consistent(a: Accel) {
    a.builder.prim == a.leaf && TableFor(a.intersectors, a.leaf)
  }

  /**
   * `BVH4Triangle4/8/4v/4i(scene)`: the traverser name is checked first, then
   * the builder name; a failure of either raises `RTC_INVALID_ARGUMENT` and
   * nothing is set.  Triangle4i sets `needTriangleVertices` on success.  The
   * labels are the accel names the two error messages use (the Triangle4v
   * traverser message says Triangle4).
   */
  function TriangleAccel(e: TriEncoding, dev: Device, s: SceneFlags): (r: Result<Built, RTCError>)
    ensures r.Failure? ==> r.error.code == InvalidArgument && "unknown " <= r.error.message
    ensures r.Success? ==> r.value.accel.leaf == EncodingPrim(e) && r.value.accel.builder.prim == EncodingPrim(e)
  {
    var travLabel := if e == Tri4v then "Triangle4" else EncodingLabel(e);
    match ParseTraverser(dev.triTraverser)
    case None =>
      Failure(RTCError(InvalidArgument, "unknown traverser " + dev.triTraverser + " for BVH4<" + travLabel + ">"))
    case Some(trav) =>
      match ParseBuilder(dev.triBuilder)
      case None =>
        Failure(RTCError(InvalidArgument, "unknown builder " + dev.triBuilder + " for BVH4<" + EncodingLabel(e) + ">"))
      case Some((kind, mode)) =>
        var table := if trav == HybridTraversal then HybridTable(e) else ChunkTable(e);
        var s' := if e == Tri4i then s.(needTriangleVertices := true) else s;
        Success(Built(Accel(EncodingPrim(e), table, Builder(kind, EncodingPrim(e), mode)), s'))
  }

  function EncodingLabel(e: TriEncoding): string {
    match e
    case Tri4 => "Triangle4"
    case Tri8 => "Triangle8"
    case Tri4v => "Triangle4v"
    case Tri4i => "Triangle4i"
  }

  /**
   * The scene-level triangle accels: success exactly when both names are
   * known; the table follows the traverser, the builder follows the builder
   * name; a bad traverser is reported whatever the builder name is.
   */
  lemma TriangleAccelDecision(e: TriEncoding, dev: Device, s: SceneFlags)
    ensures TriangleAccel(e, dev, s).Success? <==>
      ParseTraverser(dev.triTraverser).Some? && ParseBuilder(dev.triBuilder).Some?
    ensures ParseTraverser(dev.triTraverser).None? ==>
      TriangleAccel(e, dev, s).Failure? && TriangleAccel(e, dev, s).error.code == InvalidArgument &&
      TriangleAccel(e, dev, s).error.message[..18] == "unknown traverser "
    ensures TriangleAccel(e, dev, s).Success? ==>
      var a := TriangleAccel(e, dev, s).value.accel;
      && a.leaf == EncodingPrim(e) && Consistent(a)
      && a.intersectors == (if dev.triTraverser == "chunk" then ChunkTable(e) else HybridTable(e))
      && (a.builder.kind, a.builder.mode) == ParseBuilder(dev.triBuilder).value
  {
    var r := TriangleAccel(e, dev, s);
    if ParseTraverser(dev.triTraverser).None? {
      var msg := r.error.message;
      assert msg == "unknown traverser " + dev.triTraverser + " for BVH4<" + (if e == Tri4v then "Triangle4" else EncodingLabel(e)) + ">";
      assert msg[..18] == "unknown traverser ";
    }
  }

  /** Only Triangle4i touches the scene, and only on success: it sets `needTriangleVertices`. */
  lemma TriangleAccelSceneFlags(e: TriEncoding, dev: Device, s: SceneFlags)
    requires TriangleAccel(e, dev, s).Success?
    ensures var s' := TriangleAccel(e, dev, s).value.scene;
      s' == (if e == Tri4i then s.(needTriangleVertices := true) else s)
  {
  }

  /** `BVH4Triangle4vMB(scene)`: traverser as above, but only "default" or "sah" for `tri_builder_mb`. */
  function Triangle4vMBAccel(dev: Device, s: SceneFlags): (r: Result<Built, RTCError>)
    ensures r.Success? <==> ParseTraverser(dev.triTraverser).Some? && dev.triBuilderMB in {"default", "sah"}
    ensures r.Success? ==> r.value.scene == s && Consistent(r.value.accel) && r.value.accel.builder.kind == SceneSAH
    ensures r.Failure? ==> r.error.code == InvalidArgument
  {
    match ParseTraverser(dev.triTraverser)
    case None =>
      Failure(RTCError(InvalidArgument, "unknown traverser " + dev.triTraverser + " for BVH4<Triangle4vMB>"))
    case Some(trav) =>
      if dev.triBuilderMB == "default" || dev.triBuilderMB == "sah" then
        var table := if trav == HybridTraversal then Triangle4vMBIntersectorsHybrid() else Triangle4vMBIntersectorsChunk();
        Success(Built(Accel(Triangle4vMB, table, Builder(SceneSAH, Triangle4vMB, ModeDefault)), s))
      else
        Failure(RTCError(InvalidArgument, "unknown builder " + dev.triBuilderMB + " for BVH4<Triangle4vMB>"))
  }

  /** The motion-blur accel accepts exactly the two builder names, and it checks the traverser first. */
  lemma MBBuilderNames(dev: Device, s: SceneFlags)
    ensures dev.triBuilderMB !in {"default", "sah"} ==> Triangle4vMBAccel(dev, s).Failure?
    ensures ParseTraverser(dev.triTraverser).None? ==>
      Triangle4vMBAccel(dev, s).Failure? &&
      Triangle4vMBAccel(dev, s).error.message == "unknown traverser " + dev.triTraverser + " for BVH4<Triangle4vMB>"
    ensures dev.triBuilderMB in {"sah_spatial", "sah_presplit", "morton"} ==> Triangle4vMBAccel(dev, s).Failure?
  {
  }

  // Per-mesh accels for the two-level and instancing builders (`createTriangleMesh*`).

  /** A mesh's update flag: `RTC_GEOMETRY_STATIC`, `_DEFORMABLE`, `_DYNAMIC`, or any other value. */
  datatype GeometryFlag = Static | Deformable | Dynamic | Unrecognised(raw: int)

  /** The encodings with a `createTriangleMesh*` function. */
  datatype MeshEncoding = MeshTri4 | MeshTri8 | MeshPairs4 | MeshTri4v | MeshTri4i

  function MeshPrim(e: MeshEncoding): Prim {
    match e
    case MeshTri4 => Triangle4
    case MeshTri8 => Triangle8
    case MeshPairs4 => TrianglePairs4
    case MeshTri4v => Triangle4v
    case MeshTri4i => Triangle4i
  }

  /**
   * `createTriangleMesh*(mesh, accel, builder)`: the leaf type of the mesh's
   * BVH and its builder, chosen by the mesh's flag.  The pairs encoding has no
   * Morton builder and uses the SAH builder for dynamic meshes as well.
   */
  function CreateTriangleMesh(e: MeshEncoding, flag: GeometryFlag): (r: Result<(Prim, Builder), RTCError>)
    ensures r.Failure? <==> flag.Unrecognised?
    ensures r.Failure? ==> r.error == RTCError(UnknownError, "invalid geometry flag")
    ensures r.Success? ==> r.value.0 == MeshPrim(e) && r.value.1.prim == r.value.0
  {
    var p := MeshPrim(e);
    match flag
    case Static => Success((p, Builder(MeshSAH, p, ModeDefault)))
    case Deformable => Success((p, Builder(MeshRefitSAH, p, ModeDefault)))
    case Dynamic =>
      if e == MeshPairs4 then Success((p, Builder(MeshSAH, p, ModeDefault)))
      else Success((p, Builder(MeshMortonGeneral, p, ModeDefault)))
    case Unrecognised(_) => Failure(RTCError(UnknownError, "invalid geometry flag"))
  }

  /** The flag table: static → SAH, deformable → refit, dynamic → Morton (SAH for pairs), anything else an error. */
  lemma MeshFlagTable(e: MeshEncoding, flag: GeometryFlag)
    ensures CreateTriangleMesh(e, flag).Failure? <==> flag.Unrecognised?
    ensures CreateTriangleMesh(e, flag).Failure? ==> CreateTriangleMesh(e, flag).error.code == UnknownError
    ensures CreateTriangleMesh(e, flag).Success? ==>
      var (leaf, b) := CreateTriangleMesh(e, flag).value;
      && leaf == MeshPrim(e) && b.prim == leaf && b.mode == ModeDefault
      && (flag == Static ==> b.kind == MeshSAH)
      && (flag == Deformable ==> b.kind == MeshRefitSAH)
      && (flag == Dynamic ==> b.kind == (if e == MeshPairs4 then MeshSAH else MeshMortonGeneral))
  {
  }

  // The fixed-configuration scene accels.

  function Make(leaf: Prim, t: Intersectors, kind: BuilderKind, builderPrim: Prim, s: SceneFlags): Built {
    Built(Accel(leaf, t, Builder(kind, builderPrim, ModeDefault)), s)
  }

  function Bezier1vAccel(s: SceneFlags): Built { Make(Bezier1v, Bezier1vIntersectors(), SceneSAH, Bezier1v, s) }

  function Bezier1iAccel(s: SceneFlags): Built {
    Make(Bezier1i, Bezier1iIntersectors(), SceneSAH, Bezier1i, s.(needBezierVertices := true))
  }

  function OBBBezier1vAccel(s: SceneFlags): Built { Make(Bezier1v, Bezier1vIntersectorsOBB(), BuilderOBB, Bezier1v, s) }

  function OBBBezier1iAccel(s: SceneFlags): Built {
    Make(Bezier1i, Bezier1iIntersectorsOBB(), BuilderOBB, Bezier1i, s.(needBezierVertices := true))
  }

  function OBBBezier1iMBAccel(s: SceneFlags): Built {
    Make(Bezier1i, Bezier1iMBIntersectorsOBB(), BuilderOBB, Bezier1i, s.(needBezierVertices := true))
  }

  function InstancedBVH4Triangle4ObjectSplit(s: SceneFlags): Built {
    Make(Triangle4, Triangle4IntersectorsInstancing(), InstancingSAH, MeshPrim(MeshTri4), s)
  }

  function BVH4BVH4Triangle4ObjectSplit(s: SceneFlags): Built {
    Make(Triangle4, Triangle4IntersectorsHybrid(), TwoLevelSAH, MeshPrim(MeshTri4), s)
  }

  function BVH4BVH4Triangle8ObjectSplit(s: SceneFlags): Built {
    Make(Triangle8, Triangle8IntersectorsHybrid(), TwoLevelSAH, MeshPrim(MeshTri8), s)
  }

  /** As written: the top-level BVH is declared with Triangle8 leaves although everything else is pairs. */
  function BVH4BVH4TrianglePairs4ObjectSplitAsWritten(s: SceneFlags): Built {
    Make(Triangle8, TrianglePairs4Intersectors(), TwoLevelSAH, MeshPrim(MeshPairs4), s)
  }

  /** With the leaf type of the meshes it is built from, as `createTriangleMeshTrianglePairs4` uses. */
  function BVH4BVH4TrianglePairs4ObjectSplit(s: SceneFlags): Built {
    Make(TrianglePairs4, TrianglePairs4Intersectors(), TwoLevelSAH, MeshPrim(MeshPairs4), s)
  }

  function BVH4BVH4Triangle4vObjectSplit(s: SceneFlags): Built {
    Make(Triangle4v, Triangle4vIntersectorsHybrid(), TwoLevelSAH, MeshPrim(MeshTri4v), s)
  }

  /** Unlike `BVH4Triangle4iObjectSplit`, the two-level Triangle4i accel does not set `needTriangleVertices`. */
  function BVH4BVH4Triangle4iObjectSplit(s: SceneFlags): Built {
    Make(Triangle4i, Triangle4iIntersectorsHybrid(), TwoLevelSAH, MeshPrim(MeshTri4i), s)
  }

  function Triangle4SpatialSplit(s: SceneFlags): Built { Make(Triangle4, Triangle4IntersectorsHybrid(), SceneSpatialSAH, Triangle4, s) }
  function Triangle8SpatialSplit(s: SceneFlags): Built { Make(Triangle8, Triangle8IntersectorsHybrid(), SceneSpatialSAH, Triangle8, s) }
  function Triangle4ObjectSplit(s: SceneFlags): Built { Make(Triangle4, Triangle4IntersectorsHybrid(), SceneSAH, Triangle4, s) }
  function Triangle8ObjectSplit(s: SceneFlags): Built { Make(Triangle8, Triangle8IntersectorsHybrid(), SceneSAH, Triangle8, s) }
  function Triangle4vObjectSplit(s: SceneFlags): Built { Make(Triangle4v, Triangle4vIntersectorsHybrid(), SceneSAH, Triangle4v, s) }

  function Triangle4iObjectSplit(s: SceneFlags): Built {
    Make(Triangle4i, Triangle4iIntersectorsHybrid(), SceneSAH, Triangle4i, s.(needTriangleVertices := true))
  }

  function SubdivPatch1CachedAccel(s: SceneFlags): Built {
    Make(SubdivPatch1Cached, Uniform(SubdivPatch1Cached, Plain, NoStyle), BinnedSAH, SubdivPatch1Cached,
         s.(needSubdivIndices := false, needSubdivVertices := true))
  }

  function SubdivGridEagerAccel(s: SceneFlags): Built {
    Make(SubdivPatch1Eager, Uniform(SubdivPatch1Eager, Plain, NoStyle), BinnedSAH, SubdivPatch1Eager, s)
  }

  function UserGeometryAccel(s: SceneFlags): Built {
    Make(Object, Uniform(Object, Plain, Chunk), SceneSAH, Object, s)
  }

  function TrianglePairs4ObjectSplit(s: SceneFlags): Built {
    Make(TrianglePairs4, TrianglePairs4Intersectors(), SceneSAH, TrianglePairs4, s)
  }

  // The mesh-level accels (the overloads taking a `TriangleMesh*`), which leave the scene alone.

  function Triangle4ObjectSplitMesh(): Accel { Accel(Triangle4, Triangle4IntersectorsHybrid(), Builder(MeshSAH, Triangle4, ModeDefault)) }
  function Triangle4vObjectSplitMesh(): Accel { Accel(Triangle4v, Triangle4vIntersectorsHybrid(), Builder(MeshSAH, Triangle4v, ModeDefault)) }
  function Triangle4RefitMesh(): Accel { Accel(Triangle4, Triangle4IntersectorsHybrid(), Builder(MeshRefitSAH, Triangle4, ModeDefault)) }
  function TrianglePairs4ObjectSplitMesh(): Accel { Accel(TrianglePairs4, TrianglePairs4Intersectors(), Builder(MeshSAH, TrianglePairs4, ModeDefault)) }

  /**
   * Every fixed-configuration accel is type-consistent: its leaf type is the
   * one its kernels and its builder (or, for two-level and instancing, the
   * per-mesh accels) work on.
   */
  lemma FixedAccelsConsistent(s: SceneFlags)
    ensures Consistent(Bezier1vAccel(s).accel) && Consistent(Bezier1iAccel(s).accel)
    ensures Consistent(OBBBezier1vAccel(s).accel) && Consistent(OBBBezier1iAccel(s).accel)
    ensures Consistent(OBBBezier1iMBAccel(s).accel)
    ensures Consistent(InstancedBVH4Triangle4ObjectSplit(s).accel) && Consistent(BVH4BVH4Triangle4ObjectSplit(s).accel)
    ensures Consistent(BVH4BVH4Triangle8ObjectSplit(s).accel) && Consistent(BVH4BVH4TrianglePairs4ObjectSplit(s).accel)
    ensures Consistent(BVH4BVH4Triangle4vObjectSplit(s).accel) && Consistent(BVH4BVH4Triangle4iObjectSplit(s).accel)
    ensures Consistent(Triangle4SpatialSplit(s).accel) && Consistent(Triangle8SpatialSplit(s).accel)
    ensures Consistent(Triangle4ObjectSplit(s).accel) && Consistent(Triangle8ObjectSplit(s).accel)
    ensures Consistent(Triangle4vObjectSplit(s).accel) && Consistent(Triangle4iObjectSplit(s).accel)
    ensures Consistent(SubdivPatch1CachedAccel(s).accel) && Consistent(SubdivGridEagerAccel(s).accel)
    ensures Consistent(UserGeometryAccel(s).accel) && Consistent(TrianglePairs4ObjectSplit(s).accel)
    ensures Consistent(Triangle4ObjectSplitMesh()) && Consistent(Triangle4vObjectSplitMesh())
    ensures Consistent(Triangle4RefitMesh()) && Consistent(TrianglePairs4ObjectSplitMesh())
  {
  }

  /**
   * As written, the two-level pairs accel is the one inconsistent accel: its
   * BVH declares Triangle8 leaves while its kernels and per-mesh accels are
   * TrianglePairs4.  The corrected accel differs only in the leaf type.
   */
  lemma PairsTwoLevelLeafMismatch(s: SceneFlags)
    ensures !Consistent(BVH4BVH4TrianglePairs4ObjectSplitAsWritten(s).accel)
    ensures BVH4BVH4TrianglePairs4ObjectSplitAsWritten(s).accel.leaf == Triangle8
    ensures BVH4BVH4TrianglePairs4ObjectSplit(s).accel ==
      BVH4BVH4TrianglePairs4ObjectSplitAsWritten(s).accel.(leaf := TrianglePairs4)
    ensures Consistent(BVH4BVH4TrianglePairs4ObjectSplit(s).accel)
  {
  }

  /** Scene flag side effects of the fixed-configuration accels: exactly the named flags change. */
  lemma FixedAccelSceneFlags(s: SceneFlags)
    ensures Bezier1iAccel(s).scene == s.(needBezierVertices := true)
    ensures OBBBezier1iAccel(s).scene == s.(needBezierVertices := true)
    ensures OBBBezier1iMBAccel(s).scene == s.(needBezierVertices := true)
    ensures Bezier1vAccel(s).scene == s && OBBBezier1vAccel(s).scene == s
    ensures Triangle4iObjectSplit(s).scene == s.(needTriangleVertices := true)
    ensures BVH4BVH4Triangle4iObjectSplit(s).scene == s
    ensures SubdivPatch1CachedAccel(s).scene == s.(needSubdivIndices := false, needSubdivVertices := true)
    ensures SubdivGridEagerAccel(s).scene == s && UserGeometryAccel(s).scene == s
  {
  }
}

=== FILE: camera.dfy ===
/** `Camera`'s registry (`createCamera`, `registerCamera`) and the defaults `commit` reads. */
module CameraFactory {
  import opened Wrappers
  import opened Geometry
  import opened StdMap
  import opened Registry
  import opened Names
  import opened Params
  import RendererFactory

  const SymbolPrefix := "ospray_create_camera__"

  /** `createCamera(type)`: the type is the key as given (no `@` split), through the path that caches null answers. */
  function CreateCamera(reg: Reg, typ: string, env: Env): (o: Outcome)
    requires Valid(reg)
    ensures Valid(o.reg) && HasKey(o.reg, typ) && o.libraries == []
    ensures o.lookups == (if HasKey(reg, typ) then [] else [SymbolPrefix + typ])
    ensures !HasKey(reg, typ) ==> Find(o.reg, typ) == Some(env.getSymbol(SymbolPrefix + typ))
    ensures forall k :: k != typ ==> Find(o.reg, k) == Find(reg, k)
    ensures MadeByStored(o, typ, env, CameraType)
  {
    CreateCachingNull(reg, typ, SymbolPrefix + typ, env, CameraType)
  }

  function RegisterCamera(reg: Reg, identifier: string, c: Creator): (r: Reg)
    requires Valid(reg)
    ensures Valid(r) && Find(r, identifier) == Some(Some(c))
    ensures forall k :: k != identifier ==> Find(r, k) == Find(reg, k)
  {
    Register(reg, identifier, c)
  }

  /**
   * Unlike the renderer factory, a camera type containing `@` is looked up
   * whole: the renderer factory would look up only the part before the `@`.
   */
  lemma CameraKeepsAtSign(reg: Reg, typ: string, m: string, env: Env)
    requires Valid(reg) && '@' !in typ && !HasKey(reg, typ + "@" + m) && !HasKey(reg, typ)
    ensures CreateCamera(reg, typ + "@" + m, env).lookups == [SymbolPrefix + (typ + "@" + m)]
    ensures RendererFactory.CreateRenderer(reg, typ + "@" + m, env).lookups == [RendererFactory.SymbolPrefix + typ]
  {
    RendererFactory.FirstAtOfJoin(typ, m);
  }

  datatype Settings = Settings(pos: Vec3, dir: Vec3, up: Vec3, nearClip: real)

  /**
   * `Camera::commit`: each vector is the parameter of its name when one is
   * set as a 3-vector, otherwise its default (at the origin, looking down
   * +z, +y up); the near clip is `near_clip`, else `nearClip`, else 1e-6.
   */
  function Commit(ps: ParamSet): (s: Settings)
    ensures s.pos == (if "pos" in ps && ps["pos"].Vec3Param? then ps["pos"].v else Vec3(0.0, 0.0, 0.0))
    ensures s.dir == (if "dir" in ps && ps["dir"].Vec3Param? then ps["dir"].v else Vec3(0.0, 0.0, 1.0))
    ensures s.up == (if "up" in ps && ps["up"].Vec3Param? then ps["up"].v else Vec3(0.0, 1.0, 0.0))
    ensures s.nearClip ==
      (if "near_clip" in ps && ps["near_clip"].FloatParam? then ps["near_clip"].f
       else if "nearClip" in ps && ps["nearClip"].FloatParam? then ps["nearClip"].f
       else 0.000001)
    ensures ps == map[] ==> s == Settings(Vec3(0.0, 0.0, 0.0), Vec3(0.0, 0.0, 1.0), Vec3(0.0, 1.0, 0.0), 0.000001)
  {
    Settings(Param3f(ps, "pos", Vec3(0.0, 0.0, 0.0)), Param3f(ps, "dir", Vec3(0.0, 0.0, 1.0)),
             Param3f(ps, "up", Vec3(0.0, 1.0, 0.0)),
             Param1f(ps, "near_clip", Param1f(ps, "nearClip", 0.000001)))
  }

  /**
   * Setting one parameter before `commit` changes at most the field read
   * from that name; `nearClip` matters only while `near_clip` is not a float.
   */
  lemma CommitFrame(ps: ParamSet, n: string, p: Param)
    ensures var before, after := Commit(ps), Commit(ps[n := p]);
      && (n !in {"pos", "dir", "up", "near_clip", "nearClip"} ==> after == before)
      && (n == "pos" ==> after == before.(pos := if p.Vec3Param? then p.v else Vec3(0.0, 0.0, 0.0)))
      && (n == "dir" ==> after == before.(dir := if p.Vec3Param? then p.v else Vec3(0.0, 0.0, 1.0)))
      && (n == "up" ==> after == before.(up := if p.Vec3Param? then p.v else Vec3(0.0, 1.0, 0.0)))
      && (n == "near_clip" ==> after == before.(nearClip :=
            if p.FloatParam? then p.f
            else if "nearClip" in ps && ps["nearClip"].FloatParam? then ps["nearClip"].f else 0.000001))
      && (n == "nearClip" ==> after == before.(nearClip :=
            if "near_clip" in ps && ps["near_clip"].FloatParam? then before.nearClip
            else if p.FloatParam? then p.f else 0.000001))
  {
  }
}

=== FILE: geometry.dfy ===
/**
 * Exact-arithmetic stand-ins for the kernel's small vector types: 3-vectors,
 * axis-aligned boxes, and the primitive-info accumulator that the reference
 * builders reduce over (count, geometry bounds, centroid bounds).
 */
module Geometry {

  datatype Vec3 = Vec3(x: real, y: real, z: real)

  function Add(a: Vec3, b: Vec3): Vec3 { Vec3(a.x + b.x, a.y + b.y, a.z + b.z) }

  function Sub(a: Vec3, b: Vec3): Vec3 { Vec3(a.x - b.x, a.y - b.y, a.z - b.z) }

  function Scale(s: real, a: Vec3): Vec3 { Vec3(s * a.x, s * a.y, s * a.z) }

  function Dot(a: Vec3, b: Vec3): real { a.x * b.x + a.y * b.y + a.z * b.z }

  function Cross(a: Vec3, b: Vec3): Vec3 {
    Vec3(a.y * b.z - a.z * b.y, a.z * b.x - a.x * b.z, a.x * b.y - a.y * b.x)
  }

  function MinR(a: real, b: real): real { if a <= b then a else b }

  function MaxR(a: real, b: real): real { if a >= b then a else b }

  function MinV(a: Vec3, b: Vec3): Vec3 { Vec3(MinR(a.x, b.x), MinR(a.y, b.y), MinR(a.z, b.z)) }

  function MaxV(a: Vec3, b: Vec3): Vec3 { Vec3(MaxR(a.x, b.x), MaxR(a.y, b.y), MaxR(a.z, b.z)) }

  /** The bounds a primitive reports when it is valid: a lower and an upper corner. */
  datatype Bounds = Bounds(lower: Vec3, upper: Vec3)

  /** An accumulated box; `Empty` is the neutral element of `Extend` (the source's `empty`). */
  datatype Box = Empty | Box(lower: Vec3, upper: Vec3)

  function FromBounds(b: Bounds): Box { Box(b.lower, b.upper) }

  function PointBox(p: Vec3): Box { Box(p, p) }

  /** Twice the centre of a box, as the builders use for centroid binning. */
  function Center2(b: Bounds): Vec3 { Add(b.lower, b.upper) }

  /** The smallest box holding both arguments. */
  function Extend(a: Box, b: Box): Box {
    match (a, b)
    case (Empty, _) => b
    case (_, Empty) => a
    case (Box(l1, u1), Box(l2, u2)) => Box(MinV(l1, l2), MaxV(u1, u2))
  }

  /** The union of two bounds, used when two paired triangles share one reference. */
  function Union(a: Bounds, b: Bounds): (r: Bounds)
    ensures FromBounds(r) == Extend(FromBounds(a), FromBounds(b))
  {
    Bounds(MinV(a.lower, b.lower), MaxV(a.upper, b.upper))
  }

  /** `inner` lies inside `outer` (the empty box lies inside everything). */
  predicate Contains(outer: Box, inner: Box) {
    match (outer, inner)
    case (_, Empty) => true
    case (Empty, Box(_, _)) => false
    case (Box(lo, hi), Box(l, u)) =>
      lo.x <= l.x && lo.y <= l.y && lo.z <= l.z && u.x <= hi.x && u.y <= hi.y && u.z <= hi.z
  }

  lemma ExtendAssoc(a: Box, b: Box, c: Box)
    ensures Extend(Extend(a, b), c) == Extend(a, Extend(b, c))
  {
  }

  lemma ExtendComm(a: Box, b: Box)
    ensures Extend(a, b) == Extend(b, a)
  {
  }

  lemma ExtendContains(a: Box, b: Box)
    ensures Contains(Extend(a, b), a) && Contains(Extend(a, b), b)
  {
  }

  /** The primitive-info accumulator: how many references, and what they span. */
  datatype PrimInfo = PrimInfo(count: nat, geomBounds: Box, centBounds: Box)

  const EmptyInfo := PrimInfo(0, Empty, Empty)

  /** Accounts for one more primitive with the given bounds. */
  function AddPrim(info: PrimInfo, b: Bounds): (r: PrimInfo)
    ensures r.count == info.count + 1
    ensures Contains(r.geomBounds, FromBounds(b)) && Contains(r.geomBounds, info.geomBounds)
    ensures Contains(r.centBounds, PointBox(Center2(b))) && Contains(r.centBounds, info.centBounds)
  {
    PrimInfo(info.count + 1, Extend(info.geomBounds, FromBounds(b)),
             Extend(info.centBounds, PointBox(Center2(b))))
  }

  /** The reduction operator that combines the summaries of two chunks. */
  function Merge(a: PrimInfo, b: PrimInfo): PrimInfo {
    PrimInfo(a.count + b.count, Extend(a.geomBounds, b.geomBounds), Extend(a.centBounds, b.centBounds))
  }

  lemma MergeAssoc(a: PrimInfo, b: PrimInfo, c: PrimInfo)
    ensures Merge(Merge(a, b), c) == Merge(a, Merge(b, c))
  {
    ExtendAssoc(a.geomBounds, b.geomBounds, c.geomBounds);
    ExtendAssoc(a.centBounds, b.centBounds, c.centBounds);
  }

  lemma MergeComm(a: PrimInfo, b: PrimInfo)
    ensures Merge(a, b) == Merge(b, a)
  {
    ExtendComm(a.geomBounds, b.geomBounds);
    ExtendComm(a.centBounds, b.centBounds);
  }

  lemma MergeIdentity(a: PrimInfo)
    ensures Merge(EmptyInfo, a) == a && Merge(a, EmptyInfo) == a
  {
  }

  /** The summary of a list of items, accumulated left to right as one task does. */
  function InfoOf<T>(xs: seq<T>, box: T -> Bounds): PrimInfo
  {
    if |xs| == 0 then EmptyInfo else AddPrim(InfoOf(xs[..|xs| - 1], box), box(xs[|xs| - 1]))
  }

  /** Summaries of adjacent pieces merge into the summary of their concatenation. */
  lemma {:induction false} InfoOfAppend<T>(xs: seq<T>, ys: seq<T>, box: T -> Bounds)
    ensures InfoOf(xs + ys, box) == Merge(InfoOf(xs, box), InfoOf(ys, box))
    decreases |ys|
  {
    if |ys| == 0 {
      assert xs + ys == xs;
      MergeIdentity(InfoOf(xs, box));
    } else {
      var ys' := ys[..|ys| - 1];
      var y := ys[|ys| - 1];
      assert (xs + ys)[..|xs + ys| - 1] == xs + ys';
      assert (xs + ys)[|xs + ys| - 1] == y;
      InfoOfAppend(xs, ys', box);
      var one := AddPrim(EmptyInfo, box(y));
      assert AddPrim(InfoOf(ys', box), box(y)) == Merge(InfoOf(ys', box), one);
      assert AddPrim(InfoOf(xs + ys', box), box(y)) == Merge(InfoOf(xs + ys', box), one);
      MergeAssoc(InfoOf(xs, box), InfoOf(ys', box), one);
    }
  }

  /** Accounting for one more item extends the summary by that item alone. */
  lemma InfoOfSnoc<T>(xs: seq<T>, x: T, box: T -> Bounds)
    ensures InfoOf(xs + [x], box) == AddPrim(InfoOf(xs, box), box(x))
  {
    assert (xs + [x])[..|xs + [x]| - 1] == xs;
  }

  lemma {:induction false} InfoOfCount<T>(xs: seq<T>, box: T -> Bounds)
    ensures InfoOf(xs, box).count == |xs|
  {
    if |xs| > 0 {
      InfoOfCount(xs[..|xs| - 1], box);
    }
  }

  /** Every item's bounds lie inside the accumulated geometry bounds. */
  lemma {:induction false} InfoOfContains<T>(xs: seq<T>, box: T -> Bounds, i: nat)
    requires i < |xs|
    ensures Contains(InfoOf(xs, box).geomBounds, FromBounds(box(xs[i])))
  {
    var n := |xs| - 1;
    if i < n {
      InfoOfContains(xs[..n], box, i);
      ContainsTrans(InfoOf(xs, box).geomBounds, InfoOf(xs[..n], box).geomBounds, FromBounds(box(xs[i])));
    }
  }

  lemma ContainsTrans(a: Box, b: Box, c: Box)
    requires Contains(a, b) && Contains(b, c)
    ensures Contains(a, c)
  {
  }
}

=== FILE: moeller_pairs.dfy ===
/**
 * The triangle-pair Möller–Trumbore kernel (trianglepairs_intersector_moeller.h)
 * over exact arithmetic.  A lane mask is a `seq<bool>`; a kernel call runs a
 * list of stage tests, ANDing each into the mask and returning "no hit" as
 * soon as the mask is empty.  The single-ray kernels test one ray against a
 * lane of triangles, with a strict depth gate; the packet kernel tests a lane
 * of rays against one triangle, with an inclusive depth gate.
 */
module MoellerPairs {
  import opened Wrappers
  import opened Geometry

  // Lane masks.

  /** `valid & cond`, lane by lane. */
  function Narrow(mask: seq<bool>, cond: seq<bool>): (r: seq<bool>)
    requires |cond| == |mask|
    ensures |r| == |mask|
    ensures forall i :: 0 <= i < |r| ==> (r[i] <==> mask[i] && cond[i])
  {
    seq(|mask|, i requires 0 <= i < |mask| => mask[i] && cond[i])
  }

  /** `!none(mask)`. */
  predicate Any(mask: seq<bool>) {
    exists i :: 0 <= i < |mask| && mask[i]
  }

  /** Lane `i` passes every stage. */
  predicate PassesAll(stages: seq<seq<bool>>, i: nat) {
    forall s :: 0 <= s < |stages| ==> i < |stages[s]| && stages[s][i]
  }

  predicate Shaped(stages: seq<seq<bool>>, n: nat) {
    forall s :: 0 <= s < |stages| ==> |stages[s]| == n
  }

  /**
   * The kernel's control flow: AND each stage into the mask, and return no
   * hit (`return false`) as soon as the mask is empty; otherwise the final
   * mask goes to the epilog.
   */
  function RunStages(mask: seq<bool>, stages: seq<seq<bool>>): (r: Option<seq<bool>>)
    requires Shaped(stages, |mask|)
    ensures r.Some? ==> |r.value| == |mask|
    ensures r.Some? ==> forall i :: 0 <= i < |mask| ==> (r.value[i] <==> mask[i] && PassesAll(stages, i))
    ensures |stages| > 0 ==> (r.Some? <==> exists i :: 0 <= i < |mask| && mask[i] && PassesAll(stages, i))
    decreases |stages|
  {
    if |stages| == 0 then Some(mask)
    else
      var m := Narrow(mask, stages[0]);
      if !Any(m) then None
      else
        var r := RunStages(m, stages[1..]);
        assert forall i :: 0 <= i < |mask| ==> (PassesAll(stages, i) <==> stages[0][i] && PassesAll(stages[1..], i)) by {
          forall i | 0 <= i < |mask|
            ensures PassesAll(stages, i) <==> stages[0][i] && PassesAll(stages[1..], i)
          {
            if stages[0][i] && PassesAll(stages[1..], i) {
              forall s | 0 <= s < |stages| ensures i < |stages[s]| && stages[s][i] {
                if s > 0 { assert stages[s] == stages[1..][s - 1]; }
              }
            }
          }
        }
        r
  }

  /** The mask handed to the epilog is a sub-mask of the one the call started with. */
  lemma MaskOnlyShrinks(mask: seq<bool>, stages: seq<seq<bool>>)
    requires Shaped(stages, |mask|) && RunStages(mask, stages).Some?
    ensures forall i :: 0 <= i < |mask| && RunStages(mask, stages).value[i] ==> mask[i]
  {
  }

  /** A mask that is already empty never reaches the epilog. */
  lemma EmptyMaskNoHit(mask: seq<bool>, stages: seq<seq<bool>>)
    requires Shaped(stages, |mask|) && |stages| > 0 && !Any(mask)
    ensures RunStages(mask, stages).None?
  {
  }

  // One lane's arithmetic.

  /** One ray: origin, direction and the open or closed interval [tnear, tfar] of accepted distances. */
  datatype Ray = Ray(org: Vec3, dir: Vec3, tnear: real, tfar: real)

  /** A triangle in edge form: base vertex, the two edges and the (unnormalised) geometry normal. */
  datatype TriEdges = TriEdges(v0: Vec3, e1: Vec3, e2: Vec3, ng: Vec3)

  /** The vertex form: `e1 = v0 - v1`, `e2 = v2 - v0`, `Ng = e1 x e2`. */
  function FromVertices(v0: Vec3, v1: Vec3, v2: Vec3): TriEdges {
    var e1 := Sub(v0, v1);
    var e2 := Sub(v2, v0);
    TriEdges(v0, e1, e2, Cross(e1, e2))
  }

  /** The edge form keeps the three vertices: `v1 = v0 - e1` and `v2 = v0 + e2`. */
  lemma FromVerticesRecovers(v0: Vec3, v1: Vec3, v2: Vec3)
    ensures var t := FromVertices(v0, v1, v2);
      t.v0 == v0 && Add(t.v0, Scale(-1.0, t.e1)) == v1 && Add(t.v0, t.e2) == v2
  {
  }

  /** The derived normal is perpendicular to both derived edges. */
  lemma NormalOrthogonal(v0: Vec3, v1: Vec3, v2: Vec3)
    ensures var t := FromVertices(v0, v1, v2); Dot(t.ng, t.e1) == 0.0 && Dot(t.ng, t.e2) == 0.0
  {
  }

  function Abs(x: real): real { if x < 0.0 then -x else x }

  /** `x ^ signmsk(den)`: x with the sign of `den` folded in. */
  function Fold(x: real, den: real): real {
    if den < 0.0 then -x else x
  }

  /** The per-lane quantities both kernels compute. */
  datatype Terms = Terms(den: real, absDen: real, u: real, v: real, t: real)

  function LaneTerms(ray: Ray, tri: TriEdges): (l: Terms)
    ensures l.absDen == Abs(l.den) && l.den == Dot(tri.ng, ray.dir)
  {
    var c := Sub(tri.v0, ray.org);
    var r := Cross(ray.dir, c);
    var den := Dot(tri.ng, ray.dir);
    Terms(den, Abs(den), Fold(Dot(r, tri.e2), den), Fold(Dot(r, tri.e1), den), Fold(Dot(tri.ng, c), den))
  }

  /**
   * Folding the sign makes the scaled distance independent of the facing:
   * `T/|den|` is the unfolded `(Ng.C)/(Ng.D)`, and the point at that distance
   * lies on the triangle's plane.
   */
  lemma DistanceOnPlane(ray: Ray, tri: TriEdges)
    requires LaneTerms(ray, tri).den != 0.0
    ensures var l := LaneTerms(ray, tri);
      l.t / l.absDen == Dot(tri.ng, Sub(tri.v0, ray.org)) / l.den
    ensures var l := LaneTerms(ray, tri);
      Dot(tri.ng, Sub(Add(ray.org, Scale(l.t / l.absDen, ray.dir)), tri.v0)) == 0.0
  {
    var l := LaneTerms(ray, tri);
    var nc := Dot(tri.ng, Sub(tri.v0, ray.org));
    assert l.t == Fold(nc, l.den);
    UnfoldDistance(l.t, l.den, nc);
    DotAlongRay(tri.ng, ray.org, ray.dir, tri.v0, l.t / Abs(l.den));
  }

  /** `Fold(nc, den) / |den| == nc / den`, and it solves `d * den == nc`. */
  lemma UnfoldDistance(t: real, den: real, nc: real)
    requires den != 0.0 && t == Fold(nc, den)
    ensures t / Abs(den) == nc / den && (t / Abs(den)) * den == nc
  {
    if den < 0.0 {
      assert t / Abs(den) == (-nc) / (-den);
    }
  }

  /** The plane equation along a ray is affine in the distance. */
  lemma DotAlongRay(n: Vec3, o: Vec3, dir: Vec3, v: Vec3, d: real)
    ensures Dot(n, Sub(Add(o, Scale(d, dir)), v)) == d * Dot(n, dir) - Dot(n, Sub(v, o))
  {
  }

  /** Dividing by a positive scale preserves every comparison with a scaled bound. */
  lemma DivMonotone(x: real, a: real, c: real)
    requires a > 0.0
    ensures x > a * c ==> x / a > c
    ensures x >= a * c ==> x / a >= c
    ensures x < a * c ==> x / a < c
    ensures x <= a * c ==> x / a <= c
  {
    var q := x / a;
    assert x == q * a;
    assert x - a * c == (q - c) * a;
  }

  // The single-ray kernels (`MoellerTrumboreIntersectorPairs1::intersect`, `MoellerTrumboreIntersectorPairK::intersect`).

  /** The edge stage: non-zero (or, when culling back faces, positive) denominator and both edge tests. */
  predicate EdgeOk1(cull: bool, l: Terms) {
    (if cull then l.den > 0.0 else l.den != 0.0) && l.u >= 0.0 && l.v >= 0.0 && l.u + l.v <= l.absDen
  }

  /** The single-ray depth gate is strict at both ends. */
  predicate DepthOk1(l: Terms, ray: Ray) {
    l.t > l.absDen * ray.tnear && l.t < l.absDen * ray.tfar
  }

  predicate Accept1Terms(cull: bool, l: Terms, ray: Ray) {
    EdgeOk1(cull, l) && DepthOk1(l, ray)
  }

  predicate Accept1(cull: bool, ray: Ray, tri: TriEdges) {
    Accept1Terms(cull, LaneTerms(ray, tri), ray)
  }

  function EdgeMask1(cull: bool, ray: Ray, tris: seq<TriEdges>): seq<bool> {
    seq(|tris|, i requires 0 <= i < |tris| => EdgeOk1(cull, LaneTerms(ray, tris[i])))
  }

  function DepthMask1(ray: Ray, tris: seq<TriEdges>): seq<bool> {
    seq(|tris|, i requires 0 <= i < |tris| => DepthOk1(LaneTerms(ray, tris[i]), ray))
  }

  /** One ray against a lane of triangles; the mask the epilog receives, or no hit. */
  function Intersect1(cull: bool, ray: Ray, tris: seq<TriEdges>): (r: Option<seq<bool>>)
    ensures r.Some? ==> |r.value| == |tris|
    ensures r.Some? ==> forall i :: 0 <= i < |tris| && r.value[i] ==> EdgeOk1(cull, LaneTerms(ray, tris[i]))
  {
    RunStages(seq(|tris|, _ => true), [EdgeMask1(cull, ray, tris), DepthMask1(ray, tris)])
  }

  /** A triangle lane is in the epilog's mask exactly when it passes both stages; no lane passing means no hit. */
  lemma Intersect1Lanes(cull: bool, ray: Ray, tris: seq<TriEdges>)
    ensures Intersect1(cull, ray, tris).Some? <==> exists i :: 0 <= i < |tris| && Accept1(cull, ray, tris[i])
    ensures Intersect1(cull, ray, tris).Some? ==>
      forall i :: 0 <= i < |tris| ==> (Intersect1(cull, ray, tris).value[i] <==> Accept1(cull, ray, tris[i]))
  {
    var stages := [EdgeMask1(cull, ray, tris), DepthMask1(ray, tris)];
    assert forall i :: 0 <= i < |tris| ==> (PassesAll(stages, i) <==> Accept1(cull, ray, tris[i])) by {
      forall i | 0 <= i < |tris| ensures PassesAll(stages, i) <==> Accept1(cull, ray, tris[i]) {
        assert stages[0][i] == EdgeOk1(cull, LaneTerms(ray, tris[i]));
        assert stages[1][i] == DepthOk1(LaneTerms(ray, tris[i]), ray);
      }
    }
  }

  // The packet kernel (`MoellerTrumboreIntersectorPairK::intersectK`).

  /** The packet kernel's stages, in order: edge p2p0, edge p0p1, edge p1p2 via `W`, depth, facing. */
  predicate StageK(stage: nat, cull: bool, l: Terms, ray: Ray)
    requires stage < 5
  {
    match stage
    case 0 => l.u >= 0.0
    case 1 => l.v >= 0.0
    case 2 => l.absDen - l.u - l.v >= 0.0
    case 3 => l.t >= l.absDen * ray.tnear && l.absDen * ray.tfar >= l.t
    case 4 => if cull then l.den > 0.0 else l.den != 0.0
  }

  predicate AcceptKTerms(cull: bool, l: Terms, ray: Ray) {
    forall s :: 0 <= s < 5 ==> StageK(s, cull, l, ray)
  }

  predicate AcceptK(cull: bool, ray: Ray, tri: TriEdges) {
    AcceptKTerms(cull, LaneTerms(ray, tri), ray)
  }

  function StageMaskK(stage: nat, cull: bool, rays: seq<Ray>, tri: TriEdges): seq<bool>
    requires stage < 5
  {
    seq(|rays|, i requires 0 <= i < |rays| => StageK(stage, cull, LaneTerms(rays[i], tri), rays[i]))
  }

  /** A packet of rays, masked by `valid0`, against one triangle. */
  function IntersectK(cull: bool, valid0: seq<bool>, rays: seq<Ray>, tri: TriEdges): (r: Option<seq<bool>>)
    requires |valid0| == |rays|
    ensures r.Some? ==> |r.value| == |rays| && forall i :: 0 <= i < |rays| && r.value[i] ==> valid0[i]
    ensures r.Some? ==> exists i :: 0 <= i < |rays| && valid0[i]
  {
    RunStages(valid0, seq(5, s requires 0 <= s < 5 => StageMaskK(s, cull, rays, tri)))
  }

  /**
   * A ray lane is in the epilog's mask exactly when it was active and passes
   * all five stages; the result is a sub-mask of `valid0`, and the call
   * reports no hit exactly when no active lane passes.
   */
  lemma IntersectKLanes(cull: bool, valid0: seq<bool>, rays: seq<Ray>, tri: TriEdges)
    requires |valid0| == |rays|
    ensures IntersectK(cull, valid0, rays, tri).Some? <==>
      exists i :: 0 <= i < |rays| && valid0[i] && AcceptK(cull, rays[i], tri)
    ensures IntersectK(cull, valid0, rays, tri).Some? ==>
      forall i :: 0 <= i < |rays| ==>
        (IntersectK(cull, valid0, rays, tri).value[i] <==> valid0[i] && AcceptK(cull, rays[i], tri))
  {
    var stages := seq(5, s requires 0 <= s < 5 => StageMaskK(s, cull, rays, tri));
    forall i | 0 <= i < |rays|
      ensures PassesAll(stages, i) <==> AcceptK(cull, rays[i], tri)
    {
      if AcceptK(cull, rays[i], tri) {
        forall s | 0 <= s < |stages| ensures i < |stages[s]| && stages[s][i] {
          assert StageK(s, cull, LaneTerms(rays[i], tri), rays[i]);
        }
      } else {
        var s :| 0 <= s < 5 && !StageK(s, cull, LaneTerms(rays[i], tri), rays[i]);
        assert !stages[s][i];
      }
    }
  }

  /** The five stage tests of a packet lane, spelled out. */
  lemma AcceptKFacts(cull: bool, l: Terms, ray: Ray)
    ensures AcceptKTerms(cull, l, ray) <==>
      && l.u >= 0.0 && l.v >= 0.0 && l.absDen - l.u - l.v >= 0.0
      && l.t >= l.absDen * ray.tnear && l.absDen * ray.tfar >= l.t
      && (if cull then l.den > 0.0 else l.den != 0.0)
  {
    if AcceptKTerms(cull, l, ray) {
      assert StageK(0, cull, l, ray) && StageK(1, cull, l, ray) && StageK(2, cull, l, ray);
      assert StageK(3, cull, l, ray) && StageK(4, cull, l, ray);
    } else {
      var s :| 0 <= s < 5 && !StageK(s, cull, l, ray);
    }
  }

  /** The packet test of the third edge, `W = |den| - U - V >= 0`, is the single-ray test `U + V <= |den|`. */
  lemma EdgeTestsAgree(cull: bool, l: Terms, ray: Ray)
    ensures EdgeOk1(cull, l) <==> StageK(0, cull, l, ray) && StageK(1, cull, l, ray) && StageK(2, cull, l, ray) && StageK(4, cull, l, ray)
  {
  }

  /** The strict single-ray gate implies the inclusive packet gate, lane by lane. */
  lemma StrictImpliesInclusive(cull: bool, ray: Ray, tri: TriEdges)
    requires Accept1(cull, ray, tri)
    ensures AcceptK(cull, ray, tri)
  {
    AcceptKFacts(cull, LaneTerms(ray, tri), ray);
  }

  /** A ray along +z through (0.25, 0.25), accepting distances from 1 to 10. */
  const BoundaryRay := Ray(Vec3(0.25, 0.25, 0.0), Vec3(0.0, 0.0, 1.0), 1.0, 10.0)

  /** The triangle (0,0,1), (1,0,1), (0,1,1) in the plane z = 1, in edge form. */
  const BoundaryTri := TriEdges(Vec3(0.0, 0.0, 1.0), Vec3(-1.0, 0.0, 0.0), Vec3(0.0, 1.0, 0.0), Vec3(0.0, 0.0, -1.0))

  lemma BoundaryTriFromVertices()
    ensures FromVertices(Vec3(0.0, 0.0, 1.0), Vec3(1.0, 0.0, 1.0), Vec3(0.0, 1.0, 1.0)) == BoundaryTri
  {
    BoundaryNormal();
  }

  lemma BoundaryNormal()
    ensures Cross(Vec3(-1.0, 0.0, 0.0), Vec3(0.0, 1.0, 0.0)) == Vec3(0.0, 0.0, -1.0)
  {
  }

  lemma BoundaryCross()
    ensures Cross(Vec3(0.0, 0.0, 1.0), Vec3(-0.25, -0.25, 1.0)) == Vec3(0.25, -0.25, 0.0)
  {
  }

  /**
   * The converse fails: a ray that meets the triangle exactly at `tnear` is
   * a hit for the packet kernel and a miss for the single-ray kernels.
   */
  lemma BoundaryHitDiffers()
    ensures AcceptK(false, BoundaryRay, BoundaryTri)
    ensures !Accept1(false, BoundaryRay, BoundaryTri)
  {
    BoundaryPacketHit();
    BoundarySingleMiss();
  }

  lemma BoundaryPacketHit()
    ensures AcceptK(false, BoundaryRay, BoundaryTri)
  {
    BoundaryTerms();
    AcceptKFacts(false, Terms(-1.0, 1.0, 0.25, 0.25, 1.0), BoundaryRay);
  }

  lemma BoundarySingleMiss()
    ensures !Accept1(false, BoundaryRay, BoundaryTri)
  {
    BoundaryTerms();
    BoundaryDepthFails();
  }

  /** `T = |den| * tnear` exactly, which the single-ray depth test's strict bound rejects. */
  lemma BoundaryDepthFails()
    ensures !DepthOk1(Terms(-1.0, 1.0, 0.25, 0.25, 1.0), BoundaryRay)
  {
    assert BoundaryRay.tnear == 1.0;
  }

  /** The lane quantities of the boundary example: facing away (`den = -1`), `U = V = 0.25`, and `T = |den| * tnear`. */
  lemma BoundaryTerms()
    ensures LaneTerms(BoundaryRay, BoundaryTri) == Terms(-1.0, 1.0, 0.25, 0.25, 1.0)
  {
    var c := Sub(BoundaryTri.v0, BoundaryRay.org);
    assert c == Vec3(-0.25, -0.25, 1.0);
    BoundaryCross();
    BoundaryFacingDot();
    BoundaryDepthDot();
    BoundaryEdgeDotU();
    BoundaryEdgeDotV();
  }

  lemma BoundaryFacingDot()
    ensures Dot(Vec3(0.0, 0.0, -1.0), Vec3(0.0, 0.0, 1.0)) == -1.0
  {
  }

  lemma BoundaryDepthDot()
    ensures Dot(Vec3(0.0, 0.0, -1.0), Vec3(-0.25, -0.25, 1.0)) == -1.0
  {
  }

  lemma BoundaryEdgeDotU()
    ensures Dot(Vec3(0.25, -0.25, 0.0), Vec3(0.0, 1.0, 0.0)) == -0.25
  {
  }

  lemma BoundaryEdgeDotV()
    ensures Dot(Vec3(0.25, -0.25, 0.0), Vec3(-1.0, 0.0, 0.0)) == -0.25
  {
  }

  /** An accepted single-ray lane hits strictly inside (tnear, tfar); a packet lane inside [tnear, tfar]. */
  lemma HitDistanceInRange(cull: bool, l: Terms, ray: Ray)
    requires l.absDen == Abs(l.den)
    ensures Accept1Terms(cull, l, ray) ==> l.absDen > 0.0 && ray.tnear < l.t / l.absDen < ray.tfar
    ensures AcceptKTerms(cull, l, ray) ==> l.absDen > 0.0 && ray.tnear <= l.t / l.absDen <= ray.tfar
  {
    AcceptKFacts(cull, l, ray);
    if l.absDen > 0.0 {
      DivMonotone(l.t, l.absDen, ray.tnear);
      DivMonotone(l.t, l.absDen, ray.tfar);
    }
  }

  /** The normal of the reversed winding is the negated normal. */
  lemma ReversedNormal(v0: Vec3, v1: Vec3, v2: Vec3)
    ensures FromVertices(v1, v0, v2).ng == Scale(-1.0, FromVertices(v0, v1, v2).ng)
  {
  }

  /**
   * Reversing the first two vertices reverses the facing: the normal, and so
   * the denominator, change sign.  Under back-face culling at most one of the
   * two windings of a triangle can be hit by a given ray.
   */
  lemma WindingReversesFacing(v0: Vec3, v1: Vec3, v2: Vec3, ray: Ray)
    ensures LaneTerms(ray, FromVertices(v1, v0, v2)).den == -LaneTerms(ray, FromVertices(v0, v1, v2)).den
    ensures !(Accept1(true, ray, FromVertices(v0, v1, v2)) && Accept1(true, ray, FromVertices(v1, v0, v2)))
    ensures !(AcceptK(true, ray, FromVertices(v0, v1, v2)) && AcceptK(true, ray, FromVertices(v1, v0, v2)))
  {
    var a := FromVertices(v0, v1, v2);
    var b := FromVertices(v1, v0, v2);
    ReversedNormal(v0, v1, v2);
    assert Dot(b.ng, ray.dir) == -Dot(a.ng, ray.dir);
    AcceptKFacts(true, LaneTerms(ray, a), ray);
    AcceptKFacts(true, LaneTerms(ray, b), ray);
  }

  // Hit finalisation (`MoellerTrumborePairsHitK::operator()`, `MoellerTrumborePairsHitM::uv`).

  /** `(rotation >> 0) & 0xff`: which of `{u, w, v}` is reported as u. */
  function RotIndexU(rotation: bv32): bv32 {
    rotation & 0xff
  }

  /** `(rotation >> 16) & 0xff`: which of `{u, w, v}` is reported as v. */
  function RotIndexV(rotation: bv32): bv32 {
    (rotation >> 16) & 0xff
  }

  /** A rotation word laid out as the hit code reads it: u's index in bits 0-7, v's index in bits 16-23. */
  function EncodeRotation(iu: bv8, iv: bv8): bv32 {
    (iu as bv32) | ((iv as bv32) << 16)
  }

  lemma RotationRoundTrip(iu: bv8, iv: bv8)
    ensures RotIndexU(EncodeRotation(iu, iv)) == iu as bv32 && RotIndexV(EncodeRotation(iu, iv)) == iv as bv32
  {
  }

  /** The barycentric triple `uwv = {u, w, v}` of a lane. */
  function Uwv(l: Terms): (r: seq<real>)
    requires l.absDen != 0.0
    ensures |r| == 3 && r[0] + r[1] + r[2] == 1.0
  {
    var uu := l.u / l.absDen;
    var vv := l.v / l.absDen;
    [uu, 1.0 - uu - vv, vv]
  }

  /** The reported `(u, v)`: two entries of the triple, chosen by the rotation flag. */
  function Uv(l: Terms, rotation: bv32): (real, real)
    requires l.absDen != 0.0 && RotIndexU(rotation) < 3 && RotIndexV(rotation) < 3
  {
    (Uwv(l)[RotIndexU(rotation) as int], Uwv(l)[RotIndexV(rotation) as int])
  }

  /** What the epilog reads for a hit lane. */
  datatype Hit = Hit(u: real, v: real, t: real, ng: Vec3)

  function HitK(l: Terms, ng: Vec3, rotation: bv32, flipNg: real): (h: Hit)
    requires l.absDen != 0.0 && RotIndexU(rotation) < 3 && RotIndexV(rotation) < 3
    ensures h.t * l.absDen == l.t
    ensures h.ng == Scale(flipNg, ng)
    ensures (h.u, h.v) == Uv(l, rotation)
  {
    var (u, v) := Uv(l, rotation);
    Hit(u, v, l.t / l.absDen, Scale(flipNg, ng))
  }

  /**
   * For a lane that passed the edge tests, the barycentric triple lies in
   * [0, 1] and sums to 1, so whatever the rotation, the reported `(u, v)` are
   * coordinates in [0, 1]; rotation `0 | 2 << 16` reports the kernel's own
   * `(U, V)` scaled by `1/|den|`.
   */
  lemma HitBarycentric(l: Terms, rotation: bv32)
    requires l.absDen > 0.0 && l.u >= 0.0 && l.v >= 0.0 && l.u + l.v <= l.absDen
    requires RotIndexU(rotation) < 3 && RotIndexV(rotation) < 3
    ensures forall k :: 0 <= k < 3 ==> 0.0 <= Uwv(l)[k] <= 1.0
    ensures 0.0 <= Uv(l, rotation).0 <= 1.0 && 0.0 <= Uv(l, rotation).1 <= 1.0
    ensures rotation == EncodeRotation(0, 2) ==> Uv(l, rotation) == (l.u / l.absDen, l.v / l.absDen)
  {
    TripleInUnitRange(l);
    if rotation == EncodeRotation(0, 2) {
      RotationRoundTrip(0, 2);
    }
  }

  lemma TripleInUnitRange(l: Terms)
    requires l.absDen > 0.0 && l.u >= 0.0 && l.v >= 0.0 && l.u + l.v <= l.absDen
    ensures forall k :: 0 <= k < 3 ==> 0.0 <= Uwv(l)[k] <= 1.0
  {
    var uu := l.u / l.absDen;
    var vv := l.v / l.absDen;
    DivMonotone(l.u, l.absDen, 0.0);
    DivMonotone(l.v, l.absDen, 0.0);
    DivMonotone(l.u + l.v, l.absDen, 1.0);
    DivAdd(l.u, l.v, l.absDen);
  }

  lemma DivAdd(a: real, b: real, d: real)
    requires d != 0.0
    ensures (a + b) / d == a / d + b / d
  {
  }
}

=== FILE: names.dfy ===
/**
 * The string scans the factories use to derive registry keys:
 * `find_first_of` / `strstr` for a character, and `find_last_of`.
 */
module Names {
  import opened Wrappers

  /** The first position of `c` in `s`, or `None` for `npos`. */
  function FirstIndexOf(s: string, c: char): (r: Option<nat>)
    ensures r.None? <==> c !in s
    ensures r.Some? ==> r.value < |s| && s[r.value] == c && c !in s[..r.value]
    decreases |s|
  {
    if |s| == 0 then None
    else if s[0] == c then Some(0)
    else
      match FirstIndexOf(s[1..], c)
      case None => None
      case Some(i) =>
        assert s[..i + 1] == [s[0]] + s[1..][..i];
        Some(i + 1)
  }

  /** The last position of `c` in `s`, or `None` for `npos`. */
  function LastIndexOf(s: string, c: char): (r: Option<nat>)
    ensures r.None? <==> c !in s
    ensures r.Some? ==> r.value < |s| && s[r.value] == c && c !in s[r.value + 1..]
    decreases |s|
  {
    if |s| == 0 then None
    else if s[|s| - 1] == c then Some(|s| - 1)
    else
      var front := s[..|s| - 1];
      assert s == front + [s[|s| - 1]];
      match LastIndexOf(front, c)
      case None => None
      case Some(i) =>
        assert s[i + 1..] == front[i + 1..] + [s[|s| - 1]];
        Some(i)
  }

  /** In `a + [c] + b` with no `c` in `a`, the first `c` is the one after `a`. */
  lemma {:induction false} FirstIndexOfJoin(a: string, c: char, b: string)
    requires c !in a
    ensures FirstIndexOf(a + [c] + b, c) == Some(|a|)
    decreases |a|
  {
    if |a| > 0 {
      assert (a + [c] + b)[1..] == a[1..] + [c] + b;
      FirstIndexOfJoin(a[1..], c, b);
    }
  }

  /**
   * A type string split at its first `c`: the part before it, and the part
   * after it when there is one.
   */
  function SplitAtFirst(s: string, c: char): (r: (string, Option<string>))
    ensures c !in r.0
    ensures r.1.None? <==> c !in s
    ensures r.1.None? ==> r.0 == s
    ensures r.1.Some? ==> |r.0| + 1 + |r.1.value| == |s|
  {
    match FirstIndexOf(s, c)
    case None => (s, None)
    case Some(i) => (s[..i], Some(s[i + 1..]))
  }

  /** Splitting at the first `c` loses nothing, and the key never contains `c`. */
  lemma SplitAtFirstRoundTrip(s: string, c: char)
    ensures var (key, rest) := SplitAtFirst(s, c);
      c !in key &&
      (rest.None? <==> c !in s) &&
      (if rest.Some? then key + [c] + rest.value == s else key == s)
  {
    match FirstIndexOf(s, c)
    case None =>
    case Some(i) =>
      assert s == s[..i] + [c] + s[i + 1..];
  }

  /**
   * `FileName::ext()`: the text after the last dot, or empty when there is
   * none (the `FileName` class itself is not part of this model).
   */
  function FileExt(fileName: string): (e: string)
    ensures '.' !in e
    ensures '.' !in fileName ==> e == ""
    ensures '.' in fileName ==> |e| < |fileName| && fileName[|fileName| - |e| - 1] == '.' && e == fileName[|fileName| - |e|..]
  {
    match LastIndexOf(fileName, '.')
    case None => ""
    case Some(i) => fileName[i + 1..]
  }
}

=== FILE: pair_loops.dfy ===
/**
 * The packet loops of `TrianglePairsMIntersectorKMoellerTrumbore`: a batch
 * holds up to four triangle pairs (quads); each valid quad is tested as two
 * triangles against a packet of rays, stopping at the first invalid slot.
 * The intersect loop records the closest hit per ray lane; the occlusion loop
 * clears lanes as they are hit, leaves early once every lane is cleared, and
 * returns the complement of what is left.
 *
 * The epilogs (intersector_epilog.h) are not part of this model; they are
 * taken as the unfiltered ones: a lane in the final mask records the hit and
 * shrinks its `tfar` to the hit distance (intersect), or is cleared from the
 * active mask (occlusion).
 */
module PairLoops {
  import opened Wrappers
  import opened Geometry
  import opened MoellerPairs

  /** One slot of a batch: the four vertices of a pair, its geometry and the primitive id of its first triangle. */
  datatype Quad = Quad(v0: Vec3, v1: Vec3, v2: Vec3, v3: Vec3, geomID: bv32, primID: nat)

  /** `TrianglePairsMv<4>`: four slots (`None` = invalid) and eight rotation flags, first triangles then second. */
  datatype Batch = Batch(slots: seq<Option<Quad>>, flags: seq<bv32>)

  predicate RotOk(rotation: bv32) {
    RotIndexU(rotation) < 3 && RotIndexV(rotation) < 3
  }

  predicate BatchOk(b: Batch) {
    |b.slots| == 4 && |b.flags| == 8 && forall f :: 0 <= f < 8 ==> RotOk(b.flags[f])
  }

  /** The number of slots the loops visit: everything before the first invalid slot. */
  function ValidPrefix(slots: seq<Option<Quad>>): (n: nat)
    ensures n <= |slots|
    ensures forall j :: 0 <= j < n ==> slots[j].Some?
    ensures n < |slots| ==> slots[n].None?
  {
    if |slots| == 0 || slots[0].None? then 0 else 1 + ValidPrefix(slots[1..])
  }

  /** The triangles the intersect loop tests for a quad: `(p1, p0, p2)`, then `(p3, p0, p2)`. */
  function IntersectTri(q: Quad, k: nat): TriEdges {
    if k == 0 then FromVertices(q.v1, q.v0, q.v2) else FromVertices(q.v3, q.v0, q.v2)
  }

  /** One triangle test of the intersect loop: triangle, rotation flag, normal sign and ids for the epilog. */
  datatype Tested = Tested(tri: TriEdges, rotation: bv32, flipNg: real, geomID: bv32, primID: nat)

  /** Triangle `k` of slot `j`: flag `flags[j]` or `flags[4 + j]`, normal sign -1 or +1, primitive id `primID + k`. */
  function TestOf(b: Batch, j: nat, k: nat): (x: Tested)
    requires BatchOk(b) && j < 4 && b.slots[j].Some? && k < 2
    ensures RotOk(x.rotation)
  {
    var q := b.slots[j].value;
    Tested(IntersectTri(q, k), b.flags[j + 4 * k], if k == 0 then -1.0 else 1.0, q.geomID, q.primID + k)
  }

  predicate AllRotOk(xs: seq<Tested>) {
    forall k :: 0 <= k < |xs| ==> RotOk(xs[k].rotation)
  }

  /** The tests of the first `j` slots, in loop order. */
  function TestsUpTo(b: Batch, j: nat): (xs: seq<Tested>)
    requires BatchOk(b) && j <= ValidPrefix(b.slots)
    ensures |xs| == 2 * j && AllRotOk(xs)
  {
    if j == 0 then [] else TestsUpTo(b, j - 1) + [TestOf(b, j - 1, 0), TestOf(b, j - 1, 1)]
  }

  function IntersectList(b: Batch): seq<Tested>
    requires BatchOk(b)
  {
    TestsUpTo(b, ValidPrefix(b.slots))
  }

  // One ray lane.

  /** What the epilog writes for a hit: barycentrics, distance, normal and ids. */
  datatype HitRec = HitRec(u: real, v: real, t: real, ng: Vec3, geomID: bv32, primID: nat)

  /** A ray lane: the ray (whose `tfar` the epilog shrinks) and the hit recorded so far. */
  datatype Lane = Lane(ray: Ray, hit: Option<HitRec>)

  /** The epilog on an accepted lane: record the finalised hit and shrink `tfar` to its distance. */
  function Record(cull: bool, lane: Lane, x: Tested): (r: Lane)
    requires AcceptK(cull, lane.ray, x.tri) && RotOk(x.rotation)
    ensures r.hit.Some? && r.ray == lane.ray.(tfar := r.hit.value.t)
    ensures r.hit.value.t * LaneTerms(lane.ray, x.tri).absDen == LaneTerms(lane.ray, x.tri).t
    ensures lane.ray.tnear <= r.hit.value.t <= lane.ray.tfar
    ensures r.hit.value.geomID == x.geomID && r.hit.value.primID == x.primID
    ensures r.hit.value.ng == Scale(x.flipNg, x.tri.ng)
  {
    var l := LaneTerms(lane.ray, x.tri);
    HitDistanceInRange(cull, l, lane.ray);
    var h := HitK(l, x.tri.ng, x.rotation, x.flipNg);
    Lane(lane.ray.(tfar := h.t), Some(HitRec(h.u, h.v, h.t, h.ng, x.geomID, x.primID)))
  }

  /** One triangle test seen from one lane: an active lane that accepts the triangle records it. */
  function LaneStep(cull: bool, active: bool, lane: Lane, x: Tested): Lane
    requires RotOk(x.rotation)
  {
    if active && AcceptK(cull, lane.ray, x.tri) then Record(cull, lane, x) else lane
  }

  /** A sequence of triangle tests seen from one lane. */
  function LaneRun(cull: bool, active: bool, lane: Lane, xs: seq<Tested>): Lane
    requires AllRotOk(xs)
  {
    if |xs| == 0 then lane
    else LaneStep(cull, active, LaneRun(cull, active, lane, xs[..|xs| - 1]), xs[|xs| - 1])
  }

  function RaysOf(lanes: seq<Lane>): (rays: seq<Ray>)
    ensures |rays| == |lanes| && forall i :: 0 <= i < |lanes| ==> rays[i] == lanes[i].ray
  {
    seq(|lanes|, i requires 0 <= i < |lanes| => lanes[i].ray)
  }

  /** One `pre.intersectK(valid_i, ray, ...)` call with its epilog, on the whole packet. */
  function PacketStep(cull: bool, valid: seq<bool>, lanes: seq<Lane>, x: Tested): (r: seq<Lane>)
    requires |valid| == |lanes| && RotOk(x.rotation)
    ensures |r| == |lanes|
    ensures forall i :: 0 <= i < |r| ==> r[i] == LaneStep(cull, valid[i], lanes[i], x)
  {
    var rays := RaysOf(lanes);
    IntersectKLanes(cull, valid, rays, x.tri);
    match IntersectK(cull, valid, rays, x.tri)
    case None => lanes
    case Some(mask) =>
      seq(|lanes|, i requires 0 <= i < |lanes| => if mask[i] then Record(cull, lanes[i], x) else lanes[i])
  }

  lemma LaneRunTwo(cull: bool, active: bool, lane: Lane, xs: seq<Tested>, a: Tested, c: Tested)
    requires AllRotOk(xs) && RotOk(a.rotation) && RotOk(c.rotation)
    ensures AllRotOk(xs + [a, c])
    ensures LaneRun(cull, active, lane, xs + [a, c]) ==
      LaneStep(cull, active, LaneStep(cull, active, LaneRun(cull, active, lane, xs), a), c)
  {
    var ys := xs + [a, c];
    assert ys[..|ys| - 1] == xs + [a];
    assert (xs + [a])[..|xs + [a]| - 1] == xs;
  }

  /**
   * `intersect(valid_i, pre, ray, tri, scene)`: every lane ends as the
   * lane-wise run of the tests of the valid slots, in order, with every test
   * using the packet's original activity mask.
   */
  method IntersectBatch(cull: bool, valid: seq<bool>, lanes: seq<Lane>, b: Batch) returns (out: seq<Lane>)
    requires |valid| == |lanes| && BatchOk(b)
    ensures |out| == |lanes|
    ensures forall i :: 0 <= i < |out| ==> out[i] == LaneRun(cull, valid[i], lanes[i], IntersectList(b))
  {
    out := lanes;
    var j := 0;
    while j < |b.slots|
      invariant 0 <= j <= ValidPrefix(b.slots)
      invariant |out| == |lanes|
      invariant forall i :: 0 <= i < |out| ==> out[i] == LaneRun(cull, valid[i], lanes[i], TestsUpTo(b, j))
    {
      if b.slots[j].None? {
        break;
      }
      out := IntersectSlot(cull, valid, lanes, b, j, out);
      j := j + 1;
    }
  }

  /** The intersection loop's work on slot `j`: both of its triangles, tested against the whole packet. */
  method IntersectSlot(cull: bool, valid: seq<bool>, lanes: seq<Lane>, b: Batch, j: nat, cur: seq<Lane>)
    returns (out: seq<Lane>)
    requires |valid| == |lanes| == |cur| && BatchOk(b) && j < ValidPrefix(b.slots)
    requires forall i :: 0 <= i < |cur| ==> cur[i] == LaneRun(cull, valid[i], lanes[i], TestsUpTo(b, j))
    ensures |out| == |lanes|
    ensures forall i :: 0 <= i < |out| ==> out[i] == LaneRun(cull, valid[i], lanes[i], TestsUpTo(b, j + 1))
  {
    var x0, x1 := TestOf(b, j, 0), TestOf(b, j, 1);
    out := PacketStep(cull, valid, cur, x0);
    out := PacketStep(cull, valid, out, x1);
    forall i | 0 <= i < |out|
      ensures out[i] == LaneRun(cull, valid[i], lanes[i], TestsUpTo(b, j + 1))
    {
      LaneRunTwo(cull, valid[i], lanes[i], TestsUpTo(b, j), x0, x1);
    }
  }

  // What the lane-wise run computes.

  /** Some test in `xs` accepts the ray. */
  predicate AnyAccepted(cull: bool, ray: Ray, xs: seq<Tested>) {
    exists k :: 0 <= k < |xs| && AcceptK(cull, ray, xs[k].tri)
  }

  /** The recorded hit is the finalised hit of test `x` for the ray. */
  predicate HitFrom(h: HitRec, x: Tested, cull: bool, ray: Ray) {
    && AcceptK(cull, ray, x.tri)
    && h.geomID == x.geomID && h.primID == x.primID && h.ng == Scale(x.flipNg, x.tri.ng)
    && h.t * LaneTerms(ray, x.tri).absDen == LaneTerms(ray, x.tri).t
  }

  lemma MulMono(a: real, x: real, y: real)
    requires a >= 0.0 && x <= y
    ensures a * x <= a * y
  {
  }

  /** The lane terms depend on the ray's origin and direction only. */
  lemma TermsIgnoreTfar(ray: Ray, f: real, tri: TriEdges)
    ensures LaneTerms(ray.(tfar := f), tri) == LaneTerms(ray, tri)
  {
    var r2 := ray.(tfar := f);
    assert r2.org == ray.org && r2.dir == ray.dir;
  }

  lemma ShrunkTerms(cull: bool, l: Terms, ray: Ray, f: real)
    requires f <= ray.tfar && l.absDen >= 0.0
    ensures AcceptKTerms(cull, l, ray.(tfar := f)) ==> AcceptKTerms(cull, l, ray)
    ensures AcceptKTerms(cull, l, ray) && !AcceptKTerms(cull, l, ray.(tfar := f)) ==> f * l.absDen < l.t
  {
    AcceptKFacts(cull, l, ray);
    AcceptKFacts(cull, l, ray.(tfar := f));
    MulMono(l.absDen, f, ray.tfar);
  }

  /**
   * Shrinking `tfar` only removes hits: a lane the shrunk ray accepts is
   * accepted by the original ray, and a lane only the original accepts lies
   * beyond the shrunk `tfar`.
   */
  lemma ShrunkRay(cull: bool, ray: Ray, f: real, tri: TriEdges)
    requires f <= ray.tfar
    ensures AcceptK(cull, ray.(tfar := f), tri) ==> AcceptK(cull, ray, tri)
    ensures AcceptK(cull, ray, tri) && !AcceptK(cull, ray.(tfar := f), tri) ==>
      f * LaneTerms(ray, tri).absDen < LaneTerms(ray, tri).t
  {
    TermsIgnoreTfar(ray, f, tri);
    ShrunkTerms(cull, LaneTerms(ray, tri), ray, f);
  }

  /** No hit at scaled distance `l.t` lies nearer than `f`. */
  predicate NoNearer(f: real, l: Terms) {
    f * l.absDen <= l.t
  }

  lemma NoNearerShrinks(l: Terms, f: real, g: real)
    requires l.absDen >= 0.0 && g <= f && NoNearer(f, l)
    ensures NoNearer(g, l)
  {
    MulMono(l.absDen, g, f);
  }

  /**
   * One step of the lane-wise run, seen against the lane's original ray: the
   * step records `x` exactly when the lane is active and the current ray
   * accepts it, and afterwards `x` is no nearer than `tfar` if the original
   * ray accepts it.
   */
  lemma StepFacts(cull: bool, active: bool, lane: Lane, mid: Lane, x: Tested)
    requires RotOk(x.rotation)
    requires mid.ray == lane.ray.(tfar := mid.ray.tfar) && mid.ray.tfar <= lane.ray.tfar
    ensures var out := LaneStep(cull, active, mid, x);
      && out.ray == lane.ray.(tfar := out.ray.tfar) && out.ray.tfar <= mid.ray.tfar
      && (active && AcceptK(cull, mid.ray, x.tri) ==>
            out.hit.Some? && out.hit.value.t == out.ray.tfar && lane.ray.tnear <= out.ray.tfar &&
            HitFrom(out.hit.value, x, cull, lane.ray))
      && (!(active && AcceptK(cull, mid.ray, x.tri)) ==> out == mid)
      && (active && AcceptK(cull, lane.ray, x.tri) ==> NoNearer(out.ray.tfar, LaneTerms(lane.ray, x.tri)))
    ensures AcceptK(cull, mid.ray, x.tri) ==> AcceptK(cull, lane.ray, x.tri)
  {
    ShrunkRay(cull, lane.ray, mid.ray.tfar, x.tri);
    if active && AcceptK(cull, mid.ray, x.tri) {
      RecordFacts(cull, lane, mid, x);
    } else if active && AcceptK(cull, lane.ray, x.tri) {
      TermsIgnoreTfar(lane.ray, mid.ray.tfar, x.tri);
    }
  }

  /** A recorded step keeps the original ray but for `tfar`, and its hit is `x`'s, at distance `tfar`. */
  lemma RecordFacts(cull: bool, lane: Lane, mid: Lane, x: Tested)
    requires RotOk(x.rotation) && AcceptK(cull, mid.ray, x.tri) && AcceptK(cull, lane.ray, x.tri)
    requires mid.ray == lane.ray.(tfar := mid.ray.tfar) && mid.ray.tfar <= lane.ray.tfar
    ensures var out := Record(cull, mid, x);
      && out.ray == lane.ray.(tfar := out.ray.tfar) && out.ray.tfar <= mid.ray.tfar
      && out.hit.value.t == out.ray.tfar && lane.ray.tnear <= out.ray.tfar
      && HitFrom(out.hit.value, x, cull, lane.ray)
      && NoNearer(out.ray.tfar, LaneTerms(lane.ray, x.tri))
  {
    TermsIgnoreTfar(lane.ray, mid.ray.tfar, x.tri);
  }

  lemma AnyAcceptedSnoc(cull: bool, ray: Ray, xs: seq<Tested>)
    requires |xs| > 0
    ensures AnyAccepted(cull, ray, xs) <==>
      AnyAccepted(cull, ray, xs[..|xs| - 1]) || AcceptK(cull, ray, xs[|xs| - 1].tri)
  {
    var front := xs[..|xs| - 1];
    assert forall k :: 0 <= k < |front| ==> front[k] == xs[k];
  }

  /**
   * The closest-hit property of the intersect loop, lane by lane: only
   * `tfar` and the hit change, `tfar` never grows; a lane that is inactive or
   * accepts none of the tests is untouched; otherwise it ends with a hit from
   * one of the tests it accepts, at distance `tfar`, and no accepted test is
   * nearer.
   */
  lemma {:induction false} LaneRunClosest(cull: bool, active: bool, lane: Lane, xs: seq<Tested>)
    requires AllRotOk(xs)
    ensures var out := LaneRun(cull, active, lane, xs);
      out.ray == lane.ray.(tfar := out.ray.tfar) && out.ray.tfar <= lane.ray.tfar
    ensures !(active && AnyAccepted(cull, lane.ray, xs)) ==> LaneRun(cull, active, lane, xs) == lane
    ensures active && AnyAccepted(cull, lane.ray, xs) ==>
      var out := LaneRun(cull, active, lane, xs);
      && out.hit.Some? && out.hit.value.t == out.ray.tfar && lane.ray.tnear <= out.ray.tfar
      && (exists k :: 0 <= k < |xs| && HitFrom(out.hit.value, xs[k], cull, lane.ray))
    ensures active ==> forall k :: 0 <= k < |xs| && AcceptK(cull, lane.ray, xs[k].tri) ==>
      NoNearer(LaneRun(cull, active, lane, xs).ray.tfar, LaneTerms(lane.ray, xs[k].tri))
  {
    if |xs| == 0 {
      return;
    }
    var n := |xs| - 1;
    var front := xs[..n];
    var x := xs[n];
    assert forall k :: 0 <= k < n ==> front[k] == xs[k];
    LaneRunClosest(cull, active, lane, front);
    var mid := LaneRun(cull, active, lane, front);
    var out := LaneRun(cull, active, lane, xs);
    assert out == LaneStep(cull, active, mid, x);
    StepFacts(cull, active, lane, mid, x);
    AnyAcceptedSnoc(cull, lane.ray, xs);
    if active && AcceptK(cull, mid.ray, x.tri) {
      assert HitFrom(out.hit.value, xs[n], cull, lane.ray);
    }
    if active {
      forall k | 0 <= k < |xs| && AcceptK(cull, lane.ray, xs[k].tri)
        ensures NoNearer(out.ray.tfar, LaneTerms(lane.ray, xs[k].tri))
      {
        if k < n {
          NoNearerShrinks(LaneTerms(lane.ray, xs[k].tri), mid.ray.tfar, out.ray.tfar);
        }
      }
    }
  }

  // The occlusion loop.

  /** Which triangles the occlusion loop tests for a quad. */
  datatype Winding =
    | OccludedAsWritten   // `(p0, p1, p2)` and `(p0, p2, p3)`
    | SameAsIntersect     // `(p1, p0, p2)` and `(p3, p0, p2)`, as the intersect loop and the single-ray kernels

  function OccTri(w: Winding, q: Quad, k: nat): TriEdges {
    match w
    case OccludedAsWritten => if k == 0 then FromVertices(q.v0, q.v1, q.v2) else FromVertices(q.v0, q.v2, q.v3)
    case SameAsIntersect => IntersectTri(q, k)
  }

  function OccTrisUpTo(w: Winding, b: Batch, j: nat): (ts: seq<TriEdges>)
    requires BatchOk(b) && j <= ValidPrefix(b.slots)
    ensures |ts| == 2 * j
  {
    if j == 0 then []
    else OccTrisUpTo(w, b, j - 1) + [OccTri(w, b.slots[j - 1].value, 0), OccTri(w, b.slots[j - 1].value, 1)]
  }

  function OccTris(w: Winding, b: Batch): seq<TriEdges>
    requires BatchOk(b)
  {
    OccTrisUpTo(w, b, ValidPrefix(b.slots))
  }

  predicate AnyOccluder(cull: bool, ray: Ray, ts: seq<TriEdges>) {
    exists k :: 0 <= k < |ts| && AcceptK(cull, ray, ts[k])
  }

  /** One `pre.intersectK(valid0, ...)` call with the occlusion epilog: hit lanes leave `valid0`. */
  function OccStep(cull: bool, valid0: seq<bool>, rays: seq<Ray>, tri: TriEdges): (r: seq<bool>)
    requires |valid0| == |rays|
    ensures |r| == |rays|
    ensures forall i :: 0 <= i < |r| ==> (r[i] <==> valid0[i] && !AcceptK(cull, rays[i], tri))
  {
    IntersectKLanes(cull, valid0, rays, tri);
    match IntersectK(cull, valid0, rays, tri)
    case None => valid0
    case Some(mask) => seq(|rays|, i requires 0 <= i < |rays| => valid0[i] && !mask[i])
  }

  lemma OccludersPrefix(cull: bool, ray: Ray, ts: seq<TriEdges>, n: nat)
    requires n <= |ts| && AnyOccluder(cull, ray, ts[..n])
    ensures AnyOccluder(cull, ray, ts)
  {
    var k :| 0 <= k < n && AcceptK(cull, ray, ts[..n][k]);
  }

  lemma OccludersSnoc(cull: bool, ray: Ray, ts: seq<TriEdges>, t: TriEdges)
    ensures AnyOccluder(cull, ray, ts + [t]) <==> AnyOccluder(cull, ray, ts) || AcceptK(cull, ray, t)
  {
    if AnyOccluder(cull, ray, ts) {
      var k :| 0 <= k < |ts| && AcceptK(cull, ray, ts[k]);
      assert (ts + [t])[k] == ts[k];
    }
    if AcceptK(cull, ray, t) {
      assert (ts + [t])[|ts|] == t;
    }
    if AnyOccluder(cull, ray, ts + [t]) {
      var k :| 0 <= k < |ts| + 1 && AcceptK(cull, ray, (ts + [t])[k]);
      if k < |ts| { assert (ts + [t])[k] == ts[k]; }
    }
  }

  lemma OccTrisPrefix(w: Winding, b: Batch, j: nat)
    requires BatchOk(b) && j <= ValidPrefix(b.slots)
    ensures OccTrisUpTo(w, b, j) == OccTris(w, b)[..2 * j]
    decreases ValidPrefix(b.slots) - j
  {
    if j < ValidPrefix(b.slots) {
      OccTrisPrefix(w, b, j + 1);
      assert OccTrisUpTo(w, b, j + 1)[..2 * j] == OccTrisUpTo(w, b, j);
    }
  }

  /** The lane-wise answer of the occlusion loop: inactive, or some tested triangle occludes the ray. */
  function OccludedSpec(w: Winding, cull: bool, valid: seq<bool>, rays: seq<Ray>, b: Batch): (r: seq<bool>)
    requires |valid| == |rays| && BatchOk(b)
    ensures |r| == |rays|
  {
    seq(|rays|, i requires 0 <= i < |rays| => !valid[i] || AnyOccluder(cull, rays[i], OccTris(w, b)))
  }

  /** The occlusion loop's lane invariant: a lane is still active exactly when it was valid and nothing tested so far occludes it. */
  predicate StillActive(cull: bool, valid: seq<bool>, valid0: seq<bool>, rays: seq<Ray>, done: seq<TriEdges>) {
    |valid| == |valid0| == |rays| &&
    forall i :: 0 <= i < |rays| ==> (valid0[i] <==> valid[i] && !AnyOccluder(cull, rays[i], done))
  }

  /** The triangles of slot `j` extend the tested prefix by one and by two. */
  lemma SlotExtendsPrefix(w: Winding, b: Batch, j: nat)
    requires BatchOk(b) && j < ValidPrefix(b.slots)
    ensures |OccTris(w, b)| >= 2 * j + 2
    ensures OccTrisUpTo(w, b, j) + [OccTri(w, b.slots[j].value, 0)] == OccTris(w, b)[..2 * j + 1]
    ensures OccTrisUpTo(w, b, j + 1) == OccTrisUpTo(w, b, j) + [OccTri(w, b.slots[j].value, 0)] + [OccTri(w, b.slots[j].value, 1)]
    ensures OccTrisUpTo(w, b, j + 1) == OccTris(w, b)[..2 * j + 2]
  {
    OccTrisPrefix(w, b, j + 1);
    var q := b.slots[j].value;
    assert OccTrisUpTo(w, b, j + 1) == OccTrisUpTo(w, b, j) + [OccTri(w, q, 0), OccTri(w, q, 1)];
    assert OccTris(w, b)[..2 * j + 1] == OccTrisUpTo(w, b, j + 1)[..2 * j + 1];
  }

  /** When the loop ends, the lanes still active are those no tested triangle occludes. */
  lemma OcclusionLoopExit(w: Winding, cull: bool, valid: seq<bool>, valid0: seq<bool>, rays: seq<Ray>, b: Batch,
                          done: seq<TriEdges>, stop: bool)
    requires BatchOk(b) && StillActive(cull, valid, valid0, rays, done)
    requires |done| <= |OccTris(w, b)| && done == OccTris(w, b)[..|done|]
    requires stop ==> !Any(valid0)
    requires !stop ==> done == OccTris(w, b)
    ensures forall i :: 0 <= i < |rays| ==> (!valid0[i] <==> !valid[i] || AnyOccluder(cull, rays[i], OccTris(w, b)))
  {
    forall i | 0 <= i < |rays|
      ensures !valid0[i] <==> !valid[i] || AnyOccluder(cull, rays[i], OccTris(w, b))
    {
      if AnyOccluder(cull, rays[i], done) {
        OccludersPrefix(cull, rays[i], OccTris(w, b), |done|);
      }
      if stop {
        assert !valid0[i];
      }
    }
  }

  /**
   * `occluded(valid_i, pre, ray, tri, scene)`: with the early exit once every
   * lane is cleared, the returned complement marks exactly the lanes that
   * were inactive or are occluded by one of the tested triangles.
   */
  method OccludedBatch(w: Winding, cull: bool, valid: seq<bool>, rays: seq<Ray>, b: Batch) returns (occluded: seq<bool>)
    requires |valid| == |rays| && BatchOk(b)
    ensures |occluded| == |rays|
    ensures forall i :: 0 <= i < |rays| ==> (occluded[i] <==> !valid[i] || AnyOccluder(cull, rays[i], OccTris(w, b)))
  {
    var valid0 := OccLoop(w, cull, valid, rays, b);
    occluded := seq(|valid0|, i requires 0 <= i < |valid0| => !valid0[i]);
  }

  /** The slot loop of `occluded`: a lane stays active exactly when it was valid and no tested triangle occludes it. */
  method OccLoop(w: Winding, cull: bool, valid: seq<bool>, rays: seq<Ray>, b: Batch) returns (valid0: seq<bool>)
    requires |valid| == |rays| && BatchOk(b)
    ensures |valid0| == |rays|
    ensures forall i :: 0 <= i < |rays| ==> (!valid0[i] <==> !valid[i] || AnyOccluder(cull, rays[i], OccTris(w, b)))
  {
    valid0 := valid;
    var j := 0;
    var stop := false;
    ghost var done: seq<TriEdges> := [];
    while j < |b.slots| && !stop
      decreases |b.slots| - j, !stop
      invariant 0 <= j <= ValidPrefix(b.slots)
      invariant StillActive(cull, valid, valid0, rays, done)
      invariant |done| <= |OccTris(w, b)| && done == OccTris(w, b)[..|done|]
      invariant !stop ==> done == OccTrisUpTo(w, b, j)
      invariant stop ==> !Any(valid0)
    {
      if b.slots[j].None? {
        break;
      }
      valid0, done, stop := OccSlot(w, cull, valid, valid0, rays, b, j, done);
      if !stop {
        j := j + 1;
      }
    }
    OcclusionLoopExit(w, cull, valid, valid0, rays, b, done, stop);
  }

  /** The occlusion loop's work on slot `j`: its two triangles in turn, stopping as soon as no lane is left. */
  method OccSlot(w: Winding, cull: bool, valid: seq<bool>, valid0: seq<bool>, rays: seq<Ray>, b: Batch, j: nat,
                 ghost done: seq<TriEdges>)
    returns (valid1: seq<bool>, ghost done1: seq<TriEdges>, stop: bool)
    requires BatchOk(b) && j < ValidPrefix(b.slots)
    requires StillActive(cull, valid, valid0, rays, done) && done == OccTrisUpTo(w, b, j)
    ensures StillActive(cull, valid, valid1, rays, done1)
    ensures |done1| <= |OccTris(w, b)| && done1 == OccTris(w, b)[..|done1|]
    ensures !stop ==> done1 == OccTrisUpTo(w, b, j + 1)
    ensures stop ==> !Any(valid1)
  {
    var q := b.slots[j].value;
    SlotExtendsPrefix(w, b, j);
    OccStepLanes(cull, valid, valid0, rays, done, OccTri(w, q, 0));
    valid1 := OccStep(cull, valid0, rays, OccTri(w, q, 0));
    done1 := done + [OccTri(w, q, 0)];
    stop := !Any(valid1);
    if !stop {
      OccStepLanes(cull, valid, valid1, rays, done1, OccTri(w, q, 1));
      valid1 := OccStep(cull, valid1, rays, OccTri(w, q, 1));
      done1 := done1 + [OccTri(w, q, 1)];
      stop := !Any(valid1);
    }
  }

  /** One occlusion step keeps the loop's lane invariant with one more tested triangle. */
  lemma OccStepLanes(cull: bool, valid: seq<bool>, valid0: seq<bool>, rays: seq<Ray>, done: seq<TriEdges>, t: TriEdges)
    requires StillActive(cull, valid, valid0, rays, done)
    ensures StillActive(cull, valid, OccStep(cull, valid0, rays, t), rays, done + [t])
  {
    forall i | 0 <= i < |rays|
      ensures OccStep(cull, valid0, rays, t)[i] <==> valid[i] && !AnyOccluder(cull, rays[i], done + [t])
    {
      OccludersSnoc(cull, rays[i], done, t);
    }
  }

  // Occlusion against intersection.

  lemma OccTrisMatchTests(b: Batch, j: nat)
    requires BatchOk(b) && j <= ValidPrefix(b.slots)
    ensures forall k :: 0 <= k < 2 * j ==> OccTrisUpTo(SameAsIntersect, b, j)[k] == TestsUpTo(b, j)[k].tri
  {
    if j > 0 {
      OccTrisMatchTests(b, j - 1);
    }
  }

  /**
   * With the intersect loop's winding, a lane that starts active and without
   * a hit is reported occluded exactly when the intersect loop finds a hit
   * for it.
   */
  lemma OcclusionAgreesWithIntersection(cull: bool, valid: seq<bool>, lanes: seq<Lane>, b: Batch, i: nat)
    requires |valid| == |lanes| && BatchOk(b) && i < |lanes| && valid[i] && lanes[i].hit.None?
    ensures OccludedSpec(SameAsIntersect, cull, valid, RaysOf(lanes), b)[i] <==>
      LaneRun(cull, true, lanes[i], IntersectList(b)).hit.Some?
  {
    var xs := IntersectList(b);
    var ts := OccTris(SameAsIntersect, b);
    OccTrisMatchTests(b, ValidPrefix(b.slots));
    LaneRunClosest(cull, true, lanes[i], xs);
    if AnyOccluder(cull, lanes[i].ray, ts) {
      var k :| 0 <= k < |ts| && AcceptK(cull, lanes[i].ray, ts[k]);
      assert AcceptK(cull, lanes[i].ray, xs[k].tri);
    }
    if AnyAccepted(cull, lanes[i].ray, xs) {
      var k :| 0 <= k < |xs| && AcceptK(cull, lanes[i].ray, xs[k].tri);
      assert AcceptK(cull, lanes[i].ray, ts[k]);
    }
  }

  /**
   * As written, under back-face culling, the occlusion loop can never be hit
   * by the first triangle of a slot wherever the intersect loop is: the two
   * loops test that triangle with opposite windings.
   */
  lemma FirstTriangleOppositeFacing(q: Quad, ray: Ray)
    ensures !(AcceptK(true, ray, IntersectTri(q, 0)) && AcceptK(true, ray, OccTri(OccludedAsWritten, q, 0)))
  {
    WindingReversesFacing(q.v0, q.v1, q.v2, ray);
  }

  // A concrete batch on which the two loops disagree under back-face culling.

  /** One quad: (0,0,1), (1,0,1), (0,1,1), with a degenerate second triangle (`p3 = p0`). */
  const WitnessQuad := Quad(Vec3(0.0, 0.0, 1.0), Vec3(1.0, 0.0, 1.0), Vec3(0.0, 1.0, 1.0), Vec3(0.0, 0.0, 1.0), 0, 0)

  /** The rotation flag `EncodeRotation(0, 2)`: `u` and `v` read from lanes 0 and 2. */
  const WitnessRotation: bv32 := 0x2_0000

  const WitnessBatch := Batch([Some(WitnessQuad), None, None, None], [WitnessRotation, WitnessRotation, WitnessRotation, WitnessRotation,
                                  WitnessRotation, WitnessRotation, WitnessRotation, WitnessRotation])

  /** A ray along +z through (0.25, 0.25), accepting distances 0 to 10, without a hit yet. */
  const WitnessLane := Lane(Ray(Vec3(0.25, 0.25, 0.0), Vec3(0.0, 0.0, 1.0), 0.0, 10.0), None)

  lemma WitnessBatchOk()
    ensures BatchOk(WitnessBatch) && ValidPrefix(WitnessBatch.slots) == 1
  {
    assert RotOk(WitnessRotation);
    assert WitnessBatch.slots[1..] == [None, None, None];
  }

  lemma WitnessNormal()
    ensures Cross(Vec3(1.0, 0.0, 0.0), Vec3(-1.0, 1.0, 0.0)) == Vec3(0.0, 0.0, 1.0)
  {
  }

  lemma WitnessCross()
    ensures Cross(Vec3(0.0, 0.0, 1.0), Vec3(0.75, -0.25, 1.0)) == Vec3(0.25, 0.75, 0.0)
  {
  }

  /** The intersect loop's first triangle of the witness quad, in edge form. */
  const WitnessFront := TriEdges(Vec3(1.0, 0.0, 1.0), Vec3(1.0, 0.0, 0.0), Vec3(-1.0, 1.0, 0.0), Vec3(0.0, 0.0, 1.0))

  lemma WitnessFrontTri()
    ensures IntersectTri(WitnessQuad, 0) == WitnessFront
  {
    WitnessQuadFront();
    WitnessFromVertices();
  }

  lemma WitnessQuadFront()
    ensures IntersectTri(WitnessQuad, 0) == FromVertices(Vec3(1.0, 0.0, 1.0), Vec3(0.0, 0.0, 1.0), Vec3(0.0, 1.0, 1.0))
  {
  }

  lemma WitnessFromVertices()
    ensures FromVertices(Vec3(1.0, 0.0, 1.0), Vec3(0.0, 0.0, 1.0), Vec3(0.0, 1.0, 1.0)) == WitnessFront
  {
    WitnessNormal();
  }

  lemma WitnessDepthDot()
    ensures Dot(Vec3(0.0, 0.0, 1.0), Vec3(0.75, -0.25, 1.0)) == 1.0
  {
  }

  lemma WitnessEdgeDotU()
    ensures Dot(Vec3(0.25, 0.75, 0.0), Vec3(-1.0, 1.0, 0.0)) == 0.5
  {
    assert 0.25 * -1.0 == -0.25;
  }

  lemma WitnessEdgeDotV()
    ensures Dot(Vec3(0.25, 0.75, 0.0), Vec3(1.0, 0.0, 0.0)) == 0.25
  {
  }

  lemma WitnessFacingDot()
    ensures Dot(Vec3(0.0, 0.0, 1.0), Vec3(0.0, 0.0, 1.0)) == 1.0
  {
  }

  lemma WitnessFrontTerms()
    ensures LaneTerms(WitnessLane.ray, WitnessFront) == Terms(1.0, 1.0, 0.5, 0.25, 1.0)
  {
    var c := Sub(WitnessFront.v0, WitnessLane.ray.org);
    assert c == Vec3(0.75, -0.25, 1.0);
    WitnessCross();
    var r := Cross(WitnessLane.ray.dir, c);
    WitnessDepthDot();
    WitnessEdgeDotU();
    WitnessEdgeDotV();
    WitnessFacingDot();
  }

  /** A triangle with a zero normal faces no ray, so no ray accepts it. */
  lemma ZeroNormalRejected(cull: bool, ray: Ray, t: TriEdges)
    requires t.ng == Vec3(0.0, 0.0, 0.0)
    ensures !AcceptK(cull, ray, t)
  {
    var l := LaneTerms(ray, t);
    assert !StageK(4, cull, l, ray);
  }

  lemma CrossZero(a: Vec3)
    ensures Cross(a, Vec3(0.0, 0.0, 0.0)) == Vec3(0.0, 0.0, 0.0)
  {
  }

  /** A vertex repeated as the pair's last vertex gives the occlusion loop a zero-normal second triangle. */
  lemma RepeatedVertexDegenerate(q: Quad)
    requires q.v3 == q.v0
    ensures OccTri(OccludedAsWritten, q, 1).ng == Vec3(0.0, 0.0, 0.0)
  {
    var e1 := Sub(q.v0, q.v2);
    assert Sub(q.v3, q.v0) == Vec3(0.0, 0.0, 0.0);
    CrossZero(e1);
  }

  /**
   * A batch whose only valid slot repeats its first vertex as its last: a
   * lane that the intersect loop's first triangle accepts under culling gets
   * a hit, and the occlusion loop as written reports it unoccluded.
   */
  lemma OcclusionMissesFront(b: Batch, lane: Lane)
    requires BatchOk(b) && ValidPrefix(b.slots) == 1 && b.slots[0].value.v3 == b.slots[0].value.v0
    requires AcceptK(true, lane.ray, IntersectTri(b.slots[0].value, 0))
    ensures LaneRun(true, true, lane, IntersectList(b)).hit.Some?
    ensures !OccludedSpec(OccludedAsWritten, true, [true], [lane.ray], b)[0]
  {
    var q := b.slots[0].value;
    var xs := IntersectList(b);
    assert xs[0] == TestOf(b, 0, 0);
    LaneRunClosest(true, true, lane, xs);
    var ts := OccTris(OccludedAsWritten, b);
    assert ts == [OccTri(OccludedAsWritten, q, 0), OccTri(OccludedAsWritten, q, 1)];
    FirstTriangleOppositeFacing(q, lane.ray);
    RepeatedVertexDegenerate(q);
    ZeroNormalRejected(true, lane.ray, OccTri(OccludedAsWritten, q, 1));
    assert !AnyOccluder(true, lane.ray, ts);
  }

  /** The witness ray meets the front of the intersect loop's first triangle at distance 1. */
  lemma WitnessAccepted()
    ensures AcceptK(true, WitnessLane.ray, IntersectTri(WitnessQuad, 0))
  {
    WitnessFrontTri();
    WitnessFrontTerms();
    AcceptKFacts(true, Terms(1.0, 1.0, 0.5, 0.25, 1.0), WitnessLane.ray);
  }

  /**
   * The witness: the intersect loop finds a hit for the lane, and the
   * occlusion loop as written reports it unoccluded.
   */
  lemma OcclusionMissesCulledHit()
    ensures BatchOk(WitnessBatch)
    ensures LaneRun(true, true, WitnessLane, IntersectList(WitnessBatch)).hit.Some?
    ensures !OccludedSpec(OccludedAsWritten, true, [true], [WitnessLane.ray], WitnessBatch)[0]
  {
    WitnessBatchOk();
    WitnessAccepted();
    OcclusionMissesFront(WitnessBatch, WitnessLane);
  }
}

=== FILE: params.dfy ===
/**
 * Object parameters as `ManagedObject::getParam*` reads them: a parameter
 * set under a name with the requested type yields its value, anything else
 * the caller's default.  `ManagedObject` itself is not part of this model;
 * the type check is how its getters are read here.
 */
module Params {
  import opened Wrappers
  import opened Geometry

  datatype Param = FloatParam(f: real) | IntParam(i: int) | Vec3Param(v: Vec3) | ObjectParam(handle: nat)

  type ParamSet = map<string, Param>

  function Param1f(ps: ParamSet, name: string, dflt: real): (r: real)
    ensures name in ps && ps[name].FloatParam? ==> r == ps[name].f
    ensures !(name in ps && ps[name].FloatParam?) ==> r == dflt
  {
    if name in ps && ps[name].FloatParam? then ps[name].f else dflt
  }

  function Param1i(ps: ParamSet, name: string, dflt: int): (r: int)
    ensures name in ps && ps[name].IntParam? ==> r == ps[name].i
    ensures !(name in ps && ps[name].IntParam?) ==> r == dflt
  {
    if name in ps && ps[name].IntParam? then ps[name].i else dflt
  }

  function Param3f(ps: ParamSet, name: string, dflt: Vec3): (r: Vec3)
    ensures name in ps && ps[name].Vec3Param? ==> r == ps[name].v
    ensures !(name in ps && ps[name].Vec3Param?) ==> r == dflt
  {
    if name in ps && ps[name].Vec3Param? then ps[name].v else dflt
  }

  /** `getParamObject(name, dflt)`: an object handle or the default (`None` for NULL). */
  function ParamObject(ps: ParamSet, name: string, dflt: Option<nat>): (r: Option<nat>)
    ensures name in ps && ps[name].ObjectParam? ==> r == Some(ps[name].handle)
    ensures !(name in ps && ps[name].ObjectParam?) ==> r == dflt
  {
    if name in ps && ps[name].ObjectParam? then Some(ps[name].handle) else dflt
  }
}

=== FILE: pixel_op.dfy ===
/** `PixelOp`'s registry (`createPixelOp`, `registerPixelOp`). */
module PixelOpFactory {
  import opened Wrappers
  import opened StdMap
  import opened Registry
  import opened Names
  import RendererFactory

  const SymbolPrefix := "ospray_create_pixel_op__"

  /**
   * `createPixelOp(type)`: the copy of the name is cut at the first `@`
   * (`strstr`), the rest naming a library to load; the cut name then goes
   * through the path that caches null answers.
   */
  function CreatePixelOp(reg: Reg, typ: string, env: Env): (o: Outcome)
    requires Valid(reg)
    ensures var key := SplitAtFirst(typ, '@').0;
      && Valid(o.reg) && HasKey(o.reg, key) && '@' !in key
      && o.lookups == (if HasKey(reg, key) then [] else [SymbolPrefix + key])
      && (!HasKey(reg, key) ==> Find(o.reg, key) == Some(env.getSymbol(SymbolPrefix + key)))
      && (forall k :: k != key ==> Find(o.reg, k) == Find(reg, k))
      && MadeByStored(o, key, env, PixelOpType)
    ensures var (key, lib) := SplitAtFirst(typ, '@');
      o.libraries == (if lib.Some? then [RendererFactory.ModulePrefix + lib.value] else [])
  {
    var at := FirstIndexOf(typ, '@');
    var key := if at.Some? then typ[..at.value] else typ;
    var libs := if at.Some? then [RendererFactory.ModulePrefix + typ[at.value + 1..]] else [];
    SplitAtFirstRoundTrip(typ, '@');
    CreateCachingNull(reg, key, SymbolPrefix + key, env, PixelOpType).(libraries := libs)
  }

  function RegisterPixelOp(reg: Reg, identifier: string, c: Creator): (r: Reg)
    requires Valid(reg)
    ensures Valid(r) && Find(r, identifier) == Some(Some(c))
    ensures forall k :: k != identifier ==> Find(r, k) == Find(reg, k)
  {
    Register(reg, identifier, c)
  }

  /** A module suffix only selects the library: `t@m` and `t` reach the same registry entry. */
  lemma ModuleSuffixSharesEntry(reg: Reg, typ: string, m: string, env: Env)
    requires Valid(reg) && '@' !in typ
    ensures var o1 := CreatePixelOp(reg, typ + "@" + m, env);
      var o2 := CreatePixelOp(reg, typ, env);
      o1.obj == o2.obj && o1.reg == o2.reg && o1.lookups == o2.lookups &&
      o1.libraries == [RendererFactory.ModulePrefix + m] && o2.libraries == []
  {
    SplitAtFirstRoundTrip(typ, '@');
    RendererFactory.FirstAtOfJoin(typ, m);
  }
}

=== FILE: primref_gen.dfy ===
/**
 * Primitive-reference generation (primrefgen.cpp): every primitive index is
 * tested for validity and the valid ones are compacted, in index order, into
 * the caller's array, while a count/bounds summary is reduced alongside.
 *
 * The parallel prefix sum over blocks of indices is modelled as a sequential
 * fold over an explicit partition `cuts` of [0,n): chunk c is the index range
 * [cuts[c], cuts[c+1]).  Each chunk's task is `ScanChunk`; the task of the
 * first pass writes at its own first index, the task of the second pass writes
 * at the number of valid primitives in all earlier chunks (`base.size()`).
 *
 * The engine is generic in the record type `T` written to the array, with
 * `box` giving a record's bounds: a candidate is `Some(record)` when the
 * primitive is valid and `None` when it is rejected.
 */
module PrimRefGen {
  import opened Wrappers
  import opened Geometry

  /** The reference record: bounds, geometry id and primitive index. */
  datatype PrimRef = PrimRef(bounds: Bounds, geomID: bv32, primID: nat)

  function RefBounds(r: PrimRef): Bounds { r.bounds }

  /**
   * A mesh as the reference builders see it: its id and, per primitive index j,
   * the answer of `mesh->valid(j,&bounds)` (the bounds when it is valid).
   */
  datatype Mesh = Mesh(id: bv32, prims: seq<Option<Bounds>>)

  /** `cuts` lists the starts of consecutive (possibly empty) chunks from 0, all within [0,n]. */
  predicate Chunking(cuts: seq<nat>, n: nat) {
    && |cuts| >= 1
    && cuts[0] == 0
    && cuts[|cuts| - 1] <= n
    && forall i, j :: 0 <= i <= j < |cuts| ==> cuts[i] <= cuts[j]
  }

  /** `cuts` splits [0,n) into consecutive (possibly empty) chunks. */
  predicate IsPartition(cuts: seq<nat>, n: nat) {
    Chunking(cuts, n) && cuts[|cuts| - 1] == n
  }

  /** The items of the valid candidates, in index order. */
  function Compact<T>(src: seq<Option<T>>): (r: seq<T>)
    ensures |r| <= |src|
    ensures forall x :: x in r ==> Some(x) in src
  {
    if |src| == 0 then []
    else Compact(src[..|src| - 1]) + (if src[|src| - 1].Some? then [src[|src| - 1].value] else [])
  }

  lemma {:induction false} CompactAppend<T>(a: seq<Option<T>>, b: seq<Option<T>>)
    ensures Compact(a + b) == Compact(a) + Compact(b)
    decreases |b|
  {
    if |b| == 0 {
      assert a + b == a;
    } else {
      var b' := b[..|b| - 1];
      assert (a + b)[..|a + b| - 1] == a + b';
      CompactAppend(a, b');
    }
  }

  lemma {:induction false} CompactLength<T>(src: seq<Option<T>>)
    ensures |Compact(src)| <= |src|
    ensures (forall j :: 0 <= j < |src| ==> src[j].Some?) ==> |Compact(src)| == |src|
  {
    if |src| > 0 {
      CompactLength(src[..|src| - 1]);
    }
  }

  /** When every candidate is valid, compaction keeps item j at position j. */
  lemma {:induction false} CompactAllValid<T>(src: seq<Option<T>>)
    requires forall j :: 0 <= j < |src| ==> src[j].Some?
    ensures |Compact(src)| == |src|
    ensures forall j :: 0 <= j < |src| ==> Compact(src)[j] == src[j].value
  {
    if |src| > 0 {
      CompactAllValid(src[..|src| - 1]);
    }
  }

  /** Compaction keeps exactly the valid items: each output is some valid input and vice versa. */
  lemma {:induction false} CompactMembers<T>(src: seq<Option<T>>)
    ensures forall x :: x in Compact(src) <==> Some(x) in src
  {
    if |src| > 0 {
      var s' := src[..|src| - 1];
      CompactMembers(s');
      assert src == s' + [src[|src| - 1]];
    }
  }

  /** `prims` with `s` written from slot `k` on (the `prims[k++] = ...` stores). */
  function Write<T>(prims: seq<T>, k: nat, s: seq<T>): (r: seq<T>)
    requires k + |s| <= |prims|
    ensures |r| == |prims|
    ensures r[..k] == prims[..k] && r[k..k + |s|] == s && r[k + |s|..] == prims[k + |s|..]
  {
    prims[..k] + s + prims[k + |s|..]
  }

  lemma WriteSnoc<T>(prims: seq<T>, k: nat, s: seq<T>, x: T)
    requires k + |s| + 1 <= |prims|
    ensures Write(prims, k, s + [x]) == Write(prims, k, s)[k + |s| := x]
  {
    var l := Write(prims, k, s + [x]);
    var r := Write(prims, k, s)[k + |s| := x];
    assert |l| == |r|;
    forall i | 0 <= i < |l| ensures l[i] == r[i] {
      if i < k {
        assert l[i] == l[..k][i];
      } else if i < k + |s| + 1 {
        assert l[i] == l[k..k + |s| + 1][i - k];
        if i < k + |s| {
          assert r[i] == Write(prims, k, s)[k..k + |s|][i - k];
        }
      } else {
        assert l[i] == l[k + |s| + 1..][i - (k + |s| + 1)];
        assert r[i] == Write(prims, k, s)[k + |s|..][i - (k + |s|)];
      }
    }
  }

  /** Writing right after an already-correct prefix extends that prefix. */
  lemma WriteAfterPrefix<T>(prims: seq<T>, p: seq<T>, s: seq<T>)
    requires |p| + |s| <= |prims| && prims[..|p|] == p
    ensures Write(prims, |p|, s)[..|p| + |s|] == p + s
  {
    var w := Write(prims, |p|, s);
    assert w[..|p|] == p;
    assert w[|p|..|p| + |s|] == s;
    assert w[..|p| + |s|] == w[..|p|] + w[|p|..|p| + |s|];
  }

  /** One task: scan [lo,hi), storing each valid item at k, k+1, ... */
  method ScanChunk<T>(src: seq<Option<T>>, lo: nat, hi: nat, prims: seq<T>, k: nat, box: T -> Bounds)
    returns (info: PrimInfo, out: seq<T>)
    requires lo <= hi <= |src|
    requires k + |Compact(src[lo..hi])| <= |prims|
    ensures info == InfoOf(Compact(src[lo..hi]), box)
    ensures out == Write(prims, k, Compact(src[lo..hi]))
  {
    info := EmptyInfo;
    out := prims;
    var kk := k;
    var j := lo;
    ghost var done: seq<T> := [];
    assert src[lo..lo] == [];
    while j < hi
      invariant lo <= j <= hi
      invariant done == Compact(src[lo..j])
      invariant kk == k + |done| && k + |done| <= |prims|
      invariant info == InfoOf(done, box)
      invariant out == Write(prims, k, done)
    {
      ScanStep(src, lo, j, hi, k, |prims|);
      if src[j].Some? {
        info, out, done := Put(prims, k, box, done, info, out, kk, src[j].value);
        kk := kk + 1;
      }
      j := j + 1;
    }
  }

  /** `prims[k++] = x` with the summary grown by `x`: the written prefix and its summary extend by one item. */
  method Put<T>(prims: seq<T>, k: nat, box: T -> Bounds, ghost done: seq<T>, info: PrimInfo, out: seq<T>, kk: nat, x: T)
    returns (info': PrimInfo, out': seq<T>, ghost done': seq<T>)
    requires k + |done| + 1 <= |prims| && kk == k + |done|
    requires info == InfoOf(done, box) && out == Write(prims, k, done)
    ensures done' == done + [x]
    ensures info' == InfoOf(done', box) && out' == Write(prims, k, done')
  {
    InfoOfSnoc(done, x, box);
    WriteSnoc(prims, k, done, x);
    info' := AddPrim(info, box(x));
    out' := out[kk := x];
    done' := done + [x];
  }

  /** One more index of the scan: the valid items so far grow by that index's item, if valid, and still fit. */
  lemma ScanStep<T>(src: seq<Option<T>>, lo: nat, j: nat, hi: nat, k: nat, n: nat)
    requires lo <= j < hi <= |src| && k + |Compact(src[lo..hi])| <= n
    ensures src[j].Some? ==> Compact(src[lo..j + 1]) == Compact(src[lo..j]) + [src[j].value]
    ensures src[j].None? ==> Compact(src[lo..j + 1]) == Compact(src[lo..j])
    ensures k + |Compact(src[lo..j + 1])| <= n
  {
    assert src[lo..j + 1][..j - lo] == src[lo..j];
    assert src[lo..hi] == src[lo..j + 1] + src[j + 1..hi];
    CompactAppend(src[lo..j + 1], src[j + 1..hi]);
  }

  /** The chunk summaries merged left to right (the prefix-sum reduction). */
  function FoldChunks<T>(src: seq<Option<T>>, cuts: seq<nat>, box: T -> Bounds): PrimInfo
    requires Chunking(cuts, |src|)
    decreases |cuts|
  {
    if |cuts| == 1 then EmptyInfo
    else
      var c := |cuts| - 2;
      Merge(FoldChunks(src, cuts[..|cuts| - 1], box), InfoOf(Compact(src[cuts[c]..cuts[c + 1]]), box))
  }

  /**
   * The reduction does not depend on how the indices are chunked: for every
   * chunking it yields the summary of all valid items up to the last cut.
   */
  lemma {:induction false} FoldChunksIndependent<T>(src: seq<Option<T>>, cuts: seq<nat>, box: T -> Bounds)
    requires Chunking(cuts, |src|)
    ensures FoldChunks(src, cuts, box) == InfoOf(Compact(src[..cuts[|cuts| - 1]]), box)
    decreases |cuts|
  {
    if |cuts| > 1 {
      var c := |cuts| - 2;
      var cuts' := cuts[..|cuts| - 1];
      assert Chunking(cuts', |src|);
      FoldChunksIndependent(src, cuts', box);
      PrefixSplit(src, cuts[c], cuts[c + 1]);
      InfoOfAppend(Compact(src[..cuts[c]]), Compact(src[cuts[c]..cuts[c + 1]]), box);
    } else {
      assert src[..0] == [];
    }
  }

  /** Over a full partition, the reduction is the summary of every valid item. */
  lemma PartitionFold<T>(src: seq<Option<T>>, cuts: seq<nat>, box: T -> Bounds)
    requires IsPartition(cuts, |src|)
    ensures FoldChunks(src, cuts, box) == InfoOf(Compact(src), box)
  {
    FoldChunksIndependent(src, cuts, box);
    assert src[..|src|] == src;
  }

  /** An empty source gives an empty summary and no references. */
  lemma EmptySourceEmptySummary<T>(cuts: seq<nat>, box: T -> Bounds)
    requires IsPartition(cuts, 0)
    ensures FoldChunks([], cuts, box) == EmptyInfo
  {
    PartitionFold([], cuts, box);
  }

  lemma PrefixSplit<T>(src: seq<Option<T>>, a: nat, b: nat)
    requires a <= b <= |src|
    ensures Compact(src[..b]) == Compact(src[..a]) + Compact(src[a..b])
  {
    assert src[..b] == src[..a] + src[a..b];
    CompactAppend(src[..a], src[a..b]);
  }

  /** With no rejections, a chunk written at its own first index extends the correct prefix. */
  lemma AllValidStep<T>(src: seq<Option<T>>, out: seq<T>, lo: nat, hi: nat)
    requires lo <= hi <= |src| <= |out|
    requires forall j :: 0 <= j < |src| ==> src[j].Some?
    requires out[..lo] == Compact(src[..lo])
    ensures |Compact(src[lo..hi])| <= hi - lo
    ensures Write(out, lo, Compact(src[lo..hi]))[..hi] == Compact(src[..hi])
  {
    CompactLength(src[..lo]);
    CompactLength(src[lo..hi]);
    PrefixSplit(src, lo, hi);
    WriteAfterPrefix(out, Compact(src[..lo]), Compact(src[lo..hi]));
  }

  /**
   * The first pass: each chunk writes its valid items from its own first
   * index.  When nothing is rejected this already leaves item j in slot j.
   */
  method FirstPass<T>(src: seq<Option<T>>, cuts: seq<nat>, prims: seq<T>, box: T -> Bounds)
    returns (info: PrimInfo, out: seq<T>)
    requires IsPartition(cuts, |src|) && |src| <= |prims|
    ensures info == InfoOf(Compact(src), box)
    ensures |out| == |prims|
    ensures (forall j :: 0 <= j < |src| ==> src[j].Some?) ==> out[..|src|] == Compact(src)
  {
    info := EmptyInfo;
    out := prims;
    var c := 0;
    ghost var allValid := forall j :: 0 <= j < |src| ==> src[j].Some?;
    ghost var done: seq<T> := [];
    assert src[..0] == [];
    while c < |cuts| - 1
      invariant 0 <= c <= |cuts| - 1
      invariant |out| == |prims|
      invariant done == Compact(src[..cuts[c]])
      invariant info == InfoOf(done, box)
      invariant allValid ==> out[..cuts[c]] == done
    {
      var lo, hi := cuts[c], cuts[c + 1];
      CompactLength(src[lo..hi]);
      var part, out' := ScanChunk(src, lo, hi, out, lo, box);
      PrefixSplit(src, lo, hi);
      InfoOfAppend(done, Compact(src[lo..hi]), box);
      if allValid {
        AllValidStep(src, out, lo, hi);
      }
      info := Merge(info, part);
      out := out';
      done := done + Compact(src[lo..hi]);
      c := c + 1;
    }
    assert src[..|src|] == src;
  }

  /** The second pass: each chunk writes from `base.size()`, closing every gap. */
  method SecondPass<T>(src: seq<Option<T>>, cuts: seq<nat>, prims: seq<T>, box: T -> Bounds)
    returns (info: PrimInfo, out: seq<T>)
    requires IsPartition(cuts, |src|) && |Compact(src)| <= |prims|
    ensures info == InfoOf(Compact(src), box)
    ensures |out| == |prims|
    ensures out[..|Compact(src)|] == Compact(src)
  {
    info := EmptyInfo;
    out := prims;
    var c := 0;
    while c < |cuts| - 1
      invariant 0 <= c <= |cuts| - 1
      invariant |out| == |prims|
      invariant info == InfoOf(Compact(src[..cuts[c]]), box)
      invariant |Compact(src[..cuts[c]])| <= |prims|
      invariant out[..|Compact(src[..cuts[c]])|] == Compact(src[..cuts[c]])
    {
      var lo, hi := cuts[c], cuts[c + 1];
      InfoOfCount(Compact(src[..lo]), box);
      var base := info.count;
      PrefixSplit(src, lo, hi);
      PrefixSplit(src, hi, |src|);
      assert src[..|src|] == src;
      var part, out' := ScanChunk(src, lo, hi, out, base, box);
      WriteAfterPrefix(out, Compact(src[..lo]), Compact(src[lo..hi]));
      InfoOfAppend(Compact(src[..lo]), Compact(src[lo..hi]), box);
      info := Merge(info, part);
      out := out';
      c := c + 1;
    }
    assert src[..|src|] == src;
  }

  /**
   * The whole two-pass generator over candidates.  The second pass runs
   * exactly when the number of valid items differs from the array size.
   */
  method CreateRefArray<T>(src: seq<Option<T>>, cuts: seq<nat>, prims: seq<T>, box: T -> Bounds)
    returns (info: PrimInfo, out: seq<T>, reran: bool)
    requires IsPartition(cuts, |src|) && |src| <= |prims|
    ensures info == InfoOf(Compact(src), box)
    ensures info.count == |Compact(src)| <= |src|
    ensures |out| == |prims|
    ensures out[..info.count] == Compact(src)
    ensures reran <==> |Compact(src)| != |prims|
  {
    CompactLength(src);
    InfoOfCount(Compact(src), box);
    info, out := FirstPass(src, cuts, prims, box);
    reran := info.count != |out|;
    if reran {
      info, out := SecondPass(src, cuts, out, box);
    } else {
      CompactLength(src);
      assert |src| == |Compact(src)|;
      if exists j :: 0 <= j < |src| && src[j].None? {
        var j :| 0 <= j < |src| && src[j].None?;
        NoneShrinks(src, j);
        assert false;
      }
    }
  }

  /** A rejected candidate makes the compacted list strictly shorter than the source. */
  lemma {:induction false} NoneShrinks<T>(src: seq<Option<T>>, j: nat)
    requires j < |src| && src[j].None?
    ensures |Compact(src)| < |src|
  {
    var n := |src| - 1;
    if j == n {
      CompactLength(src[..n]);
    } else {
      NoneShrinks(src[..n], j);
    }
  }

  /** The candidates of one mesh: `Some(PrimRef(bounds, mesh.id, j))` for each valid j. */
  function MeshCandidates(mesh: Mesh): (r: seq<Option<PrimRef>>)
    ensures |r| == |mesh.prims|
    ensures forall j :: 0 <= j < |r| ==>
      (r[j].Some? <==> mesh.prims[j].Some?) &&
      (r[j].Some? ==> r[j].value == PrimRef(mesh.prims[j].value, mesh.id, j))
  {
    seq(|mesh.prims|, j requires 0 <= j < |mesh.prims| =>
      if mesh.prims[j].Some? then Some(PrimRef(mesh.prims[j].value, mesh.id, j)) else None)
  }

  /** The references `createPrimRefArray(mesh, ...)` is meant to produce. */
  function MeshRefs(mesh: Mesh): seq<PrimRef> { Compact(MeshCandidates(mesh)) }

  /**
   * The output holds exactly the valid primitives, in strictly ascending index
   * order, each tagged with the mesh id, its index and its own bounds.
   */
  lemma MeshRefsExact(mesh: Mesh)
    ensures forall i :: 0 <= i < |MeshRefs(mesh)| ==>
      var r := MeshRefs(mesh)[i];
      r.geomID == mesh.id && r.primID < |mesh.prims| && mesh.prims[r.primID] == Some(r.bounds)
    ensures forall i, k :: 0 <= i < k < |MeshRefs(mesh)| ==> MeshRefs(mesh)[i].primID < MeshRefs(mesh)[k].primID
    ensures forall j :: 0 <= j < |mesh.prims| && mesh.prims[j].Some? ==>
      PrimRef(mesh.prims[j].value, mesh.id, j) in MeshRefs(mesh)
  {
    var src := MeshCandidates(mesh);
    CompactMembers(src);
    RefsIncreasing(src, mesh);
    forall j | 0 <= j < |mesh.prims| && mesh.prims[j].Some?
      ensures PrimRef(mesh.prims[j].value, mesh.id, j) in MeshRefs(mesh)
    {
      assert src[j] == Some(PrimRef(mesh.prims[j].value, mesh.id, j));
    }
    forall i | 0 <= i < |MeshRefs(mesh)|
      ensures var r := MeshRefs(mesh)[i];
        r.geomID == mesh.id && r.primID < |mesh.prims| && mesh.prims[r.primID] == Some(r.bounds)
    {
      var r := MeshRefs(mesh)[i];
      assert r in Compact(src);
      var j :| 0 <= j < |src| && src[j] == Some(r);
    }
  }

  /** Helper for `MeshRefsExact`: primIDs of a compacted prefix are increasing and below its length. */
  lemma {:induction false} RefsIncreasing(src: seq<Option<PrimRef>>, mesh: Mesh)
    requires |src| <= |mesh.prims|
    requires forall j :: 0 <= j < |src| ==> src[j] == MeshCandidates(mesh)[j]
    ensures forall i :: 0 <= i < |Compact(src)| ==> Compact(src)[i].primID < |src|
    ensures forall i, k :: 0 <= i < k < |Compact(src)| ==> Compact(src)[i].primID < Compact(src)[k].primID
  {
    if |src| > 0 {
      var n := |src| - 1;
      RefsIncreasing(src[..n], mesh);
    }
  }

  /** `createPrimRefArray(mesh, prims, ...)`: the mesh variant of the generator. */
  method CreatePrimRefArray(mesh: Mesh, cuts: seq<nat>, prims: seq<PrimRef>)
    returns (info: PrimInfo, out: seq<PrimRef>, reran: bool)
    requires IsPartition(cuts, |mesh.prims|) && |mesh.prims| <= |prims|
    ensures info.count == |MeshRefs(mesh)| <= |mesh.prims|
    ensures info == InfoOf(MeshRefs(mesh), RefBounds)
    ensures |out| == |prims| && out[..info.count] == MeshRefs(mesh)
    ensures reran <==> info.count != |prims|
    ensures (forall j :: 0 <= j < |mesh.prims| ==> mesh.prims[j].Some?) ==>
      !reran || |prims| != |mesh.prims|
  {
    var src := MeshCandidates(mesh);
    CompactLength(src);
    info, out, reran := CreateRefArray(src, cuts, prims, RefBounds);
    if forall j :: 0 <= j < |mesh.prims| ==> mesh.prims[j].Some? {
      CompactLength(src);
    }
  }

  /** If every primitive is valid, the first pass alone places primitive j at slot j. */
  method FirstPassAllValid(mesh: Mesh, cuts: seq<nat>, prims: seq<PrimRef>)
    returns (out: seq<PrimRef>)
    requires IsPartition(cuts, |mesh.prims|) && |mesh.prims| <= |prims|
    requires forall j :: 0 <= j < |mesh.prims| ==> mesh.prims[j].Some?
    ensures |out| == |prims|
    ensures forall j :: 0 <= j < |mesh.prims| ==> out[j] == PrimRef(mesh.prims[j].value, mesh.id, j)
  {
    var src := MeshCandidates(mesh);
    var info;
    info, out := FirstPass(src, cuts, prims, RefBounds);
    CompactAllValid(src);
    forall j | 0 <= j < |mesh.prims|
      ensures out[j] == PrimRef(mesh.prims[j].value, mesh.id, j)
    {
      assert out[j] == out[..|src|][j];
    }
  }

  /** The scene's candidates: the meshes' candidates one after the other (the for-for index space). */
  function SceneCandidates(meshes: seq<Mesh>): seq<Option<PrimRef>> {
    if |meshes| == 0 then [] else SceneCandidates(meshes[..|meshes| - 1]) + MeshCandidates(meshes[|meshes| - 1])
  }

  /** The scene's references are the meshes' references concatenated in mesh order. */
  function SceneRefs(meshes: seq<Mesh>): seq<PrimRef> {
    if |meshes| == 0 then [] else SceneRefs(meshes[..|meshes| - 1]) + MeshRefs(meshes[|meshes| - 1])
  }

  lemma {:induction false} SceneRefsCompact(meshes: seq<Mesh>)
    ensures Compact(SceneCandidates(meshes)) == SceneRefs(meshes)
  {
    if |meshes| > 0 {
      var ms := meshes[..|meshes| - 1];
      SceneRefsCompact(ms);
      CompactAppend(SceneCandidates(ms), MeshCandidates(meshes[|meshes| - 1]));
    }
  }

  /** `createPrimRefArray(scene, prims, ...)`: the scene variant, over the global index space. */
  method CreateScenePrimRefArray(meshes: seq<Mesh>, cuts: seq<nat>, prims: seq<PrimRef>)
    returns (info: PrimInfo, out: seq<PrimRef>, reran: bool)
    requires IsPartition(cuts, |SceneCandidates(meshes)|) && |SceneCandidates(meshes)| <= |prims|
    ensures info.count == |SceneRefs(meshes)| <= |SceneCandidates(meshes)|
    ensures info == InfoOf(SceneRefs(meshes), RefBounds)
    ensures |out| == |prims| && out[..info.count] == SceneRefs(meshes)
    ensures reran <==> info.count != |prims|
  {
    SceneRefsCompact(meshes);
    CompactLength(SceneCandidates(meshes));
    info, out, reran := CreateRefArray(SceneCandidates(meshes), cuts, prims, RefBounds);
  }

  /** The blocks of a reference list, flattened in list order. */
  function Flatten<T>(blocks: seq<seq<T>>): seq<T> {
    if |blocks| == 0 then [] else Flatten(blocks[..|blocks| - 1]) + blocks[|blocks| - 1]
  }

  lemma FlattenSnoc<T>(blocks: seq<seq<T>>, b: seq<T>)
    ensures Flatten(blocks + [b]) == Flatten(blocks) + b
  {
    assert (blocks + [b])[..|blocks + [b]| - 1] == blocks;
  }

  lemma FlattenUpdateLast<T>(blocks: seq<seq<T>>, x: T)
    requires |blocks| > 0
    ensures Flatten(blocks[|blocks| - 1 := blocks[|blocks| - 1] + [x]]) == Flatten(blocks) + [x]
  {
    var n := |blocks| - 1;
    var nb := blocks[n := blocks[n] + [x]];
    assert nb[..n] == blocks[..n];
  }

  /** Compacting one more candidate appends its reference when it is valid, and nothing otherwise. */
  lemma CompactStep(src: seq<Option<PrimRef>>, lo: nat, j: nat)
    requires lo <= j < |src|
    ensures src[j].Some? ==> Compact(src[lo..j + 1]) == Compact(src[lo..j]) + [src[j].value]
    ensures src[j].None? ==> Compact(src[lo..j + 1]) == Compact(src[lo..j])
  {
    assert src[lo..j + 1] == src[lo..j] + [src[j]];
    CompactAppend(src[lo..j], [src[j]]);
    assert [src[j]][..0] == [];
  }

  /** Appends one reference to the last block, or to a fresh block when the last one is full. */
  method PushRef(blocks: seq<seq<PrimRef>>, r: PrimRef, blockCapacity: nat) returns (out: seq<seq<PrimRef>>)
    requires |blocks| > 0 && blockCapacity > 0 && Fits(blocks, blockCapacity)
    ensures Flatten(out) == Flatten(blocks) + [r]
    ensures Fits(out, blockCapacity)
    ensures |out| >= |blocks|
  {
    if |blocks[|blocks| - 1]| < blockCapacity {
      FlattenUpdateLast(blocks, r);
      out := blocks[|blocks| - 1 := blocks[|blocks| - 1] + [r]];
    } else {
      FlattenSnoc(blocks, [r]);
      out := blocks + [[r]];
    }
  }

  /** Blocks that respect the list's block capacity. */
  predicate Fits(blocks: seq<seq<PrimRef>>, blockCapacity: nat) {
    forall b :: b in blocks ==> |b| <= blockCapacity
  }

  /** The body of one task's loop: account for candidate `j` and store its reference when valid. */
  method AppendCandidate(src: seq<Option<PrimRef>>, lo: nat, j: nat, part: PrimInfo, blocks: seq<seq<PrimRef>>,
                         base: seq<PrimRef>, blockCapacity: nat)
    returns (part': PrimInfo, out: seq<seq<PrimRef>>)
    requires lo <= j < |src| && blockCapacity > 0 && |blocks| > 0 && Fits(blocks, blockCapacity)
    requires part == InfoOf(Compact(src[lo..j]), RefBounds)
    requires Flatten(blocks) == base + Compact(src[lo..j])
    ensures part' == InfoOf(Compact(src[lo..j + 1]), RefBounds)
    ensures Flatten(out) == base + Compact(src[lo..j + 1])
    ensures Fits(out, blockCapacity) && |out| >= |blocks|
  {
    CompactStep(src, lo, j);
    part', out := part, blocks;
    if src[j].Some? {
      var r := src[j].value;
      InfoOfSnoc(Compact(src[lo..j]), r, RefBounds);
      part' := AddPrim(part, RefBounds(r));
      out := PushRef(blocks, r, blockCapacity);
    }
  }

  /** A task starts with an empty block appended and nothing accounted for. */
  lemma OpenBlock(src: seq<Option<PrimRef>>, lo: nat, blocks: seq<seq<PrimRef>>, blockCapacity: nat)
    requires lo <= |src| && Fits(blocks, blockCapacity)
    ensures Fits(blocks + [[]], blockCapacity)
    ensures Flatten(blocks + [[]]) == Flatten(blocks) + Compact(src[lo..lo])
    ensures EmptyInfo == InfoOf(Compact(src[lo..lo]), RefBounds)
  {
    FlattenSnoc(blocks, []);
    assert src[lo..lo] == [];
  }

  /** One task of the list builder: open a fresh block, then append each valid item, opening another block when full. */
  method AppendChunk(src: seq<Option<PrimRef>>, lo: nat, hi: nat, blocks: seq<seq<PrimRef>>, blockCapacity: nat)
    returns (part: PrimInfo, out: seq<seq<PrimRef>>)
    requires lo <= hi <= |src| && blockCapacity > 0 && Fits(blocks, blockCapacity)
    ensures part == InfoOf(Compact(src[lo..hi]), RefBounds)
    ensures Flatten(out) == Flatten(blocks) + Compact(src[lo..hi])
    ensures Fits(out, blockCapacity) && |out| > |blocks|
  {
    part := EmptyInfo;
    out := blocks + [[]];
    OpenBlock(src, lo, blocks, blockCapacity);
    var j := lo;
    while j < hi
      invariant lo <= j <= hi
      invariant |out| > |blocks| && Fits(out, blockCapacity)
      invariant part == InfoOf(Compact(src[lo..j]), RefBounds)
      invariant Flatten(out) == Flatten(blocks) + Compact(src[lo..j])
    {
      part, out := AppendCandidate(src, lo, j, part, out, Flatten(blocks), blockCapacity);
      j := j + 1;
    }
  }

  /**
   * `createPrimRefList(scene, ...)`: one pass, no compaction.  Each chunk opens
   * a fresh block and opens another whenever the current one is full
   * (`blockCapacity` items).  The blocks hold every valid reference, in order,
   * and none overflows.
   */
  method CreatePrimRefList(meshes: seq<Mesh>, cuts: seq<nat>, blockCapacity: nat)
    returns (info: PrimInfo, blocks: seq<seq<PrimRef>>)
    requires IsPartition(cuts, |SceneCandidates(meshes)|) && blockCapacity > 0
    ensures info == InfoOf(SceneRefs(meshes), RefBounds)
    ensures Flatten(blocks) == SceneRefs(meshes)
    ensures Fits(blocks, blockCapacity)
    ensures |blocks| >= |cuts| - 1
  {
    var src := SceneCandidates(meshes);
    SceneRefsCompact(meshes);
    info := EmptyInfo;
    blocks := [];
    var c := 0;
    assert src[..0] == [];
    while c < |cuts| - 1
      invariant 0 <= c <= |cuts| - 1
      invariant info == InfoOf(Compact(src[..cuts[c]]), RefBounds)
      invariant Flatten(blocks) == Compact(src[..cuts[c]])
      invariant Fits(blocks, blockCapacity)
      invariant |blocks| >= c
    {
      var lo, hi := cuts[c], cuts[c + 1];
      var part;
      part, blocks := AppendChunk(src, lo, hi, blocks, blockCapacity);
      PrefixSplit(src, lo, hi);
      InfoOfAppend(Compact(src[..lo]), Compact(src[lo..hi]), RefBounds);
      info := Merge(info, part);
      c := c + 1;
    }
    assert src[..|src|] == src;
  }
}

=== FILE: registry.dfy ===
/**
 * The string-keyed factory registries of OSPRay.  Each holds a
 * `std::map<std::string, creatorFct>` whose values may be null; a miss
 * asks the dynamic loader for a creator symbol.  The loader and the creators
 * are an oracle (`Env`): `getSymbol` answers a symbol name with a creator or
 * null, and `invoke` runs a creator, which may itself return null.
 */
module Registry {
  import opened Wrappers
  import opened StdMap

  /** An opaque creation function. */
  datatype Creator = Creator(id: nat)

  /** A registry: key to creator, `None` standing for a stored null pointer. */
  type Reg = Map<Option<Creator>>

  /** The `managedObjectType` tag the factories set. */
  datatype ManagedType = RendererType | CameraType | TransferFunctionType | VolumeType | PixelOpType

  /** A created object: the creator's opaque result and its tag. */
  datatype Obj = Obj(handle: nat, managedType: ManagedType)

  /** The loader and the creators. */
  datatype Env = Env(getSymbol: string -> Option<Creator>, invoke: Creator -> Option<nat>)

  /**
   * The result of a create call: the object (or null), the registry after the
   * call, the symbol names looked up and the libraries loaded, in order.
   */
  datatype Outcome = Outcome(obj: Option<Obj>, reg: Reg, lookups: seq<string>, libraries: seq<string>)

  /** `c ? c() : NULL`, tagging a non-null result. */
  function Invoke(env: Env, c: Option<Creator>, t: ManagedType): (r: Option<Obj>)
    ensures r.Some? <==> c.Some? && env.invoke(c.value).Some?
    ensures r.Some? ==> r.value == Obj(env.invoke(c.value).value, t)
  {
    match c
    case None => None
    case Some(f) =>
      match env.invoke(f)
      case None => None
      case Some(h) => Some(Obj(h, t))
  }

  /**
   * The call's object is what the creator the registry holds for `key` after
   * the call yields, tagged `t`: null exactly when that entry is null or the
   * creator returns null.
   */
  predicate MadeByStored(o: Outcome, key: string, env: Env, t: ManagedType) {
    var stored := Find(o.reg, key);
    stored.Some? && o.obj == Invoke(env, stored.value, t)
  }

  /**
   * The find-then-look-up path that caches the lookup's answer even when it
   * is null: a present key (null or not) is used as is, with no lookup; an
   * absent key is looked up once under `symbol` and the answer stored.
   */
  function CreateCachingNull(reg: Reg, key: string, symbol: string, env: Env, t: ManagedType): (o: Outcome)
    requires Valid(reg)
    ensures Valid(o.reg) && HasKey(o.reg, key) && o.libraries == []
    ensures o.lookups == (if HasKey(reg, key) then [] else [symbol])
    ensures HasKey(reg, key) ==> o.reg == reg
    ensures !HasKey(reg, key) ==> Find(o.reg, key) == Some(env.getSymbol(symbol))
    ensures forall k :: k != key ==> Find(o.reg, k) == Find(reg, k)
    ensures MadeByStored(o, key, env, t)
  {
    match Find(reg, key)
    case Some(c) => Outcome(Invoke(env, c, t), reg, [], [])
    case None =>
      var c := env.getSymbol(symbol);
      var reg' := Assign(reg, key, c);
      AssignSpec(reg, key, c);
      Outcome(Invoke(env, c, t), reg', [symbol], [])
  }

  /**
   * The path that retries null entries: only a present non-null creator is
   * used directly; an absent or null entry is looked up under `symbol` on
   * every call and replaced by the answer.
   */
  function CreateRetryingNull(reg: Reg, key: string, symbol: string, env: Env, t: ManagedType): (o: Outcome)
    requires Valid(reg)
    ensures Valid(o.reg) && HasKey(o.reg, key) && o.libraries == []
    ensures o.lookups == (if Find(reg, key).Some? && Find(reg, key).value.Some? then [] else [symbol])
    ensures o.lookups == [] ==> o.reg == reg
    ensures o.lookups != [] ==> Find(o.reg, key) == Some(env.getSymbol(symbol))
    ensures forall k :: k != key ==> Find(o.reg, k) == Find(reg, k)
    ensures MadeByStored(o, key, env, t)
  {
    var found := Find(reg, key);
    if found.Some? && found.value.Some? then
      Outcome(Invoke(env, found.value, t), reg, [], [])
    else
      var c := env.getSymbol(symbol);
      var reg' := Assign(reg, key, c);
      AssignSpec(reg, key, c);
      Outcome(Invoke(env, c, t), reg', [symbol], [])
  }

  /** `registry[identifier] = creator`: overwrites, and no other key changes. */
  function Register(reg: Reg, key: string, c: Creator): (r: Reg)
    requires Valid(reg)
    ensures Valid(r) && Find(r, key) == Some(Some(c))
    ensures forall k :: k != key ==> Find(r, k) == Find(reg, k)
  {
    AssignSpec(reg, key, Some(c));
    Assign(reg, key, Some(c))
  }

  /**
   * A null answer is cached for good: once a lookup fails, every later call
   * for that key returns null without looking up again, whatever the loader
   * would answer by then.
   */
  lemma CachedNullSticks(reg: Reg, key: string, symbol: string, env: Env, env2: Env, t: ManagedType)
    requires Valid(reg) && !HasKey(reg, key) && env.getSymbol(symbol).None?
    ensures var o := CreateCachingNull(reg, key, symbol, env, t);
      o.obj.None? &&
      var o2 := CreateCachingNull(o.reg, key, symbol, env2, t);
      o2.obj.None? && o2.lookups == [] && o2.reg == o.reg
  {
    AssignSpec(reg, key, None);
  }

  /**
   * A null entry is retried: after a failed lookup, a later call looks the
   * symbol up again, and succeeds once the loader finds a creator.
   */
  lemma RetriedNullRecovers(reg: Reg, key: string, symbol: string, env: Env, env2: Env, t: ManagedType)
    requires Valid(reg) && env.getSymbol(symbol).None?
    requires Find(reg, key) == None || Find(reg, key) == Some(None)
    requires env2.getSymbol(symbol).Some? && env2.invoke(env2.getSymbol(symbol).value).Some?
    ensures var o := CreateRetryingNull(reg, key, symbol, env, t);
      o.obj.None? &&
      var o2 := CreateRetryingNull(o.reg, key, symbol, env2, t);
      o2.lookups == [symbol] && o2.obj == Some(Obj(env2.invoke(env2.getSymbol(symbol).value).value, t))
  {
    AssignSpec(reg, key, None);
  }

  /** With a creator registered for the key, both policies agree and neither looks anything up. */
  lemma RegisteredKeyPoliciesAgree(reg: Reg, key: string, c: Creator, symbol: string, env: Env, t: ManagedType)
    requires Valid(reg)
    ensures var r := Register(reg, key, c);
      CreateCachingNull(r, key, symbol, env, t) == CreateRetryingNull(r, key, symbol, env, t) &&
      CreateCachingNull(r, key, symbol, env, t).lookups == [] &&
      CreateCachingNull(r, key, symbol, env, t).obj == Invoke(env, Some(c), t)
  {
  }
}

=== FILE: renderer.dfy ===
/**
 * `Renderer`'s registry (`createRenderer`, `registerRenderer`,
 * `registeredRenderers`) and the defaults `commit` reads.
 */
module RendererFactory {
  import opened Wrappers
  import opened Geometry
  import opened StdMap
  import opened Registry
  import opened Names
  import opened Params

  const SymbolPrefix := "ospray_create_renderer__"
  const ModulePrefix := "ospray_module_"

  /**
   * `createRenderer(type)`: a `@` splits the type into the registry key and
   * a module name, whose library `ospray_module_<name>` is loaded first; the
   * key then goes through the find-or-look-up path that caches null answers.
   */
  function CreateRenderer(reg: Reg, typ: string, env: Env): (o: Outcome)
    requires Valid(reg)
    ensures var key := SplitAtFirst(typ, '@').0;
      && Valid(o.reg) && HasKey(o.reg, key) && '@' !in key
      && o.lookups == (if HasKey(reg, key) then [] else [SymbolPrefix + key])
      && (!HasKey(reg, key) ==> Find(o.reg, key) == Some(env.getSymbol(SymbolPrefix + key)))
      && (forall k :: k != key ==> Find(o.reg, k) == Find(reg, k))
      && MadeByStored(o, key, env, RendererType)
    ensures var (key, lib) := SplitAtFirst(typ, '@');
      && ('@' in typ <==> lib.Some?)
      && o.libraries == (if lib.Some? then [ModulePrefix + lib.value] else [])
      && (lib.Some? ==> typ == key + "@" + lib.value)
  {
    var (key, lib) := SplitAtFirst(typ, '@');
    SplitAtFirstRoundTrip(typ, '@');
    var libs := if lib.Some? then [ModulePrefix + lib.value] else [];
    CreateCachingNull(reg, key, SymbolPrefix + key, env, RendererType).(libraries := libs)
  }

  /** `registerRenderer(identifier, creator)`. */
  function RegisterRenderer(reg: Reg, identifier: string, c: Creator): (r: Reg)
    requires Valid(reg)
    ensures Valid(r) && Find(r, identifier) == Some(Some(c))
    ensures forall k :: k != identifier ==> Find(r, k) == Find(reg, k)
  {
    Register(reg, identifier, c)
  }

  /** `registeredRenderers()`: every key, in ascending order, null entries included. */
  function RegisteredRenderers(reg: Reg): (names: seq<string>)
    requires Valid(reg)
    ensures forall i, j :: 0 <= i < j < |names| ==> StrLess(names[i], names[j])
    ensures forall k :: k in names <==> HasKey(reg, k)
  {
    KeysSorted(reg);
    Keys(reg)
  }

  /**
   * A type whose lookup fails is still listed afterwards, and creating it
   * again yields null without a second lookup.
   */
  lemma FailedTypeStaysRegistered(reg: Reg, typ: string, env: Env, env2: Env)
    requires Valid(reg) && '@' !in typ && !HasKey(reg, typ) && env.getSymbol(SymbolPrefix + typ).None?
    ensures var o := CreateRenderer(reg, typ, env);
      o.obj.None? && typ in RegisteredRenderers(o.reg) &&
      var o2 := CreateRenderer(o.reg, typ, env2);
      o2.obj.None? && o2.lookups == []
  {
    SplitAtFirstRoundTrip(typ, '@');
    CachedNullSticks(reg, typ, SymbolPrefix + typ, env, env2, RendererType);
  }

  /** A module suffix only selects the library: `t@m` and `t` reach the same registry entry. */
  lemma ModuleSuffixSharesEntry(reg: Reg, typ: string, m: string, env: Env)
    requires Valid(reg) && '@' !in typ
    ensures var o1 := CreateRenderer(reg, typ + "@" + m, env);
      var o2 := CreateRenderer(reg, typ, env);
      o1.obj == o2.obj && o1.reg == o2.reg && o1.lookups == o2.lookups &&
      o1.libraries == [ModulePrefix + m] && o2.libraries == []
  {
    var s := typ + "@" + m;
    SplitAtFirstRoundTrip(s, '@');
    SplitAtFirstRoundTrip(typ, '@');
    var (key, rest) := SplitAtFirst(s, '@');
    FirstAtOfJoin(typ, m);
  }

  lemma FirstAtOfJoin(typ: string, m: string)
    requires '@' !in typ
    ensures SplitAtFirst(typ + "@" + m, '@') == (typ, Some(m))
  {
    var s := typ + "@" + m;
    FirstIndexOfJoin(typ, '@', m);
    assert s[..|typ|] == typ && s[|typ| + 1..] == m;
  }

  /** What `commit` reads, before the ISPC-side scaling of `epsilon`. */
  datatype Settings = Settings(epsilon: real, spp: int, errorThreshold: real, backgroundEnabled: int,
                               maxDepthTexture: Option<nat>, model: Option<nat>, bgColor: Vec3)

  /**
   * `Renderer::commit`: each field is the parameter of its name when one of
   * the right type is set, otherwise its default (epsilon 1e-6, one sample
   * per pixel, variance threshold 0, background on, no depth texture, a
   * white background); the model is `model`, else `world`, else null.
   */
  function Commit(ps: ParamSet): (s: Settings)
    ensures s.epsilon == (if "epsilon" in ps && ps["epsilon"].FloatParam? then ps["epsilon"].f else 0.000001)
    ensures s.spp == (if "spp" in ps && ps["spp"].IntParam? then ps["spp"].i else 1)
    ensures s.errorThreshold ==
      (if "varianceThreshold" in ps && ps["varianceThreshold"].FloatParam? then ps["varianceThreshold"].f else 0.0)
    ensures s.backgroundEnabled ==
      (if "backgroundEnabled" in ps && ps["backgroundEnabled"].IntParam? then ps["backgroundEnabled"].i else 1)
    ensures s.maxDepthTexture ==
      (if "maxDepthTexture" in ps && ps["maxDepthTexture"].ObjectParam? then Some(ps["maxDepthTexture"].handle) else None)
    ensures s.model ==
      (if "model" in ps && ps["model"].ObjectParam? then Some(ps["model"].handle)
       else if "world" in ps && ps["world"].ObjectParam? then Some(ps["world"].handle)
       else None)
    ensures s.bgColor == (if "bgColor" in ps && ps["bgColor"].Vec3Param? then ps["bgColor"].v else Vec3(1.0, 1.0, 1.0))
    ensures ps == map[] ==> s == Settings(0.000001, 1, 0.0, 1, None, None, Vec3(1.0, 1.0, 1.0))
  {
    Settings(Param1f(ps, "epsilon", 0.000001), Param1i(ps, "spp", 1), Param1f(ps, "varianceThreshold", 0.0),
             Param1i(ps, "backgroundEnabled", 1), ParamObject(ps, "maxDepthTexture", None),
             ParamObject(ps, "model", ParamObject(ps, "world", None)), Param3f(ps, "bgColor", Vec3(1.0, 1.0, 1.0)))
  }

  /** The parameter names `commit` reads. */
  predicate ReadByCommit(n: string) {
    n in {"epsilon", "spp", "varianceThreshold", "backgroundEnabled", "maxDepthTexture", "model", "world", "bgColor"}
  }

  /**
   * Setting one parameter before `commit` changes at most the field read
   * from that name: an unread name changes nothing, a read name changes
   * its field to the new parameter's value or, for a parameter of the
   * wrong type, to the default; `world` matters only while `model` is not
   * an object.
   */
  lemma CommitFrame(ps: ParamSet, n: string, p: Param)
    ensures var before, after := Commit(ps), Commit(ps[n := p]);
      && (!ReadByCommit(n) ==> after == before)
      && (n == "epsilon" ==> after == before.(epsilon := if p.FloatParam? then p.f else 0.000001))
      && (n == "spp" ==> after == before.(spp := if p.IntParam? then p.i else 1))
      && (n == "varianceThreshold" ==> after == before.(errorThreshold := if p.FloatParam? then p.f else 0.0))
      && (n == "backgroundEnabled" ==> after == before.(backgroundEnabled := if p.IntParam? then p.i else 1))
      && (n == "maxDepthTexture" ==> after == before.(maxDepthTexture := if p.ObjectParam? then Some(p.handle) else None))
      && (n == "bgColor" ==> after == before.(bgColor := if p.Vec3Param? then p.v else Vec3(1.0, 1.0, 1.0)))
      && (n == "model" ==> after == before.(model :=
            if p.ObjectParam? then Some(p.handle)
            else if "world" in ps && ps["world"].ObjectParam? then Some(ps["world"].handle) else None))
      && (n == "world" ==> after == before.(model :=
            if "model" in ps && ps["model"].ObjectParam? then before.model
            else if p.ObjectParam? then Some(p.handle) else None))
  {
  }
}

=== FILE: scene_args.dfy ===
/**
 * `TriangleMeshSceneParser::parse`: the command line is scanned from its
 * second entry; five options set the parser's configuration and every other
 * argument is a file name, imported when its extension is one of eight
 * known ones.
 */
module SceneArgs {
  import opened Wrappers
  import opened Names

  /** 2^32: `maxObjectsToConsider` holds a 32-bit unsigned count. */
  const U32: int := 0x1_0000_0000

  /** `(uint32_t)-1`, the default object limit. */
  const AllObjects: nat := U32 - 1

  /** The importer an extension selects; `astl` goes to the animation, the rest to the model. */
  datatype FileKind = Stl | Msg | Tri | Rivl | Obj | Hbp | X3d | AnimatedStl

  /** The extension that selects each importer. */
  function ExtensionOf(k: FileKind): string {
    match k
    case Stl => "stl"
    case Msg => "msg"
    case Tri => "tri"
    case Rivl => "xml"
    case Obj => "obj"
    case Hbp => "hbp"
    case X3d => "x3d"
    case AnimatedStl => "astl"
  }

  /** The `fn.ext() == ...` chain; other extensions are ignored. */
  function KindOf(ext: string): (k: Option<FileKind>)
    ensures k.Some? ==> ExtensionOf(k.value) == ext
  {
    if ext == "stl" then Some(Stl)
    else if ext == "msg" then Some(Msg)
    else if ext == "tri" then Some(Tri)
    else if ext == "xml" then Some(Rivl)
    else if ext == "obj" then Some(Obj)
    else if ext == "hbp" then Some(Hbp)
    else if ext == "x3d" then Some(X3d)
    else if ext == "astl" then Some(AnimatedStl)
    else None
  }

  /** Every importer's extension selects it, so the table is a bijection onto the eight extensions. */
  lemma KindOfExtension(k: FileKind)
    ensures KindOf(ExtensionOf(k)) == Some(k)
  {
  }

  predicate IsSpace(c: char) {
    c == ' ' || c == '\t' || c == '\n' || c == '\r' || c as int == 11 || c as int == 12
  }

  predicate IsDigit(c: char) {
    '0' as int <= c as int <= '9' as int
  }

  function SkipSpaces(s: string): (t: string)
    ensures |t| <= |s| && t == s[|s| - |t|..]
    ensures |t| > 0 ==> !IsSpace(t[0])
    ensures (|s| == 0 || !IsSpace(s[0])) ==> t == s
  {
    if |s| > 0 && IsSpace(s[0]) then SkipSpaces(s[1..]) else s
  }

  /** The longest run of digits at the front of `s`. */
  function DigitPrefix(s: string): (d: string)
    ensures |d| <= |s| && d == s[..|d|]
    ensures forall i :: 0 <= i < |d| ==> IsDigit(d[i])
    ensures |d| < |s| ==> !IsDigit(s[|d|])
  {
    if |s| > 0 && IsDigit(s[0]) then [s[0]] + DigitPrefix(s[1..]) else []
  }

  /** The decimal value of a digit string, most significant digit first. */
  function DigitsValue(d: string): nat
    requires forall i :: 0 <= i < |d| ==> IsDigit(d[i])
  {
    if |d| == 0 then 0
    else
      var c := d[|d| - 1];
      assert IsDigit(c);
      DigitsValue(d[..|d| - 1]) * 10 + (c as int - '0' as int)
  }

  /**
   * `atoi`: leading white space, an optional sign, then as many digits as
   * there are; no digits gives 0.  Values outside `int` are undefined in C
   * and kept exact here.
   */
  function Atoi(s: string): (n: int)
    ensures var t := SkipSpaces(s);
      (|t| == 0 || !(t[0] == '-' || t[0] == '+' || IsDigit(t[0]))) ==> n == 0
    ensures n < 0 ==> |SkipSpaces(s)| > 0 && SkipSpaces(s)[0] == '-'
  {
    var t := SkipSpaces(s);
    if |t| > 0 && (t[0] == '-' || t[0] == '+') then
      var v: int := DigitsValue(DigitPrefix(t[1..]));
      if t[0] == '-' then -v else v
    else
      DigitsValue(DigitPrefix(t))
  }

  /** The conversion of an `int` to a 32-bit unsigned field: modulo 2^32. */
  function ToU32(x: int): (n: nat)
    ensures n < U32 && (0 <= x < U32 ==> n == x)
  {
    x % U32
  }

  /** `n` written in decimal. */
  function Decimal(n: nat): (s: string)
    ensures |s| > 0 && forall i :: 0 <= i < |s| ==> IsDigit(s[i])
  {
    var digit := ('0' as int + n % 10) as char;
    if n < 10 then [digit] else Decimal(n / 10) + [digit]
  }

  lemma {:induction false} DecimalValue(n: nat)
    ensures DigitsValue(Decimal(n)) == n
  {
    var s := Decimal(n);
    if n >= 10 {
      DecimalValue(n / 10);
      assert s[..|s| - 1] == Decimal(n / 10);
    }
  }

  lemma AllDigitsPrefix(s: string)
    requires forall i :: 0 <= i < |s| ==> IsDigit(s[i])
    ensures DigitPrefix(s) == s
  {
  }

  /** `atoi` reads back what `Decimal` writes, with either sign. */
  lemma AtoiDecimal(n: nat)
    ensures Atoi(Decimal(n)) == n
    ensures Atoi("-" + Decimal(n)) == -(n as int)
  {
    AtoiUnsigned(n);
    AtoiNegative(n);
  }

  lemma AtoiUnsigned(n: nat)
    ensures Atoi(Decimal(n)) == n
  {
    var s := Decimal(n);
    DecimalValue(n);
    AllDigitsPrefix(s);
    assert !IsSpace(s[0]);
    assert SkipSpaces(s) == s;
  }

  lemma AtoiNegative(n: nat)
    ensures Atoi("-" + Decimal(n)) == -(n as int)
  {
    var s := Decimal(n);
    DecimalValue(n);
    AllDigitsPrefix(s);
    var m := "-" + s;
    assert m[0] == '-' && !IsSpace(m[0]);
    assert SkipSpaces(m) == m;
    assert m[1..] == s;
  }

  /** What the options set. */
  datatype Config = Config(geometryType: string, alpha: bool, createDefaultMaterial: bool,
                           maxObjects: nat, forceInstancing: bool)

  /** The constructor's values: no alpha, a default material, no object limit, no forced instancing. */
  function Initial(geometryType: string): (c: Config)
    ensures c.geometryType == geometryType && !c.alpha && c.createDefaultMaterial
    ensures c.maxObjects == AllObjects && !c.forceInstancing
  {
    Config(geometryType, false, true, AllObjects, false)
  }

  /** The configuration and the files handed to an importer, in command-line order. */
  datatype Parsed = Parsed(config: Config, imports: seq<(FileKind, string)>)

  /** An option that needs a value came last; `av[++i]` would read past the arguments. */
  datatype ParseError = MissingValue(option: string)

  /** How the scan reads one argument: one of the five options, or a file name. */
  datatype Arg = MaxObjectsOption | ForceInstancingOption | AlphaOption | NoDefaultMaterialOption
               | MeshTypeOption | FileArg

  function Classify(arg: string): (a: Arg)
    ensures a == MaxObjectsOption <==> arg == "--max-objects"
    ensures a == ForceInstancingOption <==> arg == "--force-instancing"
    ensures a == AlphaOption <==> arg == "--alpha"
    ensures a == NoDefaultMaterialOption <==> arg == "--no-default-material"
    ensures a == MeshTypeOption <==> arg == "--trianglemesh-type"
  {
    if arg == "--max-objects" then MaxObjectsOption
    else if arg == "--force-instancing" then ForceInstancingOption
    else if arg == "--alpha" then AlphaOption
    else if arg == "--no-default-material" then NoDefaultMaterialOption
    else if arg == "--trianglemesh-type" then MeshTypeOption
    else FileArg
  }

  /** What one file name contributes: its importer and itself, or nothing for an unknown extension. */
  function Item(name: string): (r: seq<(FileKind, string)>)
    ensures |r| <= 1
    ensures |r| == 1 <==> KindOf(FileExt(name)).Some?
    ensures |r| == 1 ==> r[0] == (KindOf(FileExt(name)).value, name)
  {
    match KindOf(FileExt(name))
    case None => []
    case Some(k) => [(k, name)]
  }

  /** The effect of a switch, or of a valued option given `value`. */
  function Apply(a: Arg, value: string, c: Config): Config {
    match a
    case MaxObjectsOption => c.(maxObjects := ToU32(Atoi(value)))
    case ForceInstancingOption => c.(forceInstancing := true)
    case AlphaOption => c.(alpha := true)
    case NoDefaultMaterialOption => c.(createDefaultMaterial := false)
    case MeshTypeOption => c.(geometryType := value)
    case FileArg => c
  }

  predicate TakesValue(a: Arg) {
    a == MaxObjectsOption || a == MeshTypeOption
  }

  /** The scan from argument `i` on. */
  function ParseFrom(args: seq<string>, i: nat, p: Parsed): (r: Result<Parsed, ParseError>)
    decreases |args| - i
  {
    if i >= |args| then Success(p)
    else
      var a := Classify(args[i]);
      if a == FileArg then ParseFrom(args, i + 1, p.(imports := p.imports + Item(args[i])))
      else if !TakesValue(a) then ParseFrom(args, i + 1, p.(config := Apply(a, "", p.config)))
      else if i + 1 >= |args| then Failure(MissingValue(args[i]))
      else ParseFrom(args, i + 2, p.(config := Apply(a, args[i + 1], p.config)))
  }

  /**
   * `parse(ac, av)`: the scan from `av[1]`, and whether a scene was loaded,
   * which is exactly whether some file was handed to an importer.
   */
  function Parse(args: seq<string>, geometryType: string): (r: Result<(bool, Parsed), ParseError>)
    ensures r.Success? ==> (r.value.0 <==> |r.value.1.imports| > 0)
    ensures r.Success? ==> forall j :: 0 <= j < |r.value.1.imports| ==>
      r.value.1.imports[j].1 in args && KindOf(FileExt(r.value.1.imports[j].1)) == Some(r.value.1.imports[j].0)
  {
    var p :- ParseFrom(args, 1, Parsed(Initial(geometryType), []));
    ImportsAreRecognisedFiles(args, 1, Parsed(Initial(geometryType), []));
    Success((|p.imports| > 0, p))
  }

  /**
   * The scan only appends to the import list, and each file it appends is
   * one of the arguments, paired with the importer its extension selects.
   */
  lemma {:induction false} ImportsAreRecognisedFiles(args: seq<string>, i: nat, p: Parsed)
    ensures var r := ParseFrom(args, i, p);
      r.Success? ==>
        && p.imports <= r.value.imports
        && forall j :: |p.imports| <= j < |r.value.imports| ==>
             r.value.imports[j].1 in args && KindOf(FileExt(r.value.imports[j].1)) == Some(r.value.imports[j].0)
    decreases |args| - i
  {
    if i < |args| {
      var a := Classify(args[i]);
      if a == FileArg {
        ImportsAreRecognisedFiles(args, i + 1, p.(imports := p.imports + Item(args[i])));
      } else if !TakesValue(a) {
        ImportsAreRecognisedFiles(args, i + 1, p.(config := Apply(a, "", p.config)));
      } else if i + 1 < |args| {
        ImportsAreRecognisedFiles(args, i + 2, p.(config := Apply(a, args[i + 1], p.config)));
      }
    }
  }

  /** `f` applied to each element, the results concatenated in order. */
  function FlatMap<T, U>(f: T -> seq<U>, xs: seq<T>): seq<U> {
    if |xs| == 0 then [] else FlatMap(f, xs[..|xs| - 1]) + f(xs[|xs| - 1])
  }

  lemma {:induction false} FlatMapCons<T, U>(f: T -> seq<U>, x: T, xs: seq<T>)
    ensures FlatMap(f, [x] + xs) == f(x) + FlatMap(f, xs)
    decreases |xs|
  {
    if |xs| == 0 {
      assert ([x] + xs)[..0] == [];
    } else {
      var front := xs[..|xs| - 1];
      FlatMapCons(f, x, front);
      var ys := [x] + xs;
      assert ys[..|ys| - 1] == [x] + front;
    }
  }

  lemma FlatMapSuffix<T, U>(f: T -> seq<U>, xs: seq<T>, i: nat)
    requires i < |xs|
    ensures FlatMap(f, xs[i..]) == f(xs[i]) + FlatMap(f, xs[i + 1..])
  {
    assert xs[i..] == [xs[i]] + xs[i + 1..];
    FlatMapCons(f, xs[i], xs[i + 1..]);
  }

  /** The files a list of plain names hands to importers: a filter on the extension. */
  function Recognised(names: seq<string>): seq<(FileKind, string)> {
    FlatMap(Item, names)
  }

  /**
   * Without options, the scan keeps the configuration and imports exactly
   * the recognised files, in order.
   */
  lemma {:induction false} PlainNamesAreFiltered(args: seq<string>, i: nat, p: Parsed)
    requires i <= |args| && forall j :: i <= j < |args| ==> Classify(args[j]) == FileArg
    ensures ParseFrom(args, i, p) == Success(Parsed(p.config, p.imports + Recognised(args[i..])))
    decreases |args| - i
  {
    if i == |args| {
      assert p.imports + [] == p.imports;
    } else {
      var arg := args[i];
      var tail := args[i + 1..];
      var p1 := Parsed(p.config, p.imports + Item(arg));
      PlainNameStep(args, i, p);
      PlainNamesAreFiltered(args, i + 1, p1);
      FlatMapSuffix(Item, args, i);
      ConcatAssoc(p.imports, Item(arg), Recognised(tail));
    }
  }

  lemma PlainNameStep(args: seq<string>, i: nat, p: Parsed)
    requires i < |args| && Classify(args[i]) == FileArg
    ensures ParseFrom(args, i, p) == ParseFrom(args, i + 1, Parsed(p.config, p.imports + Item(args[i])))
  {
  }

  lemma ConcatAssoc<T>(a: seq<T>, b: seq<T>, c: seq<T>)
    ensures (a + b) + c == a + (b + c)
  {
  }

  /** A prefix that scans cleanly to its end can be continued: the scan of `a + b` resumes at `b`. */
  lemma {:induction false} ParseAppend(a: seq<string>, b: seq<string>, i: nat, p: Parsed)
    requires i <= |a| && ParseFrom(a, i, p).Success?
    ensures ParseFrom(a + b, i, p) == ParseFrom(a + b, |a|, ParseFrom(a, i, p).value)
    decreases |a| - i
  {
    if i < |a| {
      var c := Classify(a[i]);
      assert (a + b)[i] == a[i];
      if c == FileArg {
        ParseAppend(a, b, i + 1, p.(imports := p.imports + Item(a[i])));
      } else if !TakesValue(c) {
        ParseAppend(a, b, i + 1, p.(config := Apply(c, "", p.config)));
      } else {
        assert (a + b)[i + 1] == a[i + 1];
        ParseAppend(a, b, i + 2, p.(config := Apply(c, a[i + 1], p.config)));
      }
    }
  }

  /**
   * Appending one option to a cleanly scanned command line: a switch sets
   * its flag and nothing else, a valued option without its value fails,
   * and with its value it sets its field and nothing else.
   */
  lemma AppendOption(a: seq<string>, i: nat, p: Parsed, v: string)
    requires i <= |a| && ParseFrom(a, i, p).Success?
    ensures var q := ParseFrom(a, i, p).value;
      && ParseFrom(a + ["--force-instancing"], i, p) == Success(q.(config := q.config.(forceInstancing := true)))
      && ParseFrom(a + ["--alpha"], i, p) == Success(q.(config := q.config.(alpha := true)))
      && ParseFrom(a + ["--no-default-material"], i, p) == Success(q.(config := q.config.(createDefaultMaterial := false)))
      && ParseFrom(a + ["--max-objects"], i, p) == Failure(MissingValue("--max-objects"))
      && ParseFrom(a + ["--trianglemesh-type"], i, p) == Failure(MissingValue("--trianglemesh-type"))
      && ParseFrom(a + ["--max-objects", v], i, p) == Success(q.(config := q.config.(maxObjects := ToU32(Atoi(v)))))
      && ParseFrom(a + ["--trianglemesh-type", v], i, p) == Success(q.(config := q.config.(geometryType := v)))
  {
    ParseAppend(a, ["--force-instancing"], i, p);
    ParseAppend(a, ["--alpha"], i, p);
    ParseAppend(a, ["--no-default-material"], i, p);
    ParseAppend(a, ["--max-objects"], i, p);
    ParseAppend(a, ["--trianglemesh-type"], i, p);
    ParseAppend(a, ["--max-objects", v], i, p);
    ParseAppend(a, ["--trianglemesh-type", v], i, p);
  }

  /** `--max-objects n` stores `n` for every `n` below 2^32. */
  lemma MaxObjectsValue(prog: string, n: nat)
    requires n < U32
    ensures var r := Parse([prog, "--max-objects", Decimal(n)], "");
      r.Success? && r.value.1.config.maxObjects == n && !r.value.0
  {
    OneValuedOption(prog, Decimal(n));
    AtoiDecimal(n);
  }

  /** `--max-objects -1` wraps round to the default limit. */
  lemma MaxObjectsMinusOne(prog: string)
    ensures var r := Parse([prog, "--max-objects", "-1"], "");
      r.Success? && r.value.1.config.maxObjects == AllObjects
  {
    OneValuedOption(prog, "-1");
    MinusOneValue();
  }

  lemma OneValuedOption(prog: string, v: string)
    ensures Parse([prog, "--max-objects", v], "") ==
      Success((false, Parsed(Initial("").(maxObjects := ToU32(Atoi(v))), [])))
  {
    var args := [prog, "--max-objects", v];
    var p := Parsed(Initial(""), []);
    assert Classify(args[1]) == MaxObjectsOption;
    assert ParseFrom(args, 1, p) == ParseFrom(args, 3, p.(config := Apply(MaxObjectsOption, v, p.config)));
  }

  lemma MinusOneValue()
    ensures ToU32(Atoi("-1")) == AllObjects
  {
    AtoiDecimal(1);
    DecimalOne();
  }

  lemma DecimalOne()
    ensures "-" + Decimal(1) == "-1"
  {
    assert Decimal(1) == ['1'];
  }
}

=== FILE: scene_finalize.dfy ===
/**
 * The decisions `TriangleMeshSceneParser::finalize` takes before building
 * any OSPRay object: whether the scene is instanced, how the object limit
 * cuts the instance and mesh lists, which meshes get their vertices
 * transformed, and which geometries the scene model receives.
 */
module SceneFinalize {
  import opened Wrappers

  /** A miniSG instance: the mesh it places and its transform. */
  datatype Instance<X> = Instance(meshID: nat, xfm: X)

  /**
   * A geometry added to the scene model: mesh `mesh` itself, its vertices
   * transformed by its instance or not, or an OSPRay instance of the model
   * built for mesh `mesh`.
   */
  datatype Geom<X> = MeshGeom(mesh: nat, transformed: bool) | InstanceGeom(mesh: nat, xfm: X)

  /** Instancing is forced, or there are more instances than meshes. */
  function DoesInstancing(force: bool, instances: nat, meshes: nat): (b: bool)
    ensures b ==> force || instances > meshes
    ensures force ==> b
    ensures instances > meshes ==> b
  {
    if force then true
    else if instances > meshes then true
    else false
  }

  /**
   * The object limit: more instances than `maxObjects` cuts the instance
   * list to that length and, when not instancing, resizes the mesh list to
   * it as well.
   */
  function Truncate<X>(instancing: bool, maxObjects: nat, instances: seq<Instance<X>>, meshCount: nat): (r: (seq<Instance<X>>, nat))
    ensures r.0 <= instances
  {
    if |instances| > maxObjects then (instances[..maxObjects], if !instancing then maxObjects else meshCount)
    else (instances, meshCount)
  }

  function Min(a: nat, b: nat): nat {
    if a < b then a else b
  }

  /**
   * With the instancing decision `finalize` takes, the cut keeps the first
   * `min(|instances|, maxObjects)` instances, never grows the mesh list
   * (the resize only shrinks it), leaves the meshes alone when instancing,
   * and without instancing keeps at least as many meshes as instances.
   */
  lemma TruncateShrinks<X>(force: bool, maxObjects: nat, instances: seq<Instance<X>>, meshCount: nat)
    ensures var inst := DoesInstancing(force, |instances|, meshCount);
      var (kept, meshes) := Truncate(inst, maxObjects, instances, meshCount);
      && kept == instances[..Min(|instances|, maxObjects)]
      && meshes <= meshCount
      && (inst ==> meshes == meshCount)
      && (!inst ==> |kept| <= meshes)
  {
  }

  /**
   * The geometries `finalize` adds to the scene model, or `None` where it
   * would read past a list: `instance[i]` for a mesh without an instance,
   * or `instanceModels[meshID]` for an instance of a mesh that was not built.
   */
  function Finalize<X(==)>(force: bool, maxObjects: nat, identity: X, instances: seq<Instance<X>>, meshCount: nat): (r: Option<seq<Geom<X>>>)
    ensures r.Some? ==> |r.value| == Min(|instances|, maxObjects)
    ensures r.Some? ==> forall g :: g in r.value ==> (g.InstanceGeom? <==> DoesInstancing(force, |instances|, meshCount))
  {
    var inst := DoesInstancing(force, |instances|, meshCount);
    var (kept, meshes) := Truncate(inst, maxObjects, instances, meshCount);
    if !inst then
      if meshes > |kept| then None
      else Some(seq(meshes, i requires 0 <= i < meshes && meshes <= |kept| => MeshGeom(i, kept[i] != Instance(i, identity))))
    else if exists j :: 0 <= j < |kept| && kept[j].meshID >= meshes then None
    else Some(seq(|kept|, j requires 0 <= j < |kept| => InstanceGeom(kept[j].meshID, kept[j].xfm)))
  }

  /**
   * `finalize` stays inside its lists exactly when: without instancing,
   * there are not fewer instances than meshes (a cut equalises them); with
   * instancing, every kept instance names a built mesh.
   */
  lemma FinalizeInRange<X>(force: bool, maxObjects: nat, identity: X, instances: seq<Instance<X>>, meshCount: nat)
    ensures var inst := DoesInstancing(force, |instances|, meshCount);
      Finalize(force, maxObjects, identity, instances, meshCount).Some? <==>
        if !inst then |instances| > maxObjects || |instances| == meshCount
        else forall j :: 0 <= j < Min(|instances|, maxObjects) ==> instances[j].meshID < meshCount
  {
    var inst := DoesInstancing(force, |instances|, meshCount);
    TruncateShrinks(force, maxObjects, instances, meshCount);
    if inst {
      var kept := instances[..Min(|instances|, maxObjects)];
      assert forall j :: 0 <= j < |kept| ==> kept[j] == instances[j];
    }
  }

  /**
   * Without instancing, the scene receives the first
   * `min(|instances|, maxObjects)` meshes in order, and mesh `i` is
   * transformed exactly when its instance is not the identity instance of
   * mesh `i`.
   */
  lemma MeshesInOrder<X>(force: bool, maxObjects: nat, identity: X, instances: seq<Instance<X>>, meshCount: nat)
    requires !DoesInstancing(force, |instances|, meshCount)
    requires Finalize(force, maxObjects, identity, instances, meshCount).Some?
    ensures var geoms := Finalize(force, maxObjects, identity, instances, meshCount).value;
      && |geoms| == Min(|instances|, maxObjects)
      && forall i :: 0 <= i < |geoms| ==> geoms[i] == MeshGeom(i, instances[i] != Instance(i, identity))
  {
    TruncateShrinks(force, maxObjects, instances, meshCount);
  }

  /** With instancing, the scene receives one instance geometry per kept instance, in order. */
  lemma InstancesInOrder<X>(force: bool, maxObjects: nat, identity: X, instances: seq<Instance<X>>, meshCount: nat)
    requires DoesInstancing(force, |instances|, meshCount)
    requires Finalize(force, maxObjects, identity, instances, meshCount).Some?
    ensures var geoms := Finalize(force, maxObjects, identity, instances, meshCount).value;
      && |geoms| == Min(|instances|, maxObjects)
      && forall j :: 0 <= j < |geoms| ==> geoms[j] == InstanceGeom(instances[j].meshID, instances[j].xfm)
  {
    TruncateShrinks(force, maxObjects, instances, meshCount);
  }

  /**
   * The importers' usual output, one identity instance per mesh, is
   * never instanced unless forced, stays in range, and transforms nothing.
   */
  lemma IdentityInstancesNotTransformed<X>(maxObjects: nat, identity: X, n: nat)
    ensures var instances := seq(n, i requires 0 <= i < n => Instance(i, identity));
      var m := Min(n, maxObjects);
      Finalize(false, maxObjects, identity, instances, n) == Some(seq(m, i requires 0 <= i < m => MeshGeom(i, false)))
  {
    var instances := seq(n, i requires 0 <= i < n => Instance(i, identity));
    var m := Min(n, maxObjects);
    FinalizeInRange(false, maxObjects, identity, instances, n);
    MeshesInOrder(false, maxObjects, identity, instances, n);
    var geoms := Finalize(false, maxObjects, identity, instances, n).value;
    assert forall i :: 0 <= i < m ==> instances[i] == Instance(i, identity);
    assert geoms == seq(m, i requires 0 <= i < m => MeshGeom(i, false));
  }
}

=== FILE: scene_materials.dfy ===
/**
 * The material side of `TriangleMeshSceneParser`: how `createMaterial`
 * turns a miniSG material's parameters into `set` calls (remapping the
 * Phong exponent `Ns`), how `warnMaterial` reports each unknown material
 * type once, and how `finalize` builds the per-material alpha-map and
 * alpha lists.
 */
module SceneMaterials {
  import opened Wrappers
  import opened StdMap

  /** A miniSG material parameter; a texture parameter holds a possibly null texture. */
  datatype MatParam = IntParam(i: int) | FloatParam(f: real) | Float3Param(x: real, y: real, z: real)
                    | StringParam(s: string) | TextureParam(tex: Option<nat>)

  /** A material's parameter map, ordered by name. */
  type Params = Map<MatParam>

  /**
   * The `Ns` remap: an exponent below 1 becomes `1/(1-f) - 1`, anything
   * else is kept.  Computed in `float` by the parser, over the reals here.
   */
  function NsRemap(f: real): (r: real)
    ensures f < 1.0 ==> r * (1.0 - f) == f
    ensures f >= 1.0 ==> r == f
  {
    if f < 1.0 then 1.0 / (1.0 - f) - 1.0 else f
  }

  /** The remap is `f/(1-f)` below 1: exponents in [0,1) land in [0,∞), negative ones in (-1,0). */
  lemma NsRemapRange(f: real)
    ensures f < 1.0 ==> NsRemap(f) == f / (1.0 - f)
    ensures 0.0 <= f < 1.0 ==> NsRemap(f) >= 0.0
    ensures f < 0.0 ==> -1.0 < NsRemap(f) < 0.0
    ensures f >= 1.0 ==> NsRemap(f) == f
  {
    if f < 1.0 {
      calc {
        1.0 / (1.0 - f) - 1.0;
        1.0 / (1.0 - f) - (1.0 - f) / (1.0 - f);
        f / (1.0 - f);
      }
    }
  }

  /** Every exponent in [0,∞) is reached, from `y/(1+y)`. */
  lemma NsRemapOnto(y: real)
    requires y >= 0.0
    ensures var f := y / (1.0 + y); 0.0 <= f < 1.0 && NsRemap(f) == y
  {
    var f := y / (1.0 + y);
    assert 1.0 - f == 1.0 / (1.0 + y);
    NsRemapRange(f);
  }

  /** The remap keeps the order of exponents below 1. */
  lemma NsRemapMonotone(a: real, b: real)
    requires a < b < 1.0
    ensures NsRemap(a) < NsRemap(b)
  {
    ReciprocalAntitone(1.0 - a, 1.0 - b);
  }

  lemma ReciprocalAntitone(x: real, y: real)
    requires 0.0 < y < x
    ensures 1.0 / x < 1.0 / y
  {
    assert x * (1.0 / x) == 1.0 && y * (1.0 / y) == 1.0;
  }

  /** The `set` call made for one parameter. */
  datatype SetCall = SetInt(name: string, i: int) | SetFloat(name: string, f: real)
                   | SetFloat3(name: string, x: real, y: real, z: real) | SetString(name: string, s: string)
                   | SetTexture(name: string, tex: nat)

  predicate IsNs(name: string) {
    name == "Ns" || name == "ns"
  }

  /** The calls for one parameter; a null texture makes none. */
  function CallsFor(isObj: bool, name: string, p: MatParam): (r: seq<SetCall>)
    ensures |r| <= 1
    ensures |r| == 0 <==> p == TextureParam(None)
    ensures forall c :: c in r ==> c.name == name
    ensures p.IntParam? ==> r == [SetInt(name, p.i)]
    ensures p.FloatParam? && isObj && IsNs(name) && p.f < 1.0 ==> r == [SetFloat(name, p.f / (1.0 - p.f))]
    ensures p.FloatParam? && !(isObj && IsNs(name) && p.f < 1.0) ==> r == [SetFloat(name, p.f)]
    ensures p.Float3Param? ==> r == [SetFloat3(name, p.x, p.y, p.z)]
    ensures p.StringParam? ==> r == [SetString(name, p.s)]
    ensures p.TextureParam? && p.tex.Some? ==> r == [SetTexture(name, p.tex.value)]
  {
    NsRemapRange(if p.FloatParam? then p.f else 0.0);
    match p
    case IntParam(i) => [SetInt(name, i)]
    case FloatParam(f) => [SetFloat(name, if isObj && IsNs(name) then NsRemap(f) else f)]
    case Float3Param(x, y, z) => [SetFloat3(name, x, y, z)]
    case StringParam(s) => [SetString(name, s)]
    case TextureParam(t) => if t.Some? then [SetTexture(name, t.value)] else []
  }

  /** The calls for a parameter list, one parameter after the other. */
  function CallsFold(isObj: bool, entries: seq<(string, MatParam)>): seq<SetCall> {
    if |entries| == 0 then []
    else
      var e := entries[|entries| - 1];
      CallsFold(isObj, entries[..|entries| - 1]) + CallsFor(isObj, e.0, e.1)
  }

  /** The calls for a whole parameter map, in its order. */
  function SetCalls(isObj: bool, entries: seq<(string, MatParam)>): (r: seq<SetCall>)
    ensures |r| <= |entries|
    ensures forall c :: c in r ==> exists i :: 0 <= i < |entries| && entries[i].0 == c.name
    ensures forall i :: 0 <= i < |entries| && entries[i].1 != TextureParam(None) ==>
      CallsFor(isObj, entries[i].0, entries[i].1)[0] in r
  {
    CallsFoldFacts(isObj, entries);
    CallsFold(isObj, entries)
  }

  lemma {:induction false} CallsFoldFacts(isObj: bool, entries: seq<(string, MatParam)>)
    ensures var r := CallsFold(isObj, entries);
      && |r| <= |entries|
      && (forall c :: c in r ==> exists i :: 0 <= i < |entries| && entries[i].0 == c.name)
      && (forall i :: 0 <= i < |entries| && entries[i].1 != TextureParam(None) ==>
            CallsFor(isObj, entries[i].0, entries[i].1)[0] in r)
  {
    if |entries| > 0 {
      var front, e := entries[..|entries| - 1], entries[|entries| - 1];
      CallsFoldFacts(isObj, front);
      var r, rf, last := CallsFold(isObj, entries), CallsFold(isObj, front), CallsFor(isObj, e.0, e.1);
      assert r == rf + last;
      forall c | c in r
        ensures exists i :: 0 <= i < |entries| && entries[i].0 == c.name
      {
        if c in rf {
          var i :| 0 <= i < |front| && front[i].0 == c.name;
          assert entries[i] == front[i];
        } else {
          assert entries[|entries| - 1].0 == c.name;
        }
      }
      forall i | 0 <= i < |entries| && entries[i].1 != TextureParam(None)
        ensures CallsFor(isObj, entries[i].0, entries[i].1)[0] in r
      {
        if i < |front| {
          assert front[i] == entries[i];
        }
      }
    }
  }

  /** The calls for consecutive runs of parameters are the runs' calls, one after the other. */
  lemma {:induction false} CallsFoldAppend(isObj: bool, a: seq<(string, MatParam)>, b: seq<(string, MatParam)>)
    ensures CallsFold(isObj, a + b) == CallsFold(isObj, a) + CallsFold(isObj, b)
    decreases |b|
  {
    if |b| == 0 {
      assert a + b == a;
    } else {
      var b' := b[..|b| - 1];
      assert (a + b)[..|a + b| - 1] == a + b';
      CallsFoldAppend(isObj, a, b');
    }
  }

  lemma SetCallsAppend(isObj: bool, a: seq<(string, MatParam)>, b: seq<(string, MatParam)>)
    ensures SetCalls(isObj, a + b) == SetCalls(isObj, a) + SetCalls(isObj, b)
  {
    CallsFoldAppend(isObj, a, b);
  }

  /** The map's first parameter is set first, then the rest in map order. */
  lemma SetCallsInOrder(isObj: bool, entries: seq<(string, MatParam)>)
    requires |entries| > 0
    ensures SetCalls(isObj, entries) ==
      CallsFor(isObj, entries[0].0, entries[0].1) + SetCalls(isObj, entries[1..])
  {
    var head, rest := [entries[0]], entries[1..];
    assert entries == head + rest;
    CallsFoldAppend(isObj, head, rest);
    assert head[..0] == [];
  }

  /** `getParam("type", "OBJMaterial")`: the material's type name, `OBJMaterial` by default. */
  function MaterialType(params: Params): (t: string)
    ensures t == "OBJMaterial" || Find(params, "type") == Some(StringParam(t))
    ensures Find(params, "type").None? ==> t == "OBJMaterial"
    ensures Find(params, "type").Some? && Find(params, "type").value.StringParam? ==> t == Find(params, "type").value.s
  {
    var p := Find(params, "type");
    if p.Some? && p.value.StringParam? then p.value.s else "OBJMaterial"
  }

  /** What `createMaterial` sets on a material the renderer accepts. */
  function MaterialCalls(params: Params): (r: seq<SetCall>)
    ensures |r| <= |params.entries|
    ensures forall c :: c in r ==> exists i :: 0 <= i < |params.entries| && params.entries[i].0 == c.name
    ensures forall i :: 0 <= i < |params.entries| && params.entries[i].1 != TextureParam(None) ==>
      CallsFor(MaterialType(params) == "OBJMaterial", params.entries[i].0, params.entries[i].1)[0] in r
  {
    SetCalls(MaterialType(params) == "OBJMaterial", params.entries)
  }

  /**
   * Each parameter of the material is sent under its name with its value:
   * the int, the float (for an OBJ material's `Ns`/`ns` below 1, the
   * remapped `f/(1-f)`), the three floats, the string, or the texture.
   */
  lemma MaterialCallsSend(params: Params, i: nat)
    requires i < |params.entries|
    ensures var (name, p) := params.entries[i];
      var isObj := MaterialType(params) == "OBJMaterial";
      var r := MaterialCalls(params);
      && (p.IntParam? ==> SetInt(name, p.i) in r)
      && (p.FloatParam? && isObj && IsNs(name) && p.f < 1.0 ==> SetFloat(name, p.f / (1.0 - p.f)) in r)
      && (p.FloatParam? && !(isObj && IsNs(name) && p.f < 1.0) ==> SetFloat(name, p.f) in r)
      && (p.Float3Param? ==> SetFloat3(name, p.x, p.y, p.z) in r)
      && (p.StringParam? ==> SetString(name, p.s) in r)
      && (p.TextureParam? && p.tex.Some? ==> SetTexture(name, p.tex.value) in r)
  {
  }

  /** Only `Ns`/`ns` differ between an OBJ material and any other type. */
  lemma {:induction false} OnlyNsIsRemapped(entries: seq<(string, MatParam)>)
    requires forall i :: 0 <= i < |entries| ==> !IsNs(entries[i].0)
    ensures SetCalls(true, entries) == SetCalls(false, entries)
  {
    if |entries| > 0 {
      OnlyNsIsRemapped(entries[..|entries| - 1]);
    }
  }

  /**
   * In an OBJ material, every exponent sent as `Ns`/`ns` is non-negative
   * when the stored exponents are: the remap maps [0,1) into [0,∞).
   */
  lemma {:induction false} ObjExponentsNonNegative(entries: seq<(string, MatParam)>)
    requires forall i :: 0 <= i < |entries| && entries[i].1.FloatParam? ==> entries[i].1.f >= 0.0
    ensures forall c :: c in SetCalls(true, entries) && c.SetFloat? ==> c.f >= 0.0
  {
    if |entries| > 0 {
      var e := entries[|entries| - 1];
      ObjExponentsNonNegative(entries[..|entries| - 1]);
      if e.1.FloatParam? {
        NsRemapRange(e.1.f);
      }
    }
  }

  /** How often each type was reported: `numOccurances[type]`, 0 for an unseen type. */
  function Occurrences(counts: Map<int>, t: string): int {
    Find(counts, t).GetOr(0)
  }

  /**
   * `warnMaterial(type)`: prints when the type's count is 0, then counts
   * it.  The result is whether it printed, and the counts afterwards.
   */
  function WarnMaterial(counts: Map<int>, t: string): (r: (bool, Map<int>))
    requires Valid(counts)
    ensures Valid(r.1)
    ensures r.0 <==> Occurrences(counts, t) == 0
    ensures Occurrences(r.1, t) == Occurrences(counts, t) + 1
    ensures forall k :: k != t ==> Find(r.1, k) == Find(counts, k)
  {
    var n := Occurrences(counts, t);
    AssignSpec(counts, t, n + 1);
    (n == 0, Assign(counts, t, n + 1))
  }

  /** A run of `warnMaterial` calls: the types printed, in order, and the counts afterwards. */
  function WarnAll(counts: Map<int>, types: seq<string>): (r: (seq<string>, Map<int>))
    requires Valid(counts)
    ensures Valid(r.1)
    ensures |r.0| <= |types|
    ensures forall t :: t in r.0 ==> t in types
  {
    if |types| == 0 then ([], counts)
    else
      var (printed, c) := WarnAll(counts, types[..|types| - 1]);
      var (now, c2) := WarnMaterial(c, types[|types| - 1]);
      (printed + (if now then [types[|types| - 1]] else []), c2)
  }

  /** Each element at its first occurrence, in order. */
  function Distinct(types: seq<string>): seq<string> {
    if |types| == 0 then []
    else
      var front := types[..|types| - 1];
      var last := types[|types| - 1];
      Distinct(front) + (if last in front then [] else [last])
  }

  /**
   * From a fresh table, each type is printed exactly once, at its first
   * occurrence, and afterwards every type's count is how often it occurred.
   */
  lemma {:induction false} WarnedOnce(types: seq<string>)
    ensures var (printed, counts) := WarnAll(Empty(), types);
      printed == Distinct(types) && forall t :: Occurrences(counts, t) == multiset(types)[t]
  {
    if |types| > 0 {
      var front := types[..|types| - 1];
      var last := types[|types| - 1];
      WarnedOnce(front);
      var c := WarnAll(Empty(), front).1;
      WarnStep(c, types);
    }
  }

  /** One more call: it prints exactly when the type is new, and the counts stay the occurrence counts. */
  lemma WarnStep(c: Map<int>, types: seq<string>)
    requires |types| > 0
    requires Valid(c) && forall t :: Occurrences(c, t) == multiset(types[..|types| - 1])[t]
    ensures var last := types[|types| - 1];
      var (now, c2) := WarnMaterial(c, last);
      (now <==> last !in types[..|types| - 1]) && forall t :: Occurrences(c2, t) == multiset(types)[t]
  {
    var front := types[..|types| - 1];
    var last := types[|types| - 1];
    var (now, c2) := WarnMaterial(c, last);
    assert types == front + [last];
    assert multiset(types) == multiset(front) + multiset{last};
    forall t
      ensures Occurrences(c2, t) == multiset(types)[t]
    {
      if t != last {
        assert Find(c2, t) == Find(c, t);
        assert multiset(types)[t] == multiset(front)[t];
      } else {
        assert Occurrences(c2, t) == Occurrences(c, t) + 1;
        assert Occurrences(c, t) == multiset(front)[t];
        assert multiset(types)[t] == multiset(front)[t] + 1;
      }
    }
  }

  /** The parameter names `finalize` reads as the diffuse map. */
  predicate IsDiffuseMap(name: string) {
    name == "map_kd" || name == "map_Kd"
  }

  /** What one parameter pushes onto the alpha-map list and onto the alpha list. */
  function MapPush(e: (string, MatParam)): seq<Option<nat>> {
    if IsDiffuseMap(e.0) && e.1.TextureParam? then [e.1.tex] else []
  }

  function AlphaPush(e: (string, MatParam)): seq<real> {
    if e.0 == "d" && e.1.FloatParam? then [e.1.f] else []
  }

  function MapPushes(entries: seq<(string, MatParam)>): seq<Option<nat>> {
    if |entries| == 0 then [] else MapPushes(entries[..|entries| - 1]) + MapPush(entries[|entries| - 1])
  }

  function AlphaPushes(entries: seq<(string, MatParam)>): seq<real> {
    if |entries| == 0 then [] else AlphaPushes(entries[..|entries| - 1]) + AlphaPush(entries[|entries| - 1])
  }

  /** The diffuse-map textures of one material, in parameter order, as `finalize` pushes them. */
  function AlphaMapsOf(entries: seq<(string, MatParam)>): (r: seq<Option<nat>>)
    ensures forall j :: 0 <= j < |r| ==> exists i :: 0 <= i < |entries| && IsDiffuseMap(entries[i].0) && entries[i].1 == TextureParam(r[j])
    ensures forall i :: 0 <= i < |entries| && IsDiffuseMap(entries[i].0) && entries[i].1.TextureParam? ==> entries[i].1.tex in r
    ensures |r| <= |entries|
  {
    MapPushesFacts(entries);
    MapPushes(entries)
  }

  /** The `d` (opacity) values of one material, in parameter order. */
  function AlphasOf(entries: seq<(string, MatParam)>): (r: seq<real>)
    ensures forall j :: 0 <= j < |r| ==> exists i :: 0 <= i < |entries| && entries[i] == ("d", FloatParam(r[j]))
    ensures forall i :: 0 <= i < |entries| && entries[i].0 == "d" && entries[i].1.FloatParam? ==> entries[i].1.f in r
    ensures |r| <= |entries|
  {
    AlphaPushesFacts(entries);
    AlphaPushes(entries)
  }

  lemma {:induction false} MapPushesFacts(entries: seq<(string, MatParam)>)
    ensures var r := MapPushes(entries);
      && (forall j :: 0 <= j < |r| ==> exists i :: 0 <= i < |entries| && IsDiffuseMap(entries[i].0) && entries[i].1 == TextureParam(r[j]))
      && (forall i :: 0 <= i < |entries| && IsDiffuseMap(entries[i].0) && entries[i].1.TextureParam? ==> entries[i].1.tex in r)
      && |r| <= |entries|
  {
    if |entries| > 0 {
      var front, e := entries[..|entries| - 1], entries[|entries| - 1];
      MapPushesFacts(front);
      var r, rf := MapPushes(entries), MapPushes(front);
      assert r == rf + MapPush(e);
      forall j | 0 <= j < |r|
        ensures exists i :: 0 <= i < |entries| && IsDiffuseMap(entries[i].0) && entries[i].1 == TextureParam(r[j])
      {
        if j < |rf| {
          var i :| 0 <= i < |front| && IsDiffuseMap(front[i].0) && front[i].1 == TextureParam(rf[j]);
          assert entries[i] == front[i];
        } else {
          assert entries[|entries| - 1] == e;
        }
      }
      forall i | 0 <= i < |entries| && IsDiffuseMap(entries[i].0) && entries[i].1.TextureParam?
        ensures entries[i].1.tex in r
      {
        if i < |front| {
          assert front[i] == entries[i];
        }
      }
    }
  }

  lemma {:induction false} AlphaPushesFacts(entries: seq<(string, MatParam)>)
    ensures var r := AlphaPushes(entries);
      && (forall j :: 0 <= j < |r| ==> exists i :: 0 <= i < |entries| && entries[i] == ("d", FloatParam(r[j])))
      && (forall i :: 0 <= i < |entries| && entries[i].0 == "d" && entries[i].1.FloatParam? ==> entries[i].1.f in r)
      && |r| <= |entries|
  {
    if |entries| > 0 {
      var front, e := entries[..|entries| - 1], entries[|entries| - 1];
      AlphaPushesFacts(front);
      var r, rf := AlphaPushes(entries), AlphaPushes(front);
      assert r == rf + AlphaPush(e);
      forall j | 0 <= j < |r|
        ensures exists i :: 0 <= i < |entries| && entries[i] == ("d", FloatParam(r[j]))
      {
        if j < |rf| {
          var i :| 0 <= i < |front| && front[i] == ("d", FloatParam(rf[j]));
          assert entries[i] == front[i];
        } else {
          assert entries[|entries| - 1] == e;
        }
      }
      forall i | 0 <= i < |entries| && entries[i].0 == "d" && entries[i].1.FloatParam?
        ensures entries[i].1.f in r
      {
        if i < |front| {
          assert front[i] == entries[i];
        }
      }
    }
  }

  /** Both pushes keep parameter order: consecutive runs of parameters push their entries one after the other. */
  lemma {:induction false} PushesAppend(a: seq<(string, MatParam)>, b: seq<(string, MatParam)>)
    ensures MapPushes(a + b) == MapPushes(a) + MapPushes(b)
    ensures AlphaPushes(a + b) == AlphaPushes(a) + AlphaPushes(b)
    decreases |b|
  {
    if |b| == 0 {
      assert a + b == a;
    } else {
      var b' := b[..|b| - 1];
      assert (a + b)[..|a + b| - 1] == a + b';
      PushesAppend(a, b');
    }
  }

  lemma AlphaPushesAppend(a: seq<(string, MatParam)>, b: seq<(string, MatParam)>)
    ensures AlphaMapsOf(a + b) == AlphaMapsOf(a) + AlphaMapsOf(b)
    ensures AlphasOf(a + b) == AlphasOf(a) + AlphasOf(b)
  {
    PushesAppend(a, b);
  }

  /** `while (materialList.size() > list.size()) list.push_back(x)`. */
  function Pad<T>(s: seq<T>, n: nat, x: T): (r: seq<T>)
    ensures s <= r && |r| == (if |s| < n then n else |s|)
    ensures forall i :: |s| <= i < |r| ==> r[i] == x
  {
    if |s| < n then s + seq(n - |s|, _ => x) else s
  }

  /**
   * The alpha-map and alpha lists as `finalize` builds them: after each
   * material's own entries are pushed, both lists are padded to the number
   * of materials so far.
   */
  function AlphaListsAsWritten(mats: seq<Params>): (r: (seq<Option<nat>>, seq<real>))
    ensures |r.0| >= |mats| && |r.1| >= |mats|
  {
    if |mats| == 0 then ([], [])
    else
      var (maps, alphas) := AlphaListsAsWritten(mats[..|mats| - 1]);
      var m := mats[|mats| - 1];
      (Pad(maps + AlphaMapsOf(m.entries), |mats|, None), Pad(alphas + AlphasOf(m.entries), |mats|, 0.0))
  }

  /** The first non-null entry, or null when there is none. */
  function FirstSome<T>(s: seq<Option<T>>): (r: Option<T>)
    ensures r.Some? ==> r in s
    ensures r.None? <==> forall j :: 0 <= j < |s| ==> s[j].None?
  {
    if |s| == 0 then None
    else if s[0].Some? then s[0]
    else FirstSome(s[1..])
  }

  /** One material's alpha map: its first non-null diffuse-map texture, or null. */
  function AlphaMap(m: Params): Option<nat> {
    FirstSome(MapPushes(m.entries))
  }

  /** One material's alpha: its `d` value, or 0. */
  function Alpha(m: Params): real {
    var ds := AlphaPushes(m.entries);
    if |ds| == 0 then 0.0 else ds[0]
  }

  /** The lists as intended: entry `i` of each belongs to material `i`. */
  function AlphaLists(mats: seq<Params>): (r: (seq<Option<nat>>, seq<real>))
    ensures |r.0| == |mats| && |r.1| == |mats|
    ensures forall i :: 0 <= i < |mats| && |AlphasOf(mats[i].entries)| == 0 ==> r.1[i] == 0.0
  {
    PerMaterial(mats)
  }

  function PerMaterial(mats: seq<Params>): (seq<Option<nat>>, seq<real>) {
    (seq(|mats|, i requires 0 <= i < |mats| => AlphaMap(mats[i])),
     seq(|mats|, i requires 0 <= i < |mats| => Alpha(mats[i])))
  }

  /** At most one diffuse-map texture and one `d` entry. */
  predicate SingleAlphaSources(m: Params) {
    |AlphaMapsOf(m.entries)| <= 1 && |AlphasOf(m.entries)| <= 1
  }

  /**
   * The intended lists are aligned with the materials: one entry each; the
   * map is a diffuse-map texture of that material, and is non-null whenever
   * the material has a non-null diffuse map; the alpha is the material's
   * `d` value, or 0 when it has none.
   */
  lemma AlphaListsAligned(mats: seq<Params>)
    ensures var (maps, alphas) := AlphaLists(mats);
      && |maps| == |mats| && |alphas| == |mats|
      && (forall i :: 0 <= i < |mats| && maps[i].Some? ==>
            exists j :: 0 <= j < |mats[i].entries| && IsDiffuseMap(mats[i].entries[j].0) &&
              mats[i].entries[j].1 == TextureParam(maps[i]))
      && (forall i :: 0 <= i < |mats| && alphas[i] != 0.0 ==>
            exists j :: 0 <= j < |mats[i].entries| && mats[i].entries[j] == ("d", FloatParam(alphas[i])))
      && (forall i :: 0 <= i < |mats| && HasNonNullDiffuseMap(mats[i]) ==> maps[i].Some?)
      && (forall i :: 0 <= i < |mats| && Valid(mats[i]) && Find(mats[i], "d").Some? && Find(mats[i], "d").value.FloatParam? ==>
            alphas[i] == Find(mats[i], "d").value.f)
  {
    var (maps, alphas) := AlphaLists(mats);
    forall i | 0 <= i < |mats| && maps[i].Some?
      ensures exists j :: 0 <= j < |mats[i].entries| && IsDiffuseMap(mats[i].entries[j].0) &&
                mats[i].entries[j].1 == TextureParam(maps[i])
    {
      assert |AlphaMapsOf(mats[i].entries)| > 0;
    }
    forall i | 0 <= i < |mats| && alphas[i] != 0.0
      ensures exists j :: 0 <= j < |mats[i].entries| && mats[i].entries[j] == ("d", FloatParam(alphas[i]))
    {
      assert |AlphasOf(mats[i].entries)| > 0;
    }
    forall i | 0 <= i < |mats| && HasNonNullDiffuseMap(mats[i])
      ensures maps[i].Some?
    {
      NonNullDiffuseMapKept(mats[i]);
    }
    forall i | 0 <= i < |mats| && Valid(mats[i]) && Find(mats[i], "d").Some? && Find(mats[i], "d").value.FloatParam?
      ensures alphas[i] == Find(mats[i], "d").value.f
    {
      StoredAlphaKept(mats[i]);
    }
  }

  /** Some `map_kd`/`map_Kd` parameter holds a non-null texture. */
  predicate HasNonNullDiffuseMap(m: Params) {
    exists j :: 0 <= j < |m.entries| && IsDiffuseMap(m.entries[j].0) && m.entries[j].1.TextureParam? && m.entries[j].1.tex.Some?
  }

  lemma NonNullDiffuseMapKept(m: Params)
    requires HasNonNullDiffuseMap(m)
    ensures AlphaMap(m).Some?
  {
    var j :| 0 <= j < |m.entries| && IsDiffuseMap(m.entries[j].0) && m.entries[j].1.TextureParam? && m.entries[j].1.tex.Some?;
    var ts := AlphaMapsOf(m.entries);
    assert m.entries[j].1.tex in ts;
  }

  lemma StoredAlphaKept(m: Params)
    requires Valid(m) && Find(m, "d").Some? && Find(m, "d").value.FloatParam?
    ensures Alpha(m) == Find(m, "d").value.f
  {
    var x := Find(m, "d").value.f;
    var k :| 0 <= k < |m.entries| && m.entries[k] == ("d", FloatParam(x));
    var ds := AlphasOf(m.entries);
    assert x in ds;
    AlphasOfValidMap(m);
    assert ds == [x];
  }

  /**
   * While every material contributes at most one entry to each list, the
   * padding keeps both lists aligned, and `finalize`'s lists are the
   * intended ones.
   */
  lemma {:induction false} AsWrittenAlignedWhenSingle(mats: seq<Params>)
    requires forall i :: 0 <= i < |mats| ==> SingleAlphaSources(mats[i])
    ensures AlphaListsAsWritten(mats) == AlphaLists(mats)
  {
    if |mats| > 0 {
      var front := mats[..|mats| - 1];
      var m := mats[|mats| - 1];
      AsWrittenAlignedWhenSingle(front);
      var (maps, alphas) := AlphaListsAsWritten(front);
      assert SingleAlphaSources(m);
      PadOne(maps, AlphaMapsOf(m.entries), None);
      PadOne(alphas, AlphasOf(m.entries), 0.0);
      AlphaListsSnoc(mats);
    } else {
      var r := AlphaLists(mats);
      assert |r.0| == 0 && |r.1| == 0;
    }
  }

  /** Padding after at most one push appends exactly one element. */
  lemma PadOne<T>(s: seq<T>, extra: seq<T>, x: T)
    requires |extra| <= 1
    ensures Pad(s + extra, |s| + 1, x) == s + [if |extra| == 0 then x else extra[0]]
  {
  }

  lemma AlphaListsSnoc(mats: seq<Params>)
    requires |mats| > 0
    ensures var m := mats[|mats| - 1];
      var front := AlphaLists(mats[..|mats| - 1]);
      AlphaLists(mats) == (front.0 + [AlphaMap(m)], front.1 + [Alpha(m)])
  {
    var m := mats[|mats| - 1];
    var fm := mats[..|mats| - 1];
    var front := PerMaterial(fm);
    var all := PerMaterial(mats);
    forall i | 0 <= i < |all.0|
      ensures all.0[i] == (front.0 + [AlphaMap(m)])[i] && all.1[i] == (front.1 + [Alpha(m)])[i]
    {
      assert all.0[i] == AlphaMap(mats[i]) && all.1[i] == Alpha(mats[i]);
      if i < |fm| {
        assert fm[i] == mats[i];
        assert front.0[i] == AlphaMap(fm[i]) && front.1[i] == Alpha(fm[i]);
      }
    }
    assert all.0 == front.0 + [AlphaMap(m)];
    assert all.1 == front.1 + [Alpha(m)];
  }

  /** A `d` parameter has a unique name, so the alpha list never overruns. */
  lemma {:induction false} AlphasOfValidMap(m: Params)
    requires Valid(m)
    ensures |AlphasOf(m.entries)| <= 1
    decreases |m.entries|
  {
    var es := m.entries;
    if |es| > 0 {
      var front := es[..|es| - 1];
      assert Valid(Map(front));
      AlphasOfValidMap(Map(front));
      if es[|es| - 1].0 == "d" {
        NoKeyNoAlphas(front, es[|es| - 1].0, es);
      }
    }
  }

  lemma {:induction false} NoKeyNoAlphas(front: seq<(string, MatParam)>, last: string, es: seq<(string, MatParam)>)
    requires last == "d" && |es| > 0 && front == es[..|es| - 1] && es[|es| - 1].0 == last
    requires forall i, j :: 0 <= i < j < |es| ==> StrLess(es[i].0, es[j].0)
    ensures AlphasOf(front) == []
  {
    if |AlphasOf(front)| > 0 {
      var i :| 0 <= i < |front| && front[i] == ("d", FloatParam(AlphasOf(front)[0]));
      assert StrLess(es[i].0, es[|es| - 1].0);
      StrLessIrreflexive("d");
      assert false;
    }
  }

  /** A material with both `map_Kd` and `map_kd` textures, and one with `map_Kd` only. */
  function TwoMapMaterial(): Params {
    Map([("map_Kd", TextureParam(Some(1))), ("map_kd", TextureParam(Some(2)))])
  }

  function OneMapMaterial(): Params {
    Map([("map_Kd", TextureParam(Some(3)))])
  }

  lemma MapKdBeforeMapkd()
    ensures StrLess("map_Kd", "map_kd")
  {
    var a, b := "map_Kd", "map_kd";
    assert a[..4] == b[..4] && a[4] == 'K' && b[4] == 'k';
    assert a[1..][1..][1..][1..][0] == 'K';
  }

  lemma WitnessMaterialsValid()
    ensures Valid(TwoMapMaterial()) && Valid(OneMapMaterial())
  {
    MapKdBeforeMapkd();
  }

  lemma WitnessAlphaMaps()
    ensures AlphaMapsOf(TwoMapMaterial().entries) == [Some(1), Some(2)]
    ensures AlphaMapsOf(OneMapMaterial().entries) == [Some(3)]
  {
    var es := TwoMapMaterial().entries;
    assert es[..1] == [es[0]];
    assert AlphaMapsOf(es[..1]) == [Some(1)];
  }

  lemma WitnessIntendedMaps()
    ensures AlphaLists([TwoMapMaterial(), OneMapMaterial()]).0 == [Some(1), Some(3)]
  {
    var es, es2 := TwoMapMaterial().entries, OneMapMaterial().entries;
    assert es[..1] == [es[0]] && es[..1][..0] == [] && es2[..0] == [];
    assert MapPushes(es[..1]) == [Some(1)];
    assert MapPushes(es) == [Some(1), Some(2)];
    assert MapPushes(es2) == [Some(3)];
    assert FirstSome([Some(1), Some(2)]) == Some(1);
    assert FirstSome([Some(3)]) == Some(3);
    var mats := [TwoMapMaterial(), OneMapMaterial()];
    var intended := PerMaterial(mats).0;
    assert intended[0] == Some(1) && intended[1] == Some(3);
  }

  /**
   * A material carrying both spellings of the diffuse map pushes two
   * alpha maps, so every later material's map sits one slot too far: the
   * second material's map lands at index 2 and index 1 holds the first
   * material's second texture.
   */
  lemma DoubleDiffuseMapShiftsAlphaMaps()
    ensures Valid(TwoMapMaterial()) && Valid(OneMapMaterial())
    ensures var mats := [TwoMapMaterial(), OneMapMaterial()];
      var maps := AlphaListsAsWritten(mats).0;
      && |maps| == 3 && maps[1] == Some(2) && maps[2] == Some(3)
      && AlphaLists(mats).0 == [Some(1), Some(3)]
  {
    WitnessMaterialsValid();
    WitnessAlphaMaps();
    var mats := [TwoMapMaterial(), OneMapMaterial()];
    assert mats[..1] == [TwoMapMaterial()];
    var first := AlphaListsAsWritten(mats[..1]).0;
    assert [TwoMapMaterial()][..0] == [];
    assert first == Pad([] + [Some(1), Some(2)], 1, None);
    assert first == [Some(1), Some(2)];
    WitnessIntendedMaps();
  }
}

=== FILE: sg_importer.dfy ===
/**
 * The scene graph's importer table (`declareImporterForFileExtension`,
 * `importFile`): importers are chosen by file extension, and an unknown
 * extension raises an error.
 */
module SgImporter {
  import opened Wrappers
  import opened StdMap
  import opened Registry
  import opened Names
  import VolumeFileLoader

  /**
   * With a dot, the extension is the volume loader's type; without one, the
   * loader uses the whole name while the importer table uses the empty string.
   */
  lemma ExtVersusVolumeType(fileName: string)
    requires |fileName| < VolumeFileLoader.Npos
    ensures '.' in fileName ==> FileExt(fileName) == VolumeFileLoader.TypeOf(fileName)
    ensures '.' !in fileName ==> FileExt(fileName) == "" && VolumeFileLoader.TypeOf(fileName) == fileName
  {
  }

  /** `declareImporterForFileExtension`: overwrites any earlier importer. */
  function DeclareImporter(table: Reg, ext: string, importer: Creator): (r: Reg)
    requires Valid(table)
    ensures Valid(r) && Find(r, ext) == Some(Some(importer))
    ensures forall k :: k != ext ==> Find(r, k) == Find(table, k)
  {
    Register(table, ext, importer)
  }

  /** What `importFile` does: call an importer on the file and world, or throw. */
  datatype ImportResult = Imported(importer: Creator, fileName: string, world: nat) | Threw(message: string)

  /** The text of the error for an unknown extension. */
  function UnknownFormat(fileName: string): string {
    "unknown file format (fileName was '" + fileName + "')"
  }

  /**
   * `importFile(world, fileName)`: `importerForExtension[ext]` default-inserts
   * a null importer for an unknown extension, then the importer is called
   * or the error thrown.
   */
  function ImportFile(table: Reg, world: nat, fileName: string): (r: (ImportResult, Reg))
    requires Valid(table)
    ensures var ext := FileExt(fileName);
      && Valid(r.1) && HasKey(r.1, ext)
      && (HasKey(table, ext) ==> r.1 == table)
      && (!HasKey(table, ext) ==> Find(r.1, ext) == Some(None))
      && (forall k :: k != ext ==> Find(r.1, k) == Find(table, k))
    ensures r.0.Imported? <==> Find(table, FileExt(fileName)).Some? && Find(table, FileExt(fileName)).value.Some?
    ensures r.0.Imported? ==> r.0 == Imported(Find(table, FileExt(fileName)).value.value, fileName, world)
    ensures r.0.Threw? ==> r.0.message == UnknownFormat(fileName)
  {
    var ext := FileExt(fileName);
    var found := Find(table, ext);
    AssignSpec(table, ext, None);
    var table' := if found.Some? then table else Assign(table, ext, None);
    var importer := if found.Some? then found.value else None;
    match importer
    case Some(f) => (Imported(f, fileName, world), table')
    case None => (Threw(UnknownFormat(fileName)), table')
  }

  /**
   * An unknown extension keeps failing, leaving a null entry behind, until an
   * importer is declared for it; then the same call imports with it.
   */
  lemma UnknownExtensionUntilDeclared(table: Reg, world: nat, fileName: string, importer: Creator)
    requires Valid(table) && !HasKey(table, FileExt(fileName))
    ensures var (r1, t1) := ImportFile(table, world, fileName);
      var (r2, t2) := ImportFile(t1, world, fileName);
      r1 == Threw(UnknownFormat(fileName)) && r2 == r1 && t2 == t1 &&
      ImportFile(DeclareImporter(t1, FileExt(fileName), importer), world, fileName).0 == Imported(importer, fileName, world)
  {
  }
}

=== FILE: std_map.dfy ===
/**
 * `std::map<std::string, V>` as the registries use it: an association list
 * kept strictly sorted by key under `std::string`'s lexicographic order, so
 * iteration visits the keys in ascending order.
 */
module StdMap {
  import opened Wrappers

  /** `std::string`'s `operator<`: lexicographic on characters, a proper prefix first. */
  predicate StrLess(a: string, b: string)
    decreases |a|
  {
    if |b| == 0 then false
    else if |a| == 0 then true
    else a[0] < b[0] || (a[0] == b[0] && StrLess(a[1..], b[1..]))
  }

  lemma {:induction false} StrLessIrreflexive(a: string)
    ensures !StrLess(a, a)
    decreases |a|
  {
    if |a| > 0 {
      StrLessIrreflexive(a[1..]);
    }
  }

  lemma {:induction false} StrLessTransitive(a: string, b: string, c: string)
    requires StrLess(a, b) && StrLess(b, c)
    ensures StrLess(a, c)
    decreases |a|
  {
    if |a| > 0 && a[0] == b[0] && b[0] == c[0] {
      StrLessTransitive(a[1..], b[1..], c[1..]);
    }
  }

  lemma {:induction false} StrLessTotal(a: string, b: string)
    ensures a == b || StrLess(a, b) || StrLess(b, a)
    decreases |a|
  {
    if |a| > 0 && |b| > 0 && a[0] == b[0] {
      StrLessTotal(a[1..], b[1..]);
      if a[1..] == b[1..] {
        assert a == [a[0]] + a[1..] && b == [b[0]] + b[1..];
      }
    }
  }

  /** The map's entries, ascending and without duplicate keys. */
  datatype Map<V> = Map(entries: seq<(string, V)>)

  predicate Valid<V>(m: Map<V>) {
    forall i, j :: 0 <= i < j < |m.entries| ==> StrLess(m.entries[i].0, m.entries[j].0)
  }

  function Empty<V>(): (m: Map<V>)
    ensures Valid(m) && Keys(m) == []
  {
    Map([])
  }

  /** `begin()..end()`: the keys in iteration order. */
  function Keys<V>(m: Map<V>): (ks: seq<string>)
    ensures |ks| == |m.entries| && forall i :: 0 <= i < |ks| ==> ks[i] == m.entries[i].0
  {
    seq(|m.entries|, i requires 0 <= i < |m.entries| => m.entries[i].0)
  }

  predicate HasKey<V>(m: Map<V>, k: string) {
    exists i :: 0 <= i < |m.entries| && m.entries[i].0 == k
  }

  /** `find(k)`: the value stored under `k`, or `None` for `end()`. */
  function Find<V>(m: Map<V>, k: string): (r: Option<V>)
    ensures r.Some? <==> HasKey(m, k)
    ensures r.Some? ==> exists i :: 0 <= i < |m.entries| && m.entries[i] == (k, r.value)
    decreases |m.entries|
  {
    if |m.entries| == 0 then None
    else if m.entries[0].0 == k then Some(m.entries[0].1)
    else
      var r := Find(Map(m.entries[1..]), k);
      assert HasKey(Map(m.entries[1..]), k) ==> HasKey(m, k) by {
        if HasKey(Map(m.entries[1..]), k) {
          var i :| 0 <= i < |m.entries| - 1 && m.entries[1..][i].0 == k;
          assert m.entries[i + 1].0 == k;
        }
      }
      assert r.Some? ==> exists i :: 0 <= i < |m.entries| && m.entries[i] == (k, r.value) by {
        if r.Some? {
          var i :| 0 <= i < |m.entries| - 1 && m.entries[1..][i] == (k, r.value);
          assert m.entries[i + 1] == (k, r.value);
        }
      }
      r
  }

  /** `count(k)`: 0 or 1. */
  function Count<V>(m: Map<V>, k: string): (n: nat)
    ensures n <= 1 && (n == 1 <==> HasKey(m, k))
  {
    if Find(m, k).Some? then 1 else 0
  }

  /** `m[k] = v`: overwrite or insert at the key's place in the order. */
  function Assign<V>(m: Map<V>, k: string, v: V): (r: Map<V>)
    ensures 0 < |r.entries| <= |m.entries| + 1
    ensures !HasKey(m, k) ==> |r.entries| == |m.entries| + 1
    decreases |m.entries|
  {
    if |m.entries| == 0 then Map([(k, v)])
    else if m.entries[0].0 == k then Map([(k, v)] + m.entries[1..])
    else if StrLess(k, m.entries[0].0) then Map([(k, v)] + m.entries)
    else Map([m.entries[0]] + Assign(Map(m.entries[1..]), k, v).entries)
  }

  /** Every key of `Assign(m, k, v)` is `k` or a key of `m`, and its first key is `k` or `m`'s first. */
  lemma {:induction false} AssignKeys<V>(m: Map<V>, k: string, v: V)
    ensures forall i :: 0 <= i < |Assign(m, k, v).entries| ==>
      Assign(m, k, v).entries[i].0 == k || HasKey(m, Assign(m, k, v).entries[i].0)
    ensures |Assign(m, k, v).entries| > 0
    ensures Assign(m, k, v).entries[0].0 == k || (|m.entries| > 0 && Assign(m, k, v).entries[0].0 == m.entries[0].0)
    decreases |m.entries|
  {
    if |m.entries| > 0 && m.entries[0].0 != k && !StrLess(k, m.entries[0].0) {
      var tail := Map(m.entries[1..]);
      AssignKeys(tail, k, v);
      var r := Assign(m, k, v);
      forall i | 0 <= i < |r.entries|
        ensures r.entries[i].0 == k || HasKey(m, r.entries[i].0)
      {
        if i > 0 {
          assert r.entries[i] == Assign(tail, k, v).entries[i - 1];
          if HasKey(tail, r.entries[i].0) {
            var j :| 0 <= j < |tail.entries| && tail.entries[j].0 == r.entries[i].0;
            assert m.entries[j + 1].0 == r.entries[i].0;
          }
        }
      }
    }
  }

  /**
   * `m[k] = v` keeps the map sorted, stores `v` under `k`, leaves every
   * other key's value alone, and adds `k` to the keys.
   */
  lemma {:induction false} AssignSpec<V>(m: Map<V>, k: string, v: V)
    requires Valid(m)
    ensures Valid(Assign(m, k, v))
    ensures Find(Assign(m, k, v), k) == Some(v)
    ensures forall k2 :: k2 != k ==> Find(Assign(m, k, v), k2) == Find(m, k2)
    decreases |m.entries|
  {
    if |m.entries| == 0 {
      return;
    }
    var h := m.entries[0];
    if h.0 == k {
      AssignAtHead(m, k, v);
    } else if StrLess(k, h.0) {
      AssignBeforeHead(m, k, v);
    } else {
      AssignSpec(Map(m.entries[1..]), k, v);
      AssignAfterHead(m, k, v);
    }
  }

  /** Overwriting the first key. */
  lemma AssignAtHead<V>(m: Map<V>, k: string, v: V)
    requires Valid(m) && |m.entries| > 0 && m.entries[0].0 == k
    ensures Valid(Assign(m, k, v))
    ensures Find(Assign(m, k, v), k) == Some(v)
    ensures forall k2 :: k2 != k ==> Find(Assign(m, k, v), k2) == Find(m, k2)
  {
    var r := Assign(m, k, v);
    assert r.entries[1..] == m.entries[1..];
    forall k2 | k2 != k
      ensures Find(r, k2) == Find(m, k2)
    {
      assert Map(r.entries[1..]) == Map(m.entries[1..]);
    }
  }

  /** Inserting a key smaller than every key of the map. */
  lemma AssignBeforeHead<V>(m: Map<V>, k: string, v: V)
    requires Valid(m) && |m.entries| > 0 && StrLess(k, m.entries[0].0)
    ensures Valid(Assign(m, k, v))
    ensures Find(Assign(m, k, v), k) == Some(v)
    ensures forall k2 :: k2 != k ==> Find(Assign(m, k, v), k2) == Find(m, k2)
  {
    StrLessIrreflexive(k);
    var h := m.entries[0];
    var r := Assign(m, k, v);
    assert r.entries == [(k, v)] + m.entries;
    forall i, j | 0 <= i < j < |r.entries|
      ensures StrLess(r.entries[i].0, r.entries[j].0)
    {
      if i == 0 && j > 1 {
        StrLessTransitive(k, h.0, r.entries[j].0);
      }
    }
    assert Map(r.entries[1..]) == m;
  }

  /** Inserting past the first key, given what the insertion does to the rest. */
  lemma AssignAfterHead<V>(m: Map<V>, k: string, v: V)
    requires Valid(m) && |m.entries| > 0 && m.entries[0].0 != k && !StrLess(k, m.entries[0].0)
    requires var rt := Assign(Map(m.entries[1..]), k, v);
      Valid(rt) && Find(rt, k) == Some(v) &&
      forall k2 :: k2 != k ==> Find(rt, k2) == Find(Map(m.entries[1..]), k2)
    ensures Valid(Assign(m, k, v))
    ensures Find(Assign(m, k, v), k) == Some(v)
    ensures forall k2 :: k2 != k ==> Find(Assign(m, k, v), k2) == Find(m, k2)
  {
    var tail := Map(m.entries[1..]);
    var r := Assign(m, k, v);
    var rt := Assign(tail, k, v);
    assert r.entries == [m.entries[0]] + rt.entries;
    assert Map(r.entries[1..]) == rt;
    AfterHeadSorted(m, k, v);
    forall k2 | k2 != k
      ensures Find(r, k2) == Find(m, k2)
    {
    }
  }

  /** The first key stays below every key of the insertion into the rest, so the result stays sorted. */
  lemma AfterHeadSorted<V>(m: Map<V>, k: string, v: V)
    requires Valid(m) && |m.entries| > 0 && m.entries[0].0 != k && !StrLess(k, m.entries[0].0)
    requires Valid(Assign(Map(m.entries[1..]), k, v))
    ensures Valid(Assign(m, k, v))
  {
    var h := m.entries[0];
    var tail := Map(m.entries[1..]);
    var r := Assign(m, k, v);
    AssignKeys(tail, k, v);
    var rt := Assign(tail, k, v);
    assert r.entries == [h] + rt.entries;
    StrLessTotal(k, h.0);
    forall j | 0 < j < |r.entries|
      ensures StrLess(h.0, r.entries[j].0)
    {
      var key := r.entries[j].0;
      assert key == rt.entries[j - 1].0;
      if key != k {
        var j2 :| 0 <= j2 < |tail.entries| && tail.entries[j2].0 == key;
        assert m.entries[j2 + 1].0 == key;
      }
    }
    forall i, j | 0 <= i < j < |r.entries|
      ensures StrLess(r.entries[i].0, r.entries[j].0)
    {
      if i > 0 {
        assert r.entries[i] == rt.entries[i - 1] && r.entries[j] == rt.entries[j - 1];
      }
    }
  }

  /** The keys of a valid map are strictly ascending, and they are exactly the map's keys. */
  lemma KeysSorted<V>(m: Map<V>)
    requires Valid(m)
    ensures forall i, j :: 0 <= i < j < |Keys(m)| ==> StrLess(Keys(m)[i], Keys(m)[j])
    ensures forall k :: k in Keys(m) <==> HasKey(m, k)
  {
    forall k | HasKey(m, k)
      ensures k in Keys(m)
    {
      var i :| 0 <= i < |m.entries| && m.entries[i].0 == k;
      assert Keys(m)[i] == k;
    }
  }
}

=== FILE: transfer_function.dfy ===
/** `TransferFunction`'s registry (`createTransferFunction`, `registerTransferFunction`). */
module TransferFunctionFactory {
  import opened Wrappers
  import opened StdMap
  import opened Registry
  import CameraFactory

  const SymbolPrefix := "ospray_create_transfer_function__"

  /**
   * `createTransferFunction(type)`: a present non-null creator is used
   * directly; an absent or null entry is looked up again on every call.
   */
  function CreateTransferFunction(reg: Reg, typ: string, env: Env): (o: Outcome)
    requires Valid(reg)
    ensures Valid(o.reg) && HasKey(o.reg, typ) && o.libraries == []
    ensures o.lookups == (if Find(reg, typ).Some? && Find(reg, typ).value.Some? then [] else [SymbolPrefix + typ])
    ensures o.lookups != [] ==> Find(o.reg, typ) == Some(env.getSymbol(SymbolPrefix + typ))
    ensures forall k :: k != typ ==> Find(o.reg, k) == Find(reg, k)
    ensures MadeByStored(o, typ, env, TransferFunctionType)
  {
    CreateRetryingNull(reg, typ, SymbolPrefix + typ, env, TransferFunctionType)
  }

  function RegisterTransferFunction(reg: Reg, typ: string, c: Creator): (r: Reg)
    requires Valid(reg)
    ensures Valid(r) && Find(r, typ) == Some(Some(c))
    ensures forall k :: k != typ ==> Find(r, k) == Find(reg, k)
  {
    Register(reg, typ, c)
  }

  /**
   * After a failed first lookup, a transfer function type recovers as soon
   * as the loader finds its creator; a camera type stays null.
   */
  lemma NullEntryRetriedUnlikeCamera(reg: Reg, typ: string, env: Env, env2: Env)
    requires Valid(reg) && !HasKey(reg, typ)
    requires env.getSymbol(SymbolPrefix + typ).None? && env.getSymbol(CameraFactory.SymbolPrefix + typ).None?
    requires env2.getSymbol(SymbolPrefix + typ).Some? && env2.invoke(env2.getSymbol(SymbolPrefix + typ).value).Some?
    ensures var o := CreateTransferFunction(reg, typ, env);
      CreateTransferFunction(o.reg, typ, env2).obj.Some?
    ensures var o := CameraFactory.CreateCamera(reg, typ, env);
      CameraFactory.CreateCamera(o.reg, typ, env2).obj.None?
  {
    RetriedNullRecovers(reg, typ, SymbolPrefix + typ, env, env2, TransferFunctionType);
    CachedNullSticks(reg, typ, CameraFactory.SymbolPrefix + typ, env, env2, CameraType);
  }
}

=== FILE: triangle_pairs.dfy ===
/**
 * `createPrimRefArrayTrianglePairs` (mesh and scene): a count pass, then an
 * emit pass over the same chunks.  Inside one chunk the loop walks the
 * triangles left to right; a valid triangle whose successor in the same
 * chunk is valid and shares an edge with it is merged with that successor
 * into one reference (flag bit clear, bounds of both); any other valid
 * triangle gets a reference of its own with bit 31 of the geometry id set.
 */
module TrianglePairs {
  import opened Wrappers
  import opened Geometry
  import opened PrimRefGen

  /** Bit 31 of the stored geometry id: set on references that hold a single triangle. */
  const UnpairedFlag: bv32 := 0x8000_0000

  /** The stored geometry id of a single-triangle reference. */
  function Unpaired(geomID: bv32): bv32 { geomID | UnpairedFlag }

  /**
   * One triangle as the pairing loop sees it: its geometry id and primitive
   * index, `valid(j,&bounds)`, and whether `sharedEdge(triangle(j), triangle(j+1))`
   * found an edge (false for the last triangle of its mesh).
   */
  datatype TriItem = TriItem(geomID: bv32, primID: nat, bounds: Option<Bounds>, sharesNext: bool)

  /** The triangle at `j` is valid and may be merged with its successor inside the chunk ending at `hi`. */
  predicate Pairable(items: seq<TriItem>, j: nat, hi: nat)
    requires j < hi <= |items|
  {
    j + 1 < hi && items[j + 1].bounds.Some? && items[j].sharesNext
  }

  /** The count pass: one per reference the emit pass will write for [j, hi). */
  function PairCount(items: seq<TriItem>, j: nat, hi: nat): nat
    requires j <= hi <= |items|
    decreases hi - j
  {
    if j == hi then 0
    else if items[j].bounds.None? then PairCount(items, j + 1, hi)
    else if Pairable(items, j, hi) then 1 + PairCount(items, j + 2, hi)
    else 1 + PairCount(items, j + 1, hi)
  }

  /** The emit pass: the references written for [j, hi), in order. */
  function Pairs(items: seq<TriItem>, j: nat, hi: nat): seq<PrimRef>
    requires j <= hi <= |items|
    decreases hi - j
  {
    if j == hi then []
    else if items[j].bounds.None? then Pairs(items, j + 1, hi)
    else
      var t := items[j];
      if Pairable(items, j, hi) then
        [PrimRef(Union(t.bounds.value, items[j + 1].bounds.value), t.geomID, t.primID)] + Pairs(items, j + 2, hi)
      else
        [PrimRef(t.bounds.value, Unpaired(t.geomID), t.primID)] + Pairs(items, j + 1, hi)
  }

  /** The count pass counts exactly what the emit pass writes (the source's closing assertion). */
  lemma {:induction false} CountMatchesEmit(items: seq<TriItem>, j: nat, hi: nat)
    requires j <= hi <= |items|
    ensures |Pairs(items, j, hi)| == PairCount(items, j, hi)
    decreases hi - j
  {
    if j < hi {
      if items[j].bounds.None? {
        CountMatchesEmit(items, j + 1, hi);
      } else if Pairable(items, j, hi) {
        CountMatchesEmit(items, j + 2, hi);
      } else {
        CountMatchesEmit(items, j + 1, hi);
      }
    }
  }

  /** Which triangles one reference stands for: one position, or a position and its successor. */
  datatype Slot = Single(pos: nat) | Pair(pos: nat)

  function LastPos(s: Slot): nat {
    if s.Pair? then s.pos + 1 else s.pos
  }

  predicate Covers(s: Slot, i: nat) {
    s.pos == i || (s.Pair? && s.pos + 1 == i)
  }

  /** The slots of [j, hi), by the same walk as `Pairs`. */
  function Slots(items: seq<TriItem>, j: nat, hi: nat): seq<Slot>
    requires j <= hi <= |items|
    decreases hi - j
  {
    if j == hi then []
    else if items[j].bounds.None? then Slots(items, j + 1, hi)
    else if Pairable(items, j, hi) then [Pair(j)] + Slots(items, j + 2, hi)
    else [Single(j)] + Slots(items, j + 1, hi)
  }

  /** A slot of the chunk ending at `hi` that the walk may produce: its triangles valid, a pair only where pairable, a single only where not. */
  predicate SlotOk(items: seq<TriItem>, s: Slot, hi: nat)
    requires hi <= |items|
  {
    && LastPos(s) < hi
    && items[s.pos].bounds.Some?
    && (s.Pair? <==> Pairable(items, s.pos, hi))
  }

  /** The reference a slot produces. */
  function SlotRef(items: seq<TriItem>, s: Slot, hi: nat): PrimRef
    requires hi <= |items| && SlotOk(items, s, hi)
  {
    var t := items[s.pos];
    match s
    case Single(p) => PrimRef(t.bounds.value, Unpaired(t.geomID), t.primID)
    case Pair(p) => PrimRef(Union(t.bounds.value, items[p + 1].bounds.value), t.geomID, t.primID)
  }

  /**
   * The walk's slots lie in [j, hi), are admissible, and come in strictly
   * increasing order without overlap.
   */
  lemma {:induction false} SlotsShape(items: seq<TriItem>, j: nat, hi: nat)
    requires j <= hi <= |items|
    ensures forall k :: 0 <= k < |Slots(items, j, hi)| ==>
      j <= Slots(items, j, hi)[k].pos && SlotOk(items, Slots(items, j, hi)[k], hi)
    ensures forall a, b :: 0 <= a < b < |Slots(items, j, hi)| ==>
      LastPos(Slots(items, j, hi)[a]) < Slots(items, j, hi)[b].pos
    decreases hi - j
  {
    if j < hi {
      if items[j].bounds.None? {
        SlotsShape(items, j + 1, hi);
      } else if Pairable(items, j, hi) {
        SlotsShape(items, j + 2, hi);
      } else {
        SlotsShape(items, j + 1, hi);
      }
    }
  }

  /** Every valid triangle of [j, hi) is covered by some slot. */
  lemma {:induction false} ValidCovered(items: seq<TriItem>, j: nat, hi: nat, i: nat)
    requires j <= i < hi <= |items| && items[i].bounds.Some?
    ensures exists k :: 0 <= k < |Slots(items, j, hi)| && Covers(Slots(items, j, hi)[k], i)
    decreases hi - j
  {
    var s := Slots(items, j, hi);
    if i == j {
      assert Covers(s[0], i);
    } else if items[j].bounds.None? {
      assert s == Slots(items, j + 1, hi);
      ValidCovered(items, j + 1, hi, i);
    } else {
      var next := if Pairable(items, j, hi) then j + 2 else j + 1;
      var first := if Pairable(items, j, hi) then Pair(j) else Single(j);
      var rest := Slots(items, next, hi);
      assert s == [first] + rest;
      if i < next {
        assert Covers(s[0], i);
      } else {
        ValidCovered(items, next, hi, i);
        var k :| 0 <= k < |rest| && Covers(rest[k], i);
        assert s[k + 1] == rest[k];
        assert Covers(s[k + 1], i);
      }
    }
  }

  /** Every triangle of [j, hi) is covered by some slot exactly when it is valid. */
  lemma SlotsCover(items: seq<TriItem>, j: nat, hi: nat, i: nat)
    requires j <= i < hi <= |items|
    ensures items[i].bounds.Some? <==>
      exists k :: 0 <= k < |Slots(items, j, hi)| && Covers(Slots(items, j, hi)[k], i)
  {
    var s := Slots(items, j, hi);
    if items[i].bounds.Some? {
      ValidCovered(items, j, hi, i);
    } else {
      SlotsShape(items, j, hi);
      forall k | 0 <= k < |s|
        ensures !Covers(s[k], i)
      {
        assert SlotOk(items, s[k], hi);
      }
    }
  }

  /** No valid triangle is covered twice: two slots that cover the same position are the same slot. */
  lemma CoveredOnce(items: seq<TriItem>, j: nat, hi: nat, a: nat, b: nat, i: nat)
    requires j <= hi <= |items|
    requires a < |Slots(items, j, hi)| && b < |Slots(items, j, hi)|
    requires Covers(Slots(items, j, hi)[a], i) && Covers(Slots(items, j, hi)[b], i)
    ensures a == b
  {
    SlotsShape(items, j, hi);
  }

  /** The emitted references are exactly the slots' references, one per slot, in slot order. */
  lemma {:induction false} PairsAreSlotRefs(items: seq<TriItem>, j: nat, hi: nat)
    requires j <= hi <= |items|
    ensures |Pairs(items, j, hi)| == |Slots(items, j, hi)|
    ensures forall k :: 0 <= k < |Slots(items, j, hi)| ==>
      SlotOk(items, Slots(items, j, hi)[k], hi) && Pairs(items, j, hi)[k] == SlotRef(items, Slots(items, j, hi)[k], hi)
    decreases hi - j
  {
    SlotsShape(items, j, hi);
    if j < hi {
      if items[j].bounds.None? {
        PairsAreSlotRefs(items, j + 1, hi);
      } else {
        var next := if Pairable(items, j, hi) then j + 2 else j + 1;
        var first := if Pairable(items, j, hi) then Pair(j) else Single(j);
        PairsAreSlotRefs(items, next, hi);
        var S, P := Slots(items, j, hi), Pairs(items, j, hi);
        var S', P' := Slots(items, next, hi), Pairs(items, next, hi);
        assert S == [first] + S';
        assert P == [SlotRef(items, first, hi)] + P';
        forall k | 0 <= k < |S|
          ensures SlotOk(items, S[k], hi) && P[k] == SlotRef(items, S[k], hi)
        {
          if k > 0 {
            assert S[k] == S'[k - 1] && P[k] == P'[k - 1];
          }
        }
      }
    }
  }

  /**
   * For geometry ids below 2^31 the stored id decodes back: its low 31 bits
   * are the geometry id, and bit 31 is set exactly on single-triangle references.
   */
  lemma DecodeSlotRef(items: seq<TriItem>, s: Slot, hi: nat)
    requires hi <= |items| && SlotOk(items, s, hi) && items[s.pos].geomID < UnpairedFlag
    ensures SlotRef(items, s, hi).geomID & 0x7fff_ffff == items[s.pos].geomID
    ensures (SlotRef(items, s, hi).geomID & UnpairedFlag == 0) <==> s.Pair?
    ensures SlotRef(items, s, hi).primID == items[s.pos].primID
  {
  }

  /** One task of the count pass: count the references of [lo, hi). */
  method CountChunk(items: seq<TriItem>, lo: nat, hi: nat) returns (n: nat)
    requires lo <= hi <= |items|
    ensures n == PairCount(items, lo, hi)
  {
    n := 0;
    var j := lo;
    while j < hi
      invariant lo <= j <= hi
      invariant n + PairCount(items, j, hi) == PairCount(items, lo, hi)
      decreases hi - j
    {
      if items[j].bounds.Some? {
        n := n + 1;
        if j + 1 < hi {
          if items[j + 1].bounds.Some? && items[j].sharesNext {
            j := j + 1;
          }
        }
      }
      j := j + 1;
    }
  }

  /** One iteration of the emit loop at a valid triangle: the reference it writes and where the walk resumes. */
  method EmitOne(items: seq<TriItem>, j: nat, hi: nat) returns (r: PrimRef, next: nat)
    requires j < hi <= |items| && items[j].bounds.Some?
    ensures j < next <= hi
    ensures Pairs(items, j, hi) == [r] + Pairs(items, next, hi)
  {
    var t := items[j];
    if j + 1 < hi && items[j + 1].bounds.Some? && t.sharesNext {
      assert Pairable(items, j, hi);
      r := PrimRef(Union(t.bounds.value, items[j + 1].bounds.value), t.geomID, t.primID);
      next := j + 2;
    } else {
      assert !Pairable(items, j, hi);
      r := PrimRef(t.bounds.value, Unpaired(t.geomID), t.primID);
      next := j + 1;
    }
  }

  /** One task of the emit pass: write the references of [lo, hi) from `k` on and summarise them. */
  method EmitChunk(items: seq<TriItem>, lo: nat, hi: nat, prims: seq<PrimRef>, k: nat)
    returns (part: PrimInfo, out: seq<PrimRef>)
    requires lo <= hi <= |items| && k + |Pairs(items, lo, hi)| <= |prims|
    ensures part == InfoOf(Pairs(items, lo, hi), RefBounds)
    ensures out == Write(prims, k, Pairs(items, lo, hi))
  {
    part := EmptyInfo;
    out := prims;
    ghost var emitted: seq<PrimRef> := [];
    var kk := k;
    var j := lo;
    while j < hi
      invariant lo <= j <= hi
      invariant Pairs(items, lo, hi) == emitted + Pairs(items, j, hi)
      invariant kk == k + |emitted|
      invariant part == InfoOf(emitted, RefBounds)
      invariant out == Write(prims, k, emitted)
      decreases hi - j
    {
      if items[j].bounds.Some? {
        part, out, emitted, j := EmitAt(items, hi, prims, k, j, Pairs(items, lo, hi), emitted, part, out, kk);
        kk := kk + 1;
      } else {
        SkipInvalid(items, j, hi);
        j := j + 1;
      }
    }
    EmitDone(items, lo, hi, emitted, j);
  }

  lemma SkipInvalid(items: seq<TriItem>, j: nat, hi: nat)
    requires j < hi <= |items| && items[j].bounds.None?
    ensures Pairs(items, j, hi) == Pairs(items, j + 1, hi)
  {
  }

  lemma EmitDone(items: seq<TriItem>, lo: nat, hi: nat, emitted: seq<PrimRef>, j: nat)
    requires lo <= j == hi <= |items| && Pairs(items, lo, hi) == emitted + Pairs(items, j, hi)
    ensures Pairs(items, lo, hi) == emitted
  {
    assert Pairs(items, j, hi) == [];
  }

  /** The emit loop's step at a valid triangle: one reference written at `kk`, accounted for and remembered. */
  method EmitAt(items: seq<TriItem>, hi: nat, prims: seq<PrimRef>, k: nat, j: nat, ghost total: seq<PrimRef>,
                ghost emitted: seq<PrimRef>, part: PrimInfo, out: seq<PrimRef>, kk: nat)
    returns (part': PrimInfo, out': seq<PrimRef>, ghost emitted': seq<PrimRef>, j': nat)
    requires j < hi <= |items| && items[j].bounds.Some?
    requires k + |total| <= |prims| && kk == k + |emitted|
    requires total == emitted + Pairs(items, j, hi)
    requires part == InfoOf(emitted, RefBounds) && out == Write(prims, k, emitted)
    ensures j < j' <= hi && |emitted'| == |emitted| + 1
    ensures total == emitted' + Pairs(items, j', hi)
    ensures part' == InfoOf(emitted', RefBounds) && out' == Write(prims, k, emitted')
  {
    var r;
    r, j' := EmitOne(items, j, hi);
    assert total == emitted + [r] + Pairs(items, j', hi);
    part', out', emitted' := Put(prims, k, RefBounds, emitted, part, out, kk, r);
  }

  /** The references of all chunks up to the last cut, chunk after chunk. */
  function ChunkedPairs(items: seq<TriItem>, cuts: seq<nat>): seq<PrimRef>
    requires Chunking(cuts, |items|)
    decreases |cuts|
  {
    if |cuts| == 1 then []
    else
      var c := |cuts| - 2;
      ChunkedPairs(items, cuts[..|cuts| - 1]) + Pairs(items, cuts[c], cuts[c + 1])
  }

  /** The count pass's total over the chunks up to the last cut. */
  function ChunkedCount(items: seq<TriItem>, cuts: seq<nat>): nat
    requires Chunking(cuts, |items|)
    decreases |cuts|
  {
    if |cuts| == 1 then 0
    else
      var c := |cuts| - 2;
      ChunkedCount(items, cuts[..|cuts| - 1]) + PairCount(items, cuts[c], cuts[c + 1])
  }

  lemma {:induction false} ChunkedCountMatches(items: seq<TriItem>, cuts: seq<nat>)
    requires Chunking(cuts, |items|)
    ensures ChunkedCount(items, cuts) == |ChunkedPairs(items, cuts)|
    decreases |cuts|
  {
    if |cuts| > 1 {
      var c := |cuts| - 2;
      ChunkedCountMatches(items, cuts[..|cuts| - 1]);
      CountMatchesEmit(items, cuts[c], cuts[c + 1]);
    }
  }

  /** Earlier chunks' references are a prefix of the whole output. */
  lemma {:induction false} ChunkedPrefix(items: seq<TriItem>, cuts: seq<nat>, c: nat)
    requires Chunking(cuts, |items|) && c < |cuts|
    ensures |ChunkedPairs(items, cuts[..c + 1])| <= |ChunkedPairs(items, cuts)|
    ensures ChunkedPairs(items, cuts)[..|ChunkedPairs(items, cuts[..c + 1])|] == ChunkedPairs(items, cuts[..c + 1])
    decreases |cuts|
  {
    if c + 1 == |cuts| {
      assert cuts[..c + 1] == cuts;
    } else {
      var cuts' := cuts[..|cuts| - 1];
      assert cuts'[..c + 1] == cuts[..c + 1];
      ChunkedPrefix(items, cuts', c);
    }
  }

  lemma ChunkedStep(items: seq<TriItem>, cuts: seq<nat>, c: nat)
    requires Chunking(cuts, |items|) && c + 1 < |cuts|
    ensures ChunkedPairs(items, cuts[..c + 2]) == ChunkedPairs(items, cuts[..c + 1]) + Pairs(items, cuts[c], cuts[c + 1])
    ensures ChunkedCount(items, cuts[..c + 2]) == ChunkedCount(items, cuts[..c + 1]) + PairCount(items, cuts[c], cuts[c + 1])
  {
    var p := cuts[..c + 2];
    assert p[..|p| - 1] == cuts[..c + 1];
    assert p[|p| - 2] == cuts[c] && p[|p| - 1] == cuts[c + 1];
  }

  /** Pairs never span a chunk boundary: a merged reference's two triangles lie in one chunk. */
  lemma NoPairAcrossCut(items: seq<TriItem>, cuts: seq<nat>, c: nat, k: nat)
    requires IsPartition(cuts, |items|) && c + 1 < |cuts|
    requires k < |Slots(items, cuts[c], cuts[c + 1])|
    ensures var s := Slots(items, cuts[c], cuts[c + 1])[k];
      cuts[c] <= s.pos && LastPos(s) < cuts[c + 1]
  {
    SlotsShape(items, cuts[c], cuts[c + 1]);
  }

  /** The count pass over all chunks: the size of the array the emit pass fills. */
  method CountPass(items: seq<TriItem>, cuts: seq<nat>) returns (numPrimitives: nat)
    requires IsPartition(cuts, |items|)
    ensures numPrimitives == |ChunkedPairs(items, cuts)|
  {
    numPrimitives := 0;
    var c := 0;
    while c < |cuts| - 1
      invariant 0 <= c <= |cuts| - 1
      invariant numPrimitives == ChunkedCount(items, cuts[..c + 1])
    {
      var n := CountChunk(items, cuts[c], cuts[c + 1]);
      ChunkedStep(items, cuts, c);
      numPrimitives := numPrimitives + n;
      c := c + 1;
    }
    assert cuts[..|cuts|] == cuts;
    ChunkedCountMatches(items, cuts);
  }

  /** The emit pass over all chunks: chunk c writes from the number of references of the chunks before it. */
  method EmitPass(items: seq<TriItem>, cuts: seq<nat>, prims: seq<PrimRef>)
    returns (info: PrimInfo, out: seq<PrimRef>)
    requires IsPartition(cuts, |items|) && |prims| == |ChunkedPairs(items, cuts)|
    ensures out == ChunkedPairs(items, cuts)
    ensures info == InfoOf(out, RefBounds)
  {
    out := prims;
    info := EmptyInfo;
    var c := 0;
    assert cuts[..1] == [0];
    while c < |cuts| - 1
      invariant 0 <= c <= |cuts| - 1
      invariant |out| == |prims|
      invariant |ChunkedPairs(items, cuts[..c + 1])| <= |prims|
      invariant out[..|ChunkedPairs(items, cuts[..c + 1])|] == ChunkedPairs(items, cuts[..c + 1])
      invariant info == InfoOf(ChunkedPairs(items, cuts[..c + 1]), RefBounds)
    {
      ghost var done := ChunkedPairs(items, cuts[..c + 1]);
      ghost var chunk := Pairs(items, cuts[c], cuts[c + 1]);
      InfoOfCount(done, RefBounds);
      ChunkedStep(items, cuts, c);
      ChunkedPrefix(items, cuts, c + 1);
      ghost var before := out;
      var part;
      part, out := EmitChunk(items, cuts[c], cuts[c + 1], out, info.count);
      WriteAfterPrefix(before, done, chunk);
      InfoOfAppend(done, chunk, RefBounds);
      info := Merge(info, part);
      c := c + 1;
    }
    assert cuts[..|cuts|] == cuts;
  }

  /**
   * `createPrimRefArrayTrianglePairs`: the count pass sizes the array, the
   * emit pass fills it completely with every chunk's references in chunk
   * order, and the summary counts exactly the array.
   */
  method CreatePairRefArray(items: seq<TriItem>, cuts: seq<nat>)
    returns (info: PrimInfo, prims: seq<PrimRef>, numPrimitives: nat)
    requires IsPartition(cuts, |items|)
    ensures numPrimitives == |prims| == info.count
    ensures prims == ChunkedPairs(items, cuts)
    ensures info == InfoOf(prims, RefBounds)
  {
    numPrimitives := CountPass(items, cuts);
    var filler := PrimRef(Bounds(Vec3(0.0, 0.0, 0.0), Vec3(0.0, 0.0, 0.0)), 0, 0);
    prims := seq(numPrimitives, _ => filler);
    info, prims := EmitPass(items, cuts, prims);
    InfoOfCount(prims, RefBounds);
  }

  /**
   * A triangle mesh for pairing: per triangle, `valid(j,&bounds)` and whether
   * `sharedEdge(triangle(j), triangle(j+1))` finds an edge.
   */
  datatype Tri = Tri(bounds: Option<Bounds>, sharesEdgeWithNext: bool)

  datatype TriMesh = TriMesh(id: bv32, tris: seq<Tri>)

  /** The mesh's triangles as the loop sees them: the last triangle has no successor to share an edge with. */
  function MeshItems(m: TriMesh): (r: seq<TriItem>)
    ensures |r| == |m.tris|
    ensures forall j :: 0 <= j < |r| ==> r[j].geomID == m.id && r[j].primID == j && r[j].bounds == m.tris[j].bounds
    ensures forall j :: 0 <= j < |r| ==> (r[j].sharesNext <==> j + 1 < |r| && m.tris[j].sharesEdgeWithNext)
  {
    seq(|m.tris|, j requires 0 <= j < |m.tris| =>
      TriItem(m.id, j, m.tris[j].bounds, j + 1 < |m.tris| && m.tris[j].sharesEdgeWithNext))
  }

  /** The scene's triangles, mesh after mesh (the iterator's global index space). */
  function SceneItems(meshes: seq<TriMesh>): seq<TriItem> {
    if |meshes| == 0 then [] else SceneItems(meshes[..|meshes| - 1]) + MeshItems(meshes[|meshes| - 1])
  }

  lemma {:induction false} SceneItemsLastAlone(meshes: seq<TriMesh>)
    requires |SceneItems(meshes)| > 0
    ensures !SceneItems(meshes)[|SceneItems(meshes)| - 1].sharesNext
  {
    var last := meshes[|meshes| - 1];
    if |last.tris| == 0 {
      assert SceneItems(meshes) == SceneItems(meshes[..|meshes| - 1]);
      SceneItemsLastAlone(meshes[..|meshes| - 1]);
    }
  }

  /** In the scene's index space a triangle only ever shares with the next triangle of its own mesh. */
  lemma {:induction false} SceneSharingStaysInMesh(meshes: seq<TriMesh>, p: nat)
    requires p + 1 < |SceneItems(meshes)| && SceneItems(meshes)[p].sharesNext
    ensures SceneItems(meshes)[p + 1].geomID == SceneItems(meshes)[p].geomID
    ensures SceneItems(meshes)[p + 1].primID == SceneItems(meshes)[p].primID + 1
  {
    var ms := meshes[..|meshes| - 1];
    var a := SceneItems(ms);
    var b := MeshItems(meshes[|meshes| - 1]);
    assert SceneItems(meshes) == a + b;
    if p + 1 < |a| {
      SceneSharingStaysInMesh(ms, p);
    } else if p + 1 == |a| {
      SceneItemsLastAlone(ms);
      assert false;
    } else {
      assert SceneItems(meshes)[p] == b[p - |a|] && SceneItems(meshes)[p + 1] == b[p + 1 - |a|];
    }
  }

  /** A merged scene reference stands for two consecutive triangles of one mesh. */
  lemma ScenePairsInOneMesh(meshes: seq<TriMesh>, cuts: seq<nat>, c: nat, k: nat)
    requires IsPartition(cuts, |SceneItems(meshes)|) && c + 1 < |cuts|
    requires k < |Slots(SceneItems(meshes), cuts[c], cuts[c + 1])|
    requires Slots(SceneItems(meshes), cuts[c], cuts[c + 1])[k].Pair?
    ensures var items, p := SceneItems(meshes), Slots(SceneItems(meshes), cuts[c], cuts[c + 1])[k].pos;
      p + 1 < |items| && items[p + 1].geomID == items[p].geomID && items[p + 1].primID == items[p].primID + 1
  {
    var items := SceneItems(meshes);
    SlotsShape(items, cuts[c], cuts[c + 1]);
    var p := Slots(items, cuts[c], cuts[c + 1])[k].pos;
    SceneSharingStaysInMesh(meshes, p);
  }

  /** `createPrimRefArrayTrianglePairs(mesh, prims, ...)`: the pairing over one mesh's triangles. */
  method CreateMeshPairRefArray(mesh: TriMesh, cuts: seq<nat>)
    returns (info: PrimInfo, prims: seq<PrimRef>)
    requires IsPartition(cuts, |mesh.tris|)
    ensures prims == ChunkedPairs(MeshItems(mesh), cuts)
    ensures info == InfoOf(prims, RefBounds) && info.count == |prims|
  {
    var n;
    info, prims, n := CreatePairRefArray(MeshItems(mesh), cuts);
  }

  /** `createPrimRefArrayTrianglePairs<Mesh,timeSteps>(scene, prims, ...)`: the pairing over the scene's index space. */
  method CreateScenePairRefArray(meshes: seq<TriMesh>, cuts: seq<nat>)
    returns (info: PrimInfo, prims: seq<PrimRef>)
    requires IsPartition(cuts, |SceneItems(meshes)|)
    ensures prims == ChunkedPairs(SceneItems(meshes), cuts)
    ensures info == InfoOf(prims, RefBounds) && info.count == |prims|
  {
    var n;
    info, prims, n := CreatePairRefArray(SceneItems(meshes), cuts);
  }
}

=== FILE: volume.dfy ===
/** `Volume`'s registry (`createVolume`, `registerVolume`) and its base-class answers. */
module VolumeFactory {
  import opened Wrappers
  import opened StdMap
  import opened Registry

  const SymbolPrefix := "ospray_create_volume__"

  /**
   * `createVolume(type)`: the symbol is looked up only when the key is
   * absent (`count == 0`); then whatever the registry holds is invoked.
   */
  function CreateVolume(reg: Reg, typ: string, env: Env): (o: Outcome)
    requires Valid(reg)
    ensures Valid(o.reg) && HasKey(o.reg, typ) && o.libraries == []
    ensures o.lookups == (if Count(reg, typ) == 0 then [SymbolPrefix + typ] else [])
    ensures Count(reg, typ) == 0 ==> Find(o.reg, typ) == Some(env.getSymbol(SymbolPrefix + typ))
    ensures Count(reg, typ) != 0 ==> o.reg == reg
    ensures forall k :: k != typ ==> Find(o.reg, k) == Find(reg, k)
    ensures MadeByStored(o, typ, env, VolumeType)
  {
    var symbol := SymbolPrefix + typ;
    var c := env.getSymbol(symbol);
    AssignSpec(reg, typ, c);
    var reg1 := if Count(reg, typ) == 0 then Assign(reg, typ, c) else reg;
    var lookups := if Count(reg, typ) == 0 then [symbol] else [];
    Outcome(Invoke(env, Find(reg1, typ).value, VolumeType), reg1, lookups, [])
  }

  /** Written as a `count` test, the volume factory is the path that caches null answers. */
  lemma CreateVolumeCachesNull(reg: Reg, typ: string, env: Env)
    requires Valid(reg)
    ensures CreateVolume(reg, typ, env) == CreateCachingNull(reg, typ, SymbolPrefix + typ, env, VolumeType)
  {
    AssignSpec(reg, typ, env.getSymbol(SymbolPrefix + typ));
  }

  /** Hence a type whose lookup failed keeps yielding null, with no further lookup. */
  lemma FailedVolumeTypeStaysNull(reg: Reg, typ: string, env: Env, env2: Env)
    requires Valid(reg) && !HasKey(reg, typ) && env.getSymbol(SymbolPrefix + typ).None?
    ensures var o := CreateVolume(reg, typ, env);
      o.obj.None? && CreateVolume(o.reg, typ, env2).obj.None? && CreateVolume(o.reg, typ, env2).lookups == []
  {
    CreateVolumeCachesNull(reg, typ, env);
    var o := CreateVolume(reg, typ, env);
    CreateVolumeCachesNull(o.reg, typ, env2);
    CachedNullSticks(reg, typ, SymbolPrefix + typ, env, env2, VolumeType);
  }

  function RegisterVolume(reg: Reg, typ: string, c: Creator): (r: Reg)
    requires Valid(reg)
    ensures Valid(r) && Find(r, typ) == Some(Some(c))
    ensures forall k :: k != typ ==> Find(r, k) == Find(reg, k)
  {
    Register(reg, typ, c)
  }

  /** The base class keeps its data local and names itself `ospray::Volume`. */
  function IsDataDistributed(): bool { false }

  function ToString(): string { "ospray::Volume" }
}

=== FILE: volume_file.dfy ===
/**
 * The volume file loader's registry (`VolumeFile::registerVolume`,
 * `VolumeFile::importVolume`): the importer is chosen by the file name's
 * extension and looked up in a loaded library on a miss.
 */
module VolumeFileLoader {
  import opened Wrappers
  import opened StdMap
  import opened Registry
  import opened Names

  const SymbolPrefix := "ospray_import_volume_file_"

  /** 2^64, the modulus of `size_t` arithmetic. */
  const SizeT: int := 0x1_0000_0000_0000_0000

  /** `std::string::npos`, the largest `size_t`. */
  const Npos: int := SizeT - 1

  /** `find_last_of(c)` on a string shorter than `npos`: a position, or `npos`. */
  function FindLastOf(s: string, c: char): (pos: int)
    requires |s| < Npos
    ensures pos == Npos <==> c !in s
    ensures pos != Npos ==> 0 <= pos < |s| && s[pos] == c && c !in s[pos + 1..]
  {
    match LastIndexOf(s, c)
    case None => Npos
    case Some(i) => i
  }

  /**
   * `filename.substr(filename.find_last_of(".") + 1)`: the `+ 1` wraps
   * `npos` round to 0, so a name without a dot is its own type.  The
   * length bound is `std::string`'s `max_size`, which is below `npos`.
   */
  function TypeOf(filename: string): (t: string)
    requires |filename| < Npos
    ensures '.' !in t
    ensures |t| <= |filename| && t == filename[|filename| - |t|..]
    ensures '.' !in filename ==> t == filename
    ensures '.' in filename ==> |t| < |filename| && filename[|filename| - |t| - 1] == '.'
  {
    var start := (FindLastOf(filename, '.') + 1) % SizeT;
    filename[start..]
  }

  /** A name with a dot is its type's prefix, a dot, and the type. */
  lemma TypeOfRoundTrip(filename: string)
    requires |filename| < Npos && '.' in filename
    ensures var t := TypeOf(filename);
      filename == filename[..|filename| - |t| - 1] + "." + t
  {
    var t := TypeOf(filename);
    assert filename == filename[..|filename| - |t| - 1] + [filename[|filename| - |t| - 1]] + filename[|filename| - |t|..];
  }

  /**
   * The loader, the path resolver and the importers: `importWith(c, path, v)`
   * runs importer `c` on `path` with the volume handle `v` (null allowed).
   */
  datatype LoaderEnv = LoaderEnv(getSymbol: string -> Option<Creator>, fullPath: string -> string,
                                 importWith: (Creator, string, Option<nat>) -> Option<nat>)

  /** The returned volume, the registry afterwards, the symbols looked up, and the warning printed, if any. */
  datatype ImportOutcome = ImportOutcome(volume: Option<nat>, reg: Reg, lookups: seq<string>, warning: Option<string>)

  function RegisterVolume(reg: Reg, typ: string, c: Creator): (r: Reg)
    requires Valid(reg)
    ensures Valid(r) && Find(r, typ) == Some(Some(c))
    ensures forall k :: k != typ ==> Find(r, k) == Find(reg, k)
  {
    Register(reg, typ, c)
  }

  /**
   * `importVolume(filename, volume)`: a present non-null importer is called
   * on the full path; otherwise the symbol is looked up (again, for a null
   * entry), stored, and called if found, with a warning if not.
   */
  function ImportVolume(reg: Reg, filename: string, volume: Option<nat>, env: LoaderEnv): (o: ImportOutcome)
    requires Valid(reg) && |filename| < Npos
    ensures var t := TypeOf(filename);
      var stored := Find(o.reg, t);
      && Valid(o.reg) && stored.Some?
      && o.lookups == (if Find(reg, t).Some? && Find(reg, t).value.Some? then [] else [SymbolPrefix + t])
      && (forall k :: k != t ==> Find(o.reg, k) == Find(reg, k))
      && (o.volume.Some? ==> stored.value.Some?)
      && (stored.value.Some? ==> o.volume == env.importWith(stored.value.value, env.fullPath(filename), volume))
      && (o.warning.Some? <==> stored.value.None?)
      && (o.warning.Some? ==> o.warning.value == "unrecognized file type '" + t + "'.")
  {
    var full := env.fullPath(filename);
    var t := TypeOf(filename);
    var found := Find(reg, t);
    if found.Some? && found.value.Some? then
      ImportOutcome(env.importWith(found.value.value, full, volume), reg, [], None)
    else
      var symbol := SymbolPrefix + t;
      var c := env.getSymbol(symbol);
      AssignSpec(reg, t, c);
      var reg' := Assign(reg, t, c);
      var warning := if c.None? then Some("unrecognized file type '" + t + "'.") else None;
      var v := if c.Some? then env.importWith(c.value, full, volume) else None;
      ImportOutcome(v, reg', [symbol], warning)
  }

  /**
   * The registry side of `importVolume` is the path that retries null
   * entries, keyed by the file's type.
   */
  lemma ImportVolumeRetriesNull(reg: Reg, filename: string, volume: Option<nat>, env: LoaderEnv, invoke: Creator -> Option<nat>)
    requires Valid(reg) && |filename| < Npos
    ensures var t := TypeOf(filename);
      var o := ImportVolume(reg, filename, volume, env);
      var p := CreateRetryingNull(reg, t, SymbolPrefix + t, Env(env.getSymbol, invoke), VolumeType);
      o.reg == p.reg && o.lookups == p.lookups
  {
  }

  /**
   * An unknown type that the loader later learns is picked up on the next
   * call, and the importer always receives the resolved path.
   */
  lemma UnknownTypeRecovers(reg: Reg, filename: string, volume: Option<nat>, env: LoaderEnv, env2: LoaderEnv)
    requires Valid(reg) && |filename| < Npos
    requires var t := TypeOf(filename);
      !HasKey(reg, t) && env.getSymbol(SymbolPrefix + t).None? && env2.getSymbol(SymbolPrefix + t).Some?
    ensures var t := TypeOf(filename);
      var o := ImportVolume(reg, filename, volume, env);
      var o2 := ImportVolume(o.reg, filename, volume, env2);
      o.volume.None? && o.warning.Some? &&
      o2.lookups == [SymbolPrefix + t] && o2.warning.None? &&
      o2.volume == env2.importWith(env2.getSymbol(SymbolPrefix + t).value, env2.fullPath(filename), volume)
  {
    var t := TypeOf(filename);
    AssignSpec(reg, t, None);
  }
}

=== FILE: wrappers.dfy ===
/** Failure-compatible helper datatypes shared by every module of the model. */
module Wrappers {

  /** A value that may be absent; stands for a possibly-null pointer. */
  datatype Option<+T> = None | Some(value: T) {
    predicate IsFailure() { None? }

    function PropagateFailure<U>(): Option<U>
      requires None?
    {
      None
    }

    function Extract(): T
      requires Some?
    {
      value
    }

    function GetOr(default: T): T {
      match this
      case Some(v) => v
      case None => default
    }
  }

  /** Either a value or the error the source raises instead of returning one. */
  datatype Result<+R, +E> = Success(value: R) | Failure(error: E) {
    predicate IsFailure() { Failure? }

    function PropagateFailure<U>(): Result<U, E>
      requires Failure?
    {
      Failure(error)
    }

    function Extract(): R
      requires Success?
    {
      value
    }
  }
}
